=== FILE: README.md ===
# Incremental Java compiler: a Dafny model of its build decisions

This project models the part of daxzel/incremental-compiler that decides what to recompile.
The compiler keeps a record of the previous build: for every compiled `.java` file, its relative
path, the digest of its source, the digest of its `.class` file, and the set of files that depend
on it (`filesDependsOnMe`). On the next run it uses that record to choose which sources to hand
to `javac`, which stale class files to delete, and what record to write. The repository holds
several iterations of this logic side by side. Each is modelled against one shared abstract world:

- **Filesystem.** A finite map from path to a regular file (its bytes) or a directory
  (`FileSystem.Fs`).
- **Digests.** An uninterpreted function from bytes to a digest. `HashFile` gives none for a
  missing file, where the latest staged scheduler uses `?:`. `HashOrFail` raises on a missing
  file. It models `getMD5` of `compilation/JavaSourcesHelper.kt`, which has no absent case and
  is the one the two-pass scheduler and the earlier staged scheduler call.
- **javac.** An oracle that appends the source to a compile log. It may rewrite or erase that
  source's class file and nothing else. Its result never steers the control flow.
- **Class-file analysis.** An uninterpreted function from class bytes to a class name and the
  set of class names it mentions.
- **Faults.** Every exception that ends a run is a `Fault` in a `Result`:
  - the extension assertion in `javaToClassFilename`;
  - reading a missing file;
  - a recursion deeper than the stack allows;
  - a duplicate key in `Collectors.toMap`;
  - `listFiles()` of a non-directory.

  A `Fault` carries no state: a run that fails has no resulting filesystem or compile log in the
  model (see "## Left out").

Kotlin `assert` is modelled as enabled.

The modules follow the program:

- `Collections` (`collections.dfy`): insertion-ordered sets as duplicate-free sequences, the
  order on names by code point (the order of `compareTo` for names in the Basic Multilingual
  Plane), and a deterministic enumeration of a set.
- `FileNames` (`file_names.dfy`):
  - `getExtension` and `removeExtension` over the last dot of the final path segment;
  - `resolve` and `relativize`;
  - `javaToClassFilename`;
  - the round trip between a stored path string and the parsed path.
- `FileSystem` (`file_system.dfy`): the filesystem, digests, deletion and the javac step.
- `BuildDb` (`build_db.dfy`):
  - the records `BuildFileInfo` and `BuildInfo`, with reverse edges held as sets of relative
    paths rather than object references;
  - the `getBuildFileInfo` lookup;
  - the reverse-edge rebuild shared by every iteration.
- `JavaSources` (`java_sources.dfy`): `JavaToClass.get`, `walkJavaClasses` over a given walk,
  the `toMap` collection, and `getSHA1`.
- `Stages` (`stages.dfy`): the latest staged scheduler in `CompilerHelper.kt`. Its four stages
  thread a `CompilationContext` of `recompiled` and `recompileRequired`:
  - `cleanClassesForRemovedFiles`;
  - `compileNewAndChanged`;
  - `compileDependencies`;
  - `fillUpNewBuildInfo`.

  Its helpers `requiresRecompilation` and `scheduleDependenciesForCompilation` are modelled too.
  Two quirks are reproduced literally: the cleanup loop `return`s at the first record that is
  still listed, and the scheduler's `add` is guarded by `contains`, so it never adds anything.
  No function of the program runs the four stages together. `Stages.Build` is the model's own
  driver that runs them in order, so that whole staged runs can be stated.
- `StagesEarlier` (`stages_earlier.dfy`): the earlier iteration of the staged scheduler.
  - Its cleanup rule `cleanClassesBasedOnRemoved`.
  - Its `requiresRecompilation`, `compileNewAndChanged` loop and `fillUpNewBuildInfo` gather
    are written like the latest ones, but their `getMD5` raises on a missing file. The `?:`
    guards in them never fire, so a missing source or class file ends the run. Each of these is
    modelled with `HashOrFail` and proved to agree with its `Stages` counterpart whenever it
    does not raise.
  - Its `compileDependencies`, `scheduleDependenciesForCompilation` and edge rebuild do not
    hash anything and are the same as the latest ones. They are modelled by the same `Stages`
    members.
- `TwoPass` (`two_pass.dfy`): `internalCompile` of `IncrementalCompiler.kt`, which is duplicated
  in the incremental `compile` of `compilation/Compiler.kt`.
  - The first pass skips a walked file whose source digest and current class digest match its
    old record.
  - Otherwise it compiles the file, records it, and queues the file's direct dependents.
  - The second pass compiles the queued paths that were not built in the first.
  - Finally the reverse edges are rebuilt from the class analysis.
- `IncrementalCompiler` (`incremental_compiler.dfy`): the entry point `compile`, the
  non-incremental `Compiler.compile`, and the theorems that relate them to the two-pass
  scheduler. Among them: a second run over the same unchanged tree and walk makes no javac
  call, and one or two calls follow when exactly one of the walked files is out of date.
- `DirTree` (`dir_tree.dfy`): the directory comparisons.
  - `collectInputStreams` walks depth-first with name-sorted listings.
  - The directory digest and `compareClasses` are built on it.
  - `compareTwoDirs` and `equate` compare two trees position by position.
- `Findings` (`findings.dfy`): the two quirks above, each shown on a concrete input, and the
  corrected stages with the intended property proved.

One design choice concerns iteration order. Sets whose order the code does not fix are
iterated in a fixed order: the map `javaFiles` in an explicit key order, and `filesDependsOnMe`
in ascending path order. The recursion depth of `scheduleDependenciesForCompilation` is bounded
by the stack size the environment allows. Running out of stack is the `StackOverflow` fault.

The program's own text expects more than its code does:

- The TODO at `src/main/kotlin/com/daxzel/compiler/CompilerHelper.kt:168-169` speaks of
  scheduling "the whole" of a file's dependents for recompilation. The guarded `add` at line 166
  never schedules one (see Findings).
- The comment at `src/main/kotlin/com/daxzel/compiler/CompilerHelper.kt:53` says that records
  still listed are skipped. The `return` at line 55 ends the whole cleanup instead (see
  Findings).
- `src/test/kotlin/com/daxzel/compiler/CompileThreeClassesTest.kt:30` expects the third class to
  be rebuilt after the second fails. Neither scheduler reaches a dependent of a dependent: the
  staged one schedules none, and the two-pass one queues direct dependents only.
- The documentation of `fillUpNewBuildInfo` at
  `src/main/kotlin/com/daxzel/compiler/CompilerHelper.kt:113-114` says that it also stores the
  files that did not need recompilation. Its loop at line 122 runs over `recompiled` only.
  `Stages.BuildCompilesChanged` states the behaviour as written: the new build holds records
  only for the files the run compiled. A file the run skipped therefore has no record in it,
  and the run after that compiles it again.

The model follows the code, and the theorems state what the code does.

Two call sites do not match the types they use, and the model settles each one:

- `IncrementalCompiler.kt:27` builds a `CompilationInfo` with four arguments where the class
  has five fields. The model's `CompilationInfo` has no javac field; javac comes from the
  environment.
- `IncrementalCompiler.kt:24-25` keys the `toMap` collection by `JavaToClass::relativePath`, a
  `Path`. `CompilationInfo.javaFiles` is a `Map<String, JavaToClass>` and is looked up by
  `relativePathStr`. The model keys the map by the relative path's string form throughout.

## Model

| member | source | states |
|---|---|---|
| Collections.Add | src/main/kotlin/com/daxzel/compiler/CompilerHelper.kt:31-37 | adding to an insertion-ordered set (`recompiled`, `recompileRequired`, `filesToBuild`) appends the element exactly when it is absent; membership afterwards is the old membership plus the element, and a duplicate-free set stays duplicate-free |
| Collections.AddAll | src/main/kotlin/com/daxzel/compiler/IncrementalCompiler.kt:73-75 | adding a sequence of paths in order keeps everything already in the set in its place, the members afterwards are exactly the old ones and the added ones, and no element appears twice |
| Collections.AddAllAppends | src/main/kotlin/com/daxzel/compiler/IncrementalCompiler.kt:72-76 | what the additions append is exactly the added elements that were not already present, each once |
| Collections.AddAllFresh | src/main/kotlin/com/daxzel/compiler/CompilerHelper.kt:88-90 | adding distinct elements none of which is present appends them in order |
| Collections.LessIrreflexive | src/main/kotlin/com/daxzel/compiler/JavaSourcesHelper.kt:89 | the name order used to sort a listing (`String.compareTo`) is irreflexive |
| Collections.LessAsymmetric | src/main/kotlin/com/daxzel/compiler/JavaSourcesHelper.kt:89 | the name order is asymmetric |
| Collections.LessTransitive | src/main/kotlin/com/daxzel/compiler/JavaSourcesHelper.kt:89 | the name order is transitive |
| Collections.LessTotal | src/main/kotlin/com/daxzel/compiler/JavaSourcesHelper.kt:89 | any two different names are ordered one way or the other |
| Collections.Less | src/main/kotlin/com/daxzel/compiler/JavaSourcesHelper.kt:89 | the order on names by code point, which is `String.compareTo` for names in the Basic Multilingual Plane: a name is never before itself, and a proper prefix comes before the longer name |
| Collections.LeastExists | src/main/kotlin/com/daxzel/compiler/CompilerHelper.kt:163 | every non-empty set of paths has a least element, so a set can be iterated in a fixed order |
| Collections.LeastUnique | src/main/kotlin/com/daxzel/compiler/CompilerHelper.kt:163 | the least element of a set is unique, so that iteration order is deterministic |
| Collections.Enumerate | src/main/kotlin/com/daxzel/compiler/CompilerHelper.kt:163 | the iteration over a set of paths (`filesDependsOnMe`) visits every member exactly once, in ascending order, and nothing else |
| FileNames.ExtensionIndexBefore | src/main/kotlin/com/daxzel/compiler/JavaSourcesHelper.kt:36 | the extension dot `getExtension` uses is the last dot with no dot or separator after it; no index is found only when every dot is followed by a separator |
| FileNames.GetExtension | src/main/kotlin/com/daxzel/compiler/JavaSourcesHelper.kt:36 | `getExtension` yields a plain extension: one with no dot and no separator in it |
| FileNames.RemoveExtension | src/main/kotlin/com/daxzel/compiler/JavaSourcesHelper.kt:48 | `removeExtension` never lengthens a path; when it changes the path, what it drops starts at a dot |
| FileNames.ExtensionSplit | src/main/kotlin/com/daxzel/compiler/JavaSourcesHelper.kt:45-50 | taking a path apart into `removeExtension` and `getExtension` loses nothing: the stem, a dot and the extension give back the path |
| FileNames.WithExtension | src/main/kotlin/com/daxzel/compiler/JavaSourcesHelper.kt:49 | appending `.` and a plain extension gives a path whose extension is that one and whose stem is the original path |
| FileNames.RelativizeResolve | src/main/kotlin/com/daxzel/compiler/IncrementalCompiler.kt:52-53 | `relativize` undoes `resolve` below the input directory |
| FileNames.ResolveRelativize | src/main/kotlin/com/daxzel/compiler/IncrementalCompiler.kt:52-53 | a path below the root is the root resolved against its relativised form |
| FileNames.Resolve | src/main/kotlin/com/daxzel/compiler/IncrementalCompiler.kt:53 | `resolve` below a root; it carries no contract of its own, and its partner is `FileNames.RelativizeResolve` |
| FileNames.Relativize | src/main/kotlin/com/daxzel/compiler/IncrementalCompiler.kt:52 | `relativize` of a path below a root; it carries no contract of its own, and its partner is `FileNames.ResolveRelativize` |
| FileNames.RelativizeExtension | src/main/kotlin/com/daxzel/compiler/JavaSourcesHelper.kt:36-38 | relativising a walked path does not change its extension |
| FileNames.ResolveInjective | src/main/kotlin/com/daxzel/compiler/JavaSourcesHelper.kt:23-26 | resolving two different relative paths below one root gives different paths |
| FileNames.ResolveExtension | src/main/kotlin/com/daxzel/compiler/JavaSourcesHelper.kt:24 | the extension and the stem of `outputDir.resolve(rel)` are those of `rel`, below the root |
| FileNames.ClassFileName | src/main/kotlin/com/daxzel/compiler/JavaSourcesHelper.kt:48-49 | a class file name has the `class` extension and keeps the stem of its source |
| FileNames.JavaToClassFilename | src/main/kotlin/com/daxzel/compiler/JavaSourcesHelper.kt:45-50 | succeeds exactly when the path has the `java` extension and otherwise fails the assertion; on success the result has the `class` extension, the same stem, and gives back the source path by swapping the extension back |
| FileNames.ClassFileNameInjective | src/main/kotlin/com/daxzel/compiler/JavaSourcesHelper.kt:45-50 | two different java sources never share a class file name |
| FileNames.ClassFileNameNotJava | src/main/kotlin/com/daxzel/compiler/JavaSourcesHelper.kt:45-50 | a class file name is never a java source name |
| FileNames.ParseShow | src/main/kotlin/com/daxzel/compiler/CompilationDb.kt:28-29 | a path parsed from its own printed form is the same path |
| FileNames.ShowParse | src/main/kotlin/com/daxzel/compiler/CompilationDb.kt:28-29 | a path string in normal form, parsed and printed again, is the same string |
| FileNames.Parse | src/main/kotlin/com/daxzel/compiler/CompilationDb.kt:28-29 | `Paths.get` of a stored path string gives a path whose segments are non-empty and hold no separator |
| FileNames.Show | src/main/kotlin/com/daxzel/compiler/CompilationDb.kt:28-29 | printing a path whose segments are non-empty and hold no separator gives a string in normal form, which `FileNames.ShowParse` parses back |
| FileSystem.HashFile | src/main/kotlin/com/daxzel/compiler/CompilerHelper.kt:124-130 | the `?:`-checked digest is present exactly when a regular file is at the path, and is then the digest of its content |
| FileSystem.HashOrFail | src/main/kotlin/com/daxzel/compiler/compilation/JavaSourcesHelper.kt:41-45 | `getMD5` succeeds exactly on a regular file, agreeing with the checked digest, and raises on a missing path |
| FileSystem.ReadClassInfo | src/main/kotlin/com/daxzel/compiler/IncrementalCompiler.kt:90 | `getClassInfo` reads a class file that exists and raises on a missing one |
| FileSystem.DeleteIfExists | src/main/kotlin/com/daxzel/compiler/CompilerHelper.kt:63 | `Files.deleteIfExists` leaves nothing at the path and every other path as it was |
| FileSystem.Javac | src/main/kotlin/com/daxzel/compiler/CompilerHelper.kt:89 | a javac call appends its source to the compile log and changes nothing but the source's class file |
| FileSystem.ApplyEffect | src/main/kotlin/com/daxzel/compiler/CompilerHelper.kt:89 | what javac writes touches only the class file of the compiled source: every other path holds what it held |
| FileSystem.AgreeObservations | src/main/kotlin/com/daxzel/compiler/CompilerHelper.kt:176-189 | two filesystems that hold the same thing at a path give the same digest, class analysis and existence answers there |
| BuildDb.FindRecord | src/main/kotlin/com/daxzel/compiler/CompilationDb.kt:44-46 | the first-or-null query returns a record of the build with the requested path string, and returns none exactly when no record has that path |
| BuildDb.GetBuildFileInfo | src/main/kotlin/com/daxzel/compiler/CompilationDb.kt:42-47 | `getBuildFileInfo` returns a record whose `relativePathStr` is the query's string form, and null exactly when no record has that path |
| BuildDb.FindRecordUnique | src/main/kotlin/com/daxzel/compiler/CompilationDb.kt:42-47 | when no two records share a path, looking up a record's own path finds exactly that record |
| BuildDb.LookupFindsRecord | src/main/kotlin/com/daxzel/compiler/CompilationDb.kt:42-47 | the same for `getBuildFileInfo` on a whole build |
| BuildDb.RelativePathRoundTrip | src/main/kotlin/com/daxzel/compiler/CompilationDb.kt:28-29 | the stored path string and the parsed `relativePath` describe the same path, both ways round |
| BuildDb.LinkDependents | src/main/kotlin/com/daxzel/compiler/CompilerHelper.kt:143-150 | the reverse-edge rebuild keeps every record in place with its path and both digests, and only adds edges; which edges it adds is stated by `BuildDb.LinkDependentsWellFormed` |
| BuildDb.LinkDependentsWellFormed | src/main/kotlin/com/daxzel/compiler/CompilerHelper.kt:143-150 | the rebuilt graph has no self-edges and links only records made in this run; an edge X to Y is there exactly when X's class mentions Y's class, and the set of paths is unchanged |
| JavaSources.Get | src/main/kotlin/com/daxzel/compiler/JavaSourcesHelper.kt:23-26 | `JavaToClass.get` keeps the relative path, puts the source below the input directory and the class file at `javaToClassFilename` below the output directory; a non-java path fails the assertion |
| JavaSources.GetSeparates | src/main/kotlin/com/daxzel/compiler/JavaSourcesHelper.kt:23-26 | no target's source is another target's class file, and different relative paths give different sources and different class files |
| JavaSources.TargetOf | src/main/kotlin/com/daxzel/compiler/JavaSourcesHelper.kt:37-40 | the target of a walked java file is `JavaToClass.get` of its path relative to the input directory |
| JavaSources.WalkJavaClasses | src/main/kotlin/com/daxzel/compiler/JavaSourcesHelper.kt:33-41 | the walk yields at most one target per walked path |
| JavaSources.WalkMembers | src/main/kotlin/com/daxzel/compiler/JavaSourcesHelper.kt:33-41 | every yielded target comes from a walked regular java file, and every walked regular java file yields its target |
| JavaSources.WalkTargets | src/main/kotlin/com/daxzel/compiler/JavaSourcesHelper.kt:33-41 | on a genuine walk every target's source is the walked file itself and exists, and no two targets share a relative path |
| JavaSources.WalkKeysDistinct | src/main/kotlin/com/daxzel/compiler/IncrementalCompiler.kt:24-25 | on a genuine walk the keys of the walked targets are distinct, so the `toMap` collection cannot meet a key twice |
| JavaSources.ToMap | src/main/kotlin/com/daxzel/compiler/IncrementalCompiler.kt:24-25 | `Collectors.toMap` succeeds exactly when no key repeats; its keys are then the targets' relative paths and each maps to its target |
| JavaSources.GetSha1 | src/main/kotlin/com/daxzel/compiler/JavaSourcesHelper.kt:61-69 | `getSHA1` is null exactly when nothing exists at the path, fails its assertion on a directory, and on a file is the file's digest |
| JavaSources.Sha1AgreesWithMd5 | src/main/kotlin/com/daxzel/compiler/compilation/JavaSourcesHelper.kt:41-45 | on a regular file `getSHA1` and `getMD5` agree; on a missing path `getSHA1` is null while `getMD5` raises |
| Stages.Listing | src/main/kotlin/com/daxzel/compiler/CompilerHelper.kt:79 | the listing `javaFiles.values` holds exactly the targets of the listed keys |
| Stages.PreviousRecord | src/main/kotlin/com/daxzel/compiler/CompilerHelper.kt:80-81 | without a previous build there is no record; a record found is a record of the previous build with the file's relative path, and a record is found exactly when the previous build has one with that path |
| Stages.Skips | src/main/kotlin/com/daxzel/compiler/CompilerHelper.kt:80-87 | the skip decision of `compileNewAndChanged`; it carries no contract of its own, and `Stages.SkipsExactly` and `Stages.ToCompile` state it |
| Stages.SkipsExactly | src/main/kotlin/com/daxzel/compiler/CompilerHelper.kt:80-87 | `compileNewAndChanged` passes over a listed file exactly when it has a prior record and both current digests equal the recorded ones |
| Stages.RequiresRecompilation | src/main/kotlin/com/daxzel/compiler/CompilerHelper.kt:176-189 | false exactly when both current digests exist and equal the recorded source and class digests; true when either file is missing or either digest differs; the earlier chain at src/main/kotlin/com/daxzel/compiler/compilation/CompilerHelper.kt:120-133 raises on a missing file instead (`StagesEarlier.RequiresRecompilationEarlier`) |
| Stages.ScheduleDependencies | src/main/kotlin/com/daxzel/compiler/CompilerHelper.kt:158-171 | the guarded add never enlarges `recompileRequired`: on success the context is unchanged, nothing happens without a previous build or a record, and the only failure is running out of stack; the scheduler at src/main/kotlin/com/daxzel/compiler/compilation/CompilerHelper.kt:102-118 is the same |
| Stages.ScheduleEach | src/main/kotlin/com/daxzel/compiler/CompilerHelper.kt:163-173 | the loop over a record's dependents leaves the context unchanged or runs out of stack |
| Stages.ToCompile | src/main/kotlin/com/daxzel/compiler/CompilerHelper.kt:80-87 | a listed file is compiled exactly when it has no prior record or `requiresRecompilation` holds for it |
| Stages.CompileNewAndChanged | src/main/kotlin/com/daxzel/compiler/CompilerHelper.kt:78-92 | the stage cannot fail while nothing is required (the state every run is in), and leaves `recompileRequired` as it was |
| Stages.CompileNewFrom | src/main/kotlin/com/daxzel/compiler/CompilerHelper.kt:78-92 | the loop over the remaining listed files cannot fail while nothing is required, and leaves `recompileRequired` as it was |
| Stages.CompileNewFromLog | src/main/kotlin/com/daxzel/compiler/CompilerHelper.kt:78-92 | `compileNewAndChanged` compiles exactly the new and changed listed files, once each in listing order, adds them to `recompiled`, and changes no file but their class files; the earlier stage at src/main/kotlin/com/daxzel/compiler/compilation/CompilerHelper.kt:42-56 does the same whenever it does not raise (`StagesEarlier.CompileNewEarlierFrom`) |
| Stages.ToCompileFrame | src/main/kotlin/com/daxzel/compiler/CompilerHelper.kt:176-189 | whether a file is compiled depends only on what is at its source and its class file |
| Stages.CompiledAgree | src/main/kotlin/com/daxzel/compiler/CompilerHelper.kt:89 | compiling one listed file leaves the source and class file of every other listed file as they were |
| Stages.CompiledFrame | src/main/kotlin/com/daxzel/compiler/CompilerHelper.kt:89 | compiling one listed file does not change the verdict on any later listed file |
| Stages.FirstBuildCompilesAll | src/main/kotlin/com/daxzel/compiler/CompilerHelper.kt:78-92 | with no previous build every listed file is compiled exactly once, in listing order, `recompiled` becomes the whole listing and nothing is required |
| Stages.NoToCompileSkips | src/main/kotlin/com/daxzel/compiler/CompilerHelper.kt:80 | with no previous build no file is skipped |
| Stages.CompileRequiredFrom | src/main/kotlin/com/daxzel/compiler/CompilerHelper.kt:103-108 | the loop over `recompileRequired` adds each required file to `recompiled` and compiles exactly the ones it adds, in order |
| Stages.CompileDependencies | src/main/kotlin/com/daxzel/compiler/CompilerHelper.kt:102-109 | afterwards every required and every earlier recompiled file is in `recompiled`, the compile log grows by exactly the files added, and `recompileRequired` is unchanged |
| Stages.CompileDependenciesExact | src/main/kotlin/com/daxzel/compiler/CompilerHelper.kt:102-108 | `compileDependencies` compiles exactly `recompileRequired` minus `recompiled`, each once, and nothing when nothing is required; src/main/kotlin/com/daxzel/compiler/compilation/CompilerHelper.kt:58-65 is the same stage |
| Stages.RecordOf | src/main/kotlin/com/daxzel/compiler/CompilerHelper.kt:124-136 | a recompiled file gets a record exactly when both its source and its class file exist; the record holds its relative path, both current digests and no edges |
| Stages.Gather | src/main/kotlin/com/daxzel/compiler/CompilerHelper.kt:122-141 | the loop appends records to what was there: one for every recompiled file with both digests, and none that is not such a file's record |
| Stages.GatherUnique | src/main/kotlin/com/daxzel/compiler/CompilerHelper.kt:122-141 | files with distinct paths give records with unique paths, and every built class is filed under its own record |
| Stages.FillUpNewBuildInfo | src/main/kotlin/com/daxzel/compiler/CompilerHelper.kt:120-152 | `fillUpNewBuildInfo` keeps the folder and the records already in the new build, appending after them |
| Stages.FillUpRecords | src/main/kotlin/com/daxzel/compiler/CompilerHelper.kt:122-138 | every recompiled file with both digests has an added record with its path and digests, and every added record is such a file's record; a file missing a digest gets none |
| Stages.FillUpGraph | src/main/kotlin/com/daxzel/compiler/CompilerHelper.kt:143-150 | the added records are linked by class mentions: no self-edges, edges only between records of this run, and an edge exactly where one built class mentions another; src/main/kotlin/com/daxzel/compiler/compilation/CompilerHelper.kt:91-99 builds the same graph |
| Stages.FirstListed | src/main/kotlin/com/daxzel/compiler/CompilerHelper.kt:50-56 | the scan's stopping point is the first prior record whose path is still listed; every record before it is unlisted |
| Stages.CleanFrom | src/main/kotlin/com/daxzel/compiler/CompilerHelper.kt:50-68 | the cleanup loop as written: a still-listed record ends the whole stage, on success the context is unchanged, it can fail only by the extension assertion or by stack overflow, and it succeeds when the unlisted records before the stop are java paths |
| Stages.CleanClassesForRemovedFiles | src/main/kotlin/com/daxzel/compiler/CompilerHelper.kt:46-69 | without a previous build nothing happens; otherwise the context is unchanged on success |
| Stages.StaleFrame | src/main/kotlin/com/daxzel/compiler/CompilerHelper.kt:60-63 | deleting one class file never changes which prior records count as removed |
| Stages.CleanFromDeletes | src/main/kotlin/com/daxzel/compiler/CompilerHelper.kt:50-68 | the cleanup deletes exactly the class files of the removed records before the first still-listed record, and nothing else |
| Stages.Build | src/main/kotlin/com/daxzel/compiler/CompilerHelper.kt:46-152 | the model's own driver, since no function of the program runs the four stages together: a run cannot fail without a previous build, and its record is filed under the input directory, which is the model's choice (the entry point sets the folder at src/main/kotlin/com/daxzel/compiler/IncrementalCompiler.kt:36, `fillUpNewBuildInfo` does not) |
| Stages.BuildCompilesChanged | src/main/kotlin/com/daxzel/compiler/CompilerHelper.kt:46-152 | a staged run compiles exactly the listed files that are new or changed after the cleanup, once each in listing order, and no dependents; its records are exactly those of the compiled files that have both digests |
| Stages.CompileStagesChanged | src/main/kotlin/com/daxzel/compiler/CompilerHelper.kt:78-109 | the two compile stages together compile the changed files and `recompiled` is exactly them |
| StagesEarlier.CleanBasedOnRemovedFrom | src/main/kotlin/com/daxzel/compiler/compilation/CompilerHelper.kt:28-39 | records absent from the listing are ignored; the stage cannot fail while nothing is required, leaves the context unchanged, and changes nothing when no listed source is gone |
| StagesEarlier.CleanClassesBasedOnRemoved | src/main/kotlin/com/daxzel/compiler/compilation/CompilerHelper.kt:24-40 | without a previous build nothing happens; otherwise the context is unchanged |
| StagesEarlier.GoneFrame | src/main/kotlin/com/daxzel/compiler/compilation/CompilerHelper.kt:32-33 | deleting a listed file's class never makes a listed source disappear |
| StagesEarlier.CleanBasedOnRemovedDeletes | src/main/kotlin/com/daxzel/compiler/compilation/CompilerHelper.kt:28-39 | the earlier cleanup deletes exactly the class files of the records whose path is still listed but whose source is gone |
| StagesEarlier.RequiresRecompilationEarlier | src/main/kotlin/com/daxzel/compiler/compilation/CompilerHelper.kt:120-133 | the earlier `requiresRecompilation` raises exactly when the source or the class file is missing, naming the source first; otherwise it gives the latest check's answer, so its `?: return true` guards never fire |
| StagesEarlier.SkipsEarlier | src/main/kotlin/com/daxzel/compiler/compilation/CompilerHelper.kt:44-50 | the earlier skip decision raises exactly when the file has a prior record and lacks its source or class file; otherwise it agrees with `Stages.Skips` |
| StagesEarlier.CompileNewEarlierFrom | src/main/kotlin/com/daxzel/compiler/compilation/CompilerHelper.kt:42-56 | the earlier `compileNewAndChanged` loop, when it completes, does exactly what the latest one does, and is the latest one without a previous build; it fails only by a missing file or by stack overflow |
| StagesEarlier.MissingClassRaises | src/main/kotlin/com/daxzel/compiler/compilation/CompilerHelper.kt:125-126 | a recorded file whose class file is gone makes the earlier stage raise on that class file, while the latest stage compiles the file and adds it to `recompiled` |
| StagesEarlier.RecordOfEarlier | src/main/kotlin/com/daxzel/compiler/compilation/CompilerHelper.kt:72-84 | the earlier record for a file raises exactly where the latest stage makes no record, naming the source first, and is otherwise the latest record |
| StagesEarlier.GatherEarlier | src/main/kotlin/com/daxzel/compiler/compilation/CompilerHelper.kt:70-89 | the earlier gathering loop completes exactly when every recompiled file has its source and class file, and then gathers what `Stages.Gather` gathers; its `?: continue` guards never fire |
| StagesEarlier.FillUpNewBuildInfoEarlier | src/main/kotlin/com/daxzel/compiler/compilation/CompilerHelper.kt:68-100 | the earlier `fillUpNewBuildInfo` raises exactly when a recompiled file lost its source or class file, and otherwise builds the same record as the latest stage |
| TwoPass.OldRecord | src/main/kotlin/com/daxzel/compiler/IncrementalCompiler.kt:55-62 | the old record of a walked file is one of the previous build's records with its relative path, and there is none exactly when there is no previous build or no record with that path |
| TwoPass.UpToDate | src/main/kotlin/com/daxzel/compiler/IncrementalCompiler.kt:64-69 | a walked file is up to date only when there is a previous build and both the file and its class file are present |
| TwoPass.Fresh | src/main/kotlin/com/daxzel/compiler/IncrementalCompiler.kt:64-70 | a walked regular file that is not up to date is compiled in the first pass; it carries no contract of its own, and `TwoPass.FreshWhenClassMissing` and `TwoPass.FreshSources` state it |
| TwoPass.FreshWhenClassMissing | src/main/kotlin/com/daxzel/compiler/IncrementalCompiler.kt:64-69 | a regular file whose class file is gone is always compiled in the first pass, whatever its old record says |
| TwoPass.Dependents | src/main/kotlin/com/daxzel/compiler/IncrementalCompiler.kt:72-76 | the queued paths are exactly the old record's `filesDependsOnMe`, resolved below the input directory, each once |
| TwoPass.CheckOld | src/main/kotlin/com/daxzel/compiler/compilation/Compiler.kt:46-52 | with an old record the check needs the class file to exist; it says skip exactly when the source digest and the current class digest equal the recorded ones |
| TwoPass.CompileOne | src/main/kotlin/com/daxzel/compiler/IncrementalCompiler.kt:80-92 | javac, then a new record with the post-compile digests and the relative path and no edges, and the class filed under its name; it fails exactly when the source or the class file is missing after the call |
| TwoPass.VisitWalked | src/main/kotlin/com/daxzel/compiler/IncrementalCompiler.kt:47-93 | a non-file is passed over, a regular non-java file fails the extension assertion, an up-to-date file is skipped, and a fresh file is compiled once, marked built, and its direct dependents are queued |
| TwoPass.RebuildQueued | src/main/kotlin/com/daxzel/compiler/IncrementalCompiler.kt:95-117 | a queued path already built is passed over; any other is compiled once, and only class files change |
| TwoPass.FreshSources | src/main/kotlin/com/daxzel/compiler/IncrementalCompiler.kt:64-70 | a walked file is compiled in the first pass exactly when it is a regular file and not up to date against its old record |
| TwoPass.QueueAfter | src/main/kotlin/com/daxzel/compiler/IncrementalCompiler.kt:72-76 | the queue holds exactly what was queued before and the direct dependents of the compiled files, without repeats; no transitive closure is taken |
| TwoPass.Unbuilt | src/main/kotlin/com/daxzel/compiler/IncrementalCompiler.kt:95-96 | the second pass considers exactly the queued paths not built in the first pass |
| TwoPass.FirstPassRejects | src/main/kotlin/com/daxzel/compiler/IncrementalCompiler.kt:53 | a walked regular file without the `java` extension ends the run with a failed assertion |
| TwoPass.FirstPass | src/main/kotlin/com/daxzel/compiler/IncrementalCompiler.kt:47-93 | the first pass only appends to the compile log, and only walked paths; it keeps everything marked built, and everything it queues was queued before or is a direct dependent of a walked path |
| TwoPass.SecondPass | src/main/kotlin/com/daxzel/compiler/IncrementalCompiler.kt:95-117 | the second pass marks nothing new as built and only appends to the compile log, and only queued paths not built in the first pass |
| TwoPass.InternalCompile | src/main/kotlin/com/daxzel/compiler/IncrementalCompiler.kt:41-128 | `internalCompile` only appends to the compile log, and each path it appends is walked or a direct dependent of a walked path |
| TwoPass.FirstPassPlan | src/main/kotlin/com/daxzel/compiler/IncrementalCompiler.kt:47-93 | the first pass compiles exactly the fresh walked files, in walk order, marks them built and queues their direct dependents; src/main/kotlin/com/daxzel/compiler/compilation/Compiler.kt:29-75 is the same first pass |
| TwoPass.SecondPassPlan | src/main/kotlin/com/daxzel/compiler/IncrementalCompiler.kt:95-117 | the second pass compiles exactly the queued paths not built in the first pass, in queue order; src/main/kotlin/com/daxzel/compiler/compilation/Compiler.kt:77-84 is the same second pass |
| TwoPass.CurrentKept | src/main/kotlin/com/daxzel/compiler/IncrementalCompiler.kt:82-88 | compiling one more source keeps every earlier record's digests current |
| TwoPass.CompileOneKeeps | src/main/kotlin/com/daxzel/compiler/IncrementalCompiler.kt:80-92 | each compile adds exactly one record, in compile order, naming the compiled source, with unique paths and current digests |
| TwoPass.FirstPassKeeps | src/main/kotlin/com/daxzel/compiler/IncrementalCompiler.kt:47-93 | the first pass keeps one current record per compile |
| TwoPass.SecondPassKeeps | src/main/kotlin/com/daxzel/compiler/IncrementalCompiler.kt:95-117 | the second pass keeps one current record per compile |
| TwoPass.InternalCompileLog | src/main/kotlin/com/daxzel/compiler/IncrementalCompiler.kt:41-128 | `internalCompile` hands javac the fresh walked files in walk order, then their direct dependents not already compiled in queue order; no path twice |
| TwoPass.InternalCompileRecords | src/main/kotlin/com/daxzel/compiler/IncrementalCompiler.kt:82-127 | every compile has exactly one new record, in compile order, with its relative path and post-compile digests; the records form a well-formed graph |
| TwoPass.RecordsLinked | src/main/kotlin/com/daxzel/compiler/IncrementalCompiler.kt:119-127 | rebuilding edges keeps the records current and makes a graph without self-edges between records of this run; src/main/kotlin/com/daxzel/compiler/compilation/Compiler.kt:101-109 is the same edge rebuild |
| TwoPass.FirstPassSourcesKept | src/main/kotlin/com/daxzel/compiler/IncrementalCompiler.kt:47-93 | the first pass changes no file but class files |
| TwoPass.SecondPassSourcesKept | src/main/kotlin/com/daxzel/compiler/IncrementalCompiler.kt:95-117 | the second pass changes no file but class files |
| TwoPass.InternalCompileSourcesKept | src/main/kotlin/com/daxzel/compiler/IncrementalCompiler.kt:41-128 | `internalCompile` changes no file but class files |
| IncrementalCompiler.Compile | src/main/kotlin/com/daxzel/compiler/IncrementalCompiler.kt:17-39 | `compile` files its new record under the input directory |
| IncrementalCompiler.CompileIsInternalCompile | src/main/kotlin/com/daxzel/compiler/IncrementalCompiler.kt:24-34 | on a genuine walk the cleanup stage deletes nothing, so `compile` is `internalCompile` on the filesystem as found, with the records filed under the input directory |
| IncrementalCompiler.WalkedFiles | src/main/kotlin/com/daxzel/compiler/compilation/Compiler.kt:16-18 | the walked paths filtered to regular files, in walk order |
| IncrementalCompiler.FullCompile | src/main/kotlin/com/daxzel/compiler/compilation/Compiler.kt:15-21 | the full build only appends to the compile log, at most once per walked path |
| IncrementalCompiler.FullCompileLog | src/main/kotlin/com/daxzel/compiler/compilation/Compiler.kt:15-21 | the full build calls javac exactly once per walked regular file, in walk order, with no change detection, and changes no file but class files |
| IncrementalCompiler.FreshWithoutRecords | src/main/kotlin/com/daxzel/compiler/compilation/Compiler.kt:37-44 | without an old build every walked regular file is compiled in the first pass |
| IncrementalCompiler.QueueWithoutRecords | src/main/kotlin/com/daxzel/compiler/compilation/Compiler.kt:54-58 | without an old build nothing is queued |
| IncrementalCompiler.CleanBuildIsFullBuild | src/main/kotlin/com/daxzel/compiler/compilation/Compiler.kt:23-110 | with no old build the incremental compile makes the same javac calls as the full compile |
| IncrementalCompiler.FirstBuildLog | src/main/kotlin/com/daxzel/compiler/compilation/Compiler.kt:37-70 | with no old build every walked regular file is compiled once, in walk order, and nothing else |
| IncrementalCompiler.InternalCompileReaches | src/main/kotlin/com/daxzel/compiler/IncrementalCompiler.kt:72-102 | the files compiled are exactly the fresh walked files and the direct dependents of those |
| IncrementalCompiler.IdleWhenNothingFresh | src/main/kotlin/com/daxzel/compiler/IncrementalCompiler.kt:64-70 | when every walked file is up to date against its old record, nothing is compiled and no record is made |
| IncrementalCompiler.RecordedUpToDate | src/main/kotlin/com/daxzel/compiler/IncrementalCompiler.kt:64-70 | a record whose digests are current makes its file up to date on the next run |
| IncrementalCompiler.SecondRunIdle | src/main/kotlin/com/daxzel/compiler/IncrementalCompiler.kt:64-70 | a second run over the same unchanged tree and walk, against the records the first run made, makes no javac call and no record |
| IncrementalCompiler.OneChangeRebuildsDependents | src/test/kotlin/com/daxzel/compiler/CompilerTwoClassesTest.kt:12-21 | when exactly one file is out of date the run compiles it first and then exactly its direct dependents: two calls when one other file depends on it, one when none does |
| DirTree.Insert | src/main/kotlin/com/daxzel/compiler/JavaSourcesHelper.kt:89 | inserting an entry keeps all entries and adds that one |
| DirTree.InsertSorted | src/main/kotlin/com/daxzel/compiler/JavaSourcesHelper.kt:89 | inserting into a name-sorted listing keeps it sorted |
| DirTree.SortByName | src/main/kotlin/com/daxzel/compiler/JavaSourcesHelper.kt:89 | `Arrays.sort` by name gives a sorted permutation of the listing |
| DirTree.SortedUnique | src/main/kotlin/com/daxzel/compiler/JavaSourcesHelper.kt:89 | two name-sorted listings of the same distinctly named entries are equal, so the sorted order does not depend on the order `listFiles` returns |
| DirTree.CollectMatches | src/main/kotlin/com/daxzel/compiler/JavaSourcesHelper.kt:87-104 | the collected streams are exactly the contents of the files below the directory whose extension is wanted, counted with multiplicity; directories are descended instead of matched |
| DirTree.CollectInputStreams | src/main/kotlin/com/daxzel/compiler/JavaSourcesHelper.kt:87-104 | nothing is collected when no extension is wanted, or when the directory holds only files whose extension is not wanted |
| DirTree.CollectEntriesMatch | src/main/kotlin/com/daxzel/compiler/compilation/FilesHelper.kt:41-51 | the loop over the sorted entries collects exactly what each entry contributes |
| DirTree.CollectOrderIndependent | src/main/kotlin/com/daxzel/compiler/compilation/JavaSourcesHelper.kt:63-81 | the collected sequence does not depend on the order the directory is listed in |
| DirTree.ConcatAppend | src/main/kotlin/com/daxzel/compiler/JavaSourcesHelper.kt:75 | reading two runs of streams in sequence reads the first run, then the second |
| DirTree.Concat | src/main/kotlin/com/daxzel/compiler/JavaSourcesHelper.kt:75 | the streams read in sequence start with the first stream, and read nothing exactly when every stream is empty |
| DirTree.DirDigest | src/main/kotlin/com/daxzel/compiler/JavaSourcesHelper.kt:71-85 | the directory digest fails its assertion exactly when the path is no directory |
| DirTree.CompareClasses | src/main/kotlin/com/daxzel/compiler/JavaSourcesHelper.kt:56-59 | `compareClasses` fails when either side is no directory and is otherwise true exactly when the two `.class` digests are equal |
| DirTree.CompareClassesSameBytes | src/main/kotlin/com/daxzel/compiler/compilation/JavaSourcesHelper.kt:36-39 | directories whose collected class bytes are equal compare equal |
| DirTree.CompareClassesOrderIndependent | src/main/kotlin/com/daxzel/compiler/JavaSourcesHelper.kt:56-59 | `compareClasses` does not depend on the order a directory is listed in |
| DirTree.AllEquatePositionwise | src/main/kotlin/com/daxzel/compiler/compilation/FilesHelper.kt:16 | the zip-all holds exactly when `equate` holds at every position |
| DirTree.CompareTwoDirs | src/main/kotlin/com/daxzel/compiler/compilation/FilesHelper.kt:12-17 | `compareTwoDirs` is false when the listings differ in length and fails when either side is no directory |
| DirTree.CompareDirs | src/main/kotlin/com/daxzel/compiler/compilation/FilesHelper.kt:12-17 | two directories compare equal only when their listings have the same length |
| DirTree.Equate | src/main/kotlin/com/daxzel/compiler/compilation/FilesHelper.kt:19-23 | two entries are equal only when both are files or both are directories; two files with the same bytes are equal |
| DirTree.CompareTwoDirsPositionwise | src/main/kotlin/com/daxzel/compiler/compilation/FilesHelper.kt:13-16 | on listings of equal length `compareTwoDirs` is true exactly when `equate` holds position by position over the sorted listings |
| DirTree.EquateIgnoresNames | src/main/kotlin/com/daxzel/compiler/compilation/SourceHelper.kt:17-18 | two files with the same bytes are equal under `equate`, whatever their names |
| DirTree.EquateReflexive | src/main/kotlin/com/daxzel/compiler/compilation/FilesHelper.kt:19-23 | `equate` is reflexive |
| DirTree.CompareDirsReflexive | src/main/kotlin/com/daxzel/compiler/compilation/SourceHelper.kt:10-21 | `compareTwoDirs` is reflexive |
| DirTree.EquateSymmetric | src/main/kotlin/com/daxzel/compiler/compilation/SourceHelper.kt:17-21 | `equate` is symmetric |
| DirTree.CompareDirsSymmetric | src/main/kotlin/com/daxzel/compiler/compilation/FilesHelper.kt:12-23 | `compareTwoDirs` is symmetric |
| DirTree.CompareTwoDirsOrderIndependent | src/main/kotlin/com/daxzel/compiler/compilation/SourceHelper.kt:10-15 | `compareTwoDirs` does not depend on the order the first directory is listed in |
| Findings.CleanupStopsEarly | src/main/kotlin/com/daxzel/compiler/CompilerHelper.kt:54-56 | on a build with a listed A and a removed B recorded after it, the cleanup as written stops at A and leaves B's class file behind; the corrected cleanup deletes it |
| Findings.CleanCorrectedFrom | src/main/kotlin/com/daxzel/compiler/CompilerHelper.kt:50-68 | the cleanup with `continue`: keeps `recompiled`, only grows `recompileRequired`, closes it over the dependents it schedules, and fails only by the extension assertion |
| Findings.CleanCorrected | src/main/kotlin/com/daxzel/compiler/CompilerHelper.kt:46-69 | the corrected stage does nothing without a previous build |
| Findings.CleanCorrectedDeletes | src/main/kotlin/com/daxzel/compiler/CompilerHelper.kt:50-68 | the corrected cleanup deletes exactly the class files of all removed records, wherever they are listed |
| Findings.CorrectedDeletesB | src/main/kotlin/com/daxzel/compiler/CompilerHelper.kt:54-56 | on the counterexample the corrected cleanup deletes B's class file |
| Findings.ScheduleMissesDependent | src/main/kotlin/com/daxzel/compiler/CompilerHelper.kt:166-167 | with B depending on A, scheduling A as written leaves B unscheduled, while the corrected scheduler schedules it |
| Findings.BuildSkipsDependent | src/main/kotlin/com/daxzel/compiler/CompilerHelper.kt:163-171 | as written, a listed file that is up to date is never compiled by a staged run, whatever changed in the files it depends on |
| Findings.ScheduleCorrected | src/main/kotlin/com/daxzel/compiler/CompilerHelper.kt:154-174 | scheduling with `!contains` schedules every listed dependent of the file, only grows the set, and closes it over the dependents of everything it adds |
| Findings.CompileNewCorrected | src/main/kotlin/com/daxzel/compiler/CompilerHelper.kt:78-92 | with the corrected scheduler every file compiled has its listed dependents required |
| Findings.CompileCorrected | src/main/kotlin/com/daxzel/compiler/CompilerHelper.kt:46-109 | the corrected cleanup followed by the two compile stages with the corrected scheduler cannot fail without a previous build |
| Findings.BuildCorrected | src/main/kotlin/com/daxzel/compiler/CompilerHelper.kt:46-152 | a staged run with the corrected cleanup and scheduler cannot fail without a previous build, and files its record under the input directory |
| Findings.CompiledClosed | src/main/kotlin/com/daxzel/compiler/CompilerHelper.kt:94-109 | after the corrected stages `recompiled` is closed under listed dependents: no dependent of a compiled file is left out |

## Left out

- `JavacRunner.kt` runs an external process. javac is the oracle in `FileSystem.Env`. The
  `CompilationResult` it returns is never read by its callers, so a failed compile is modelled
  only through the class file it leaves or does not leave.
- `compilation/JavacRunner.kt:14-17` throws `JavacError` when javac exits non-zero. That
  exception path is not modelled: the earlier iteration's compile steps are modelled by the same
  members as the latest ones, which have no such exception.
- The earlier iteration's call sites (`compilation/Compiler.kt:19`, `:62`, `:84` and
  `compilation/CompilerHelper.kt:53`, `:61`) pass three arguments to the two-argument
  `compileClass` of `compilation/JavacRunner.kt:11`. The model reads them as the three-argument
  call of the latest `JavacRunner.kt`.
- What a failed run leaves behind. A `Fault` discards the filesystem changes and javac calls
  made before it. In the code those stay: the database transaction rolls back the records, but
  class files that javac already rewrote and class files the cleanup already deleted remain so on
  disk. An example is a walk of a fresh `A.java` and then `notes.txt`. `A.class` is rewritten at
  `IncrementalCompiler.kt:80`, and then the extension assertion reached from line 53 fails on `notes.txt`. The model
  states only that the run fails (`TwoPass.FirstPassRejects`), not what it had already changed.
- `ClassInfo.kt` parses bytecode with ASM. The class analysis is an uninterpreted function.
- The MD5 and SHA-1 computations, and the stream concatenation inside the digest library.
  - One uninterpreted digest function stands for both algorithms, because only the equality of
    digests matters to the decisions.
  - No injectivity of digests is assumed.
- The digest of a path that holds a directory: `HashFile` treats it as absent and `HashOrFail`
  raises `NoSuchFile`. With assertions enabled, `getSHA1` fails its `assert(isFile)` at
  `JavaSourcesHelper.kt:65` first, as `JavaSources.GetSha1` states. `getMD5` would raise an I/O
  exception from the stream, which the model reports as `NoSuchFile`.
- Persistence:
  - `getDb`, the Xodus/DNQ transactions, and `db/CompilationDb.kt` (`storeBuildInfo`,
    `getLastBuildInfo`) are storage wrappers.
  - `BuildInfo.findOrNew` at `IncrementalCompiler.kt:32` may return the previous build's object
    itself. The model writes the new records to a fresh list, so aliasing of the old and new
    record is not modelled. In the code the new records would then be appended after the old
    ones in the same build. The next run's `getBuildFileInfo` returns the first record with a
    path, so it would find the stale old record rather than the new one.
- `CompilerUtil.kt`: command-line parsing.
- `Files.walk` and `listFiles` are replaced by data.
  - The walk is a given list of paths, in walk order. `JavaSources.WalkedBelow` states what a
    genuine walk guarantees: distinct paths below the root.
  - `TwoPass.SourceTree` adds an assumption on top: no walked path has the `class` extension.
    The code does not check this; it holds when no class file lies in the input tree.
  - A directory listing is a `DirTree.Node` tree.
- The iteration order of hash-based collections is fixed as described above. The code leaves
  it to the JVM.
- The scenario tests whose expected counts do not follow from the code:
  `src/test/kotlin/com/daxzel/compiler/CompilerTwoClassesTest.kt:45`, `CompileThreeClassesTest.kt`,
  and `IncrementalCompilerTest.kt`, which calls a three-argument `compile` that this code does not
  have. The test scaffolding and Mockito are left out too.
- Stages.Build: the model's own composition of the four stages, since no function of the
  program calls them together. The folder it records, the input directory, is the model's
  choice: `fillUpNewBuildInfo` never sets `sourceFolder`, and only the entry point at
  `IncrementalCompiler.kt:36` does. Its own contract states only the folder and the first-build
  success. What a run compiles and records is stated by `Stages.BuildCompilesChanged`, and the
  edges by `Stages.FillUpGraph`.
- Collections.Less: compares names by Unicode code point, while Kotlin's `compareTo` compares
  UTF-16 code units. The two orders differ only between a name with a character above U+FFFF and
  one with a character from U+E000 to U+FFFF at the first position where they differ. For such
  names the sort order of `DirTree.SortByName` and the pairing in `DirTree.CompareTwoDirs` may
  differ from the code.
- FileNames.JavaToClassFilename: does not model `toAbsolutePath` at `JavaSourcesHelper.kt:46`.
  Every caller passes the output directory resolved against a relative path, and the output
  directory is taken to be absolute already.
- IncrementalCompiler.SecondRunIdle: covers a second run over the same tree and the same walk.
  The scenario tests run the second build on a separate `after` directory; that case is not
  stated.
- IncrementalCompiler.Compile: its own contract states only the folder. Its relation to the
  two-pass scheduler is `IncrementalCompiler.CompileIsInternalCompile`, which requires a genuine
  walk. The cleanup stage can delete something only when a listed source is missing, and a
  genuine walk never lists one.
- TwoPass.InternalCompileRecords: states that the new records form a well-formed graph, but not
  edge by edge. The edge-by-edge statement is `BuildDb.LinkDependentsWellFormed`, about the same
  `LinkDependents` call.
- JavaSources.WalkJavaClasses: its own contract bounds the length only. Membership in both
  directions is `JavaSources.WalkMembers`.

## Findings

| source | as written | input that shows it | evidently intended | confidence | as-written member | corrected member |
|---|---|---|---|---|---|---|
| src/main/kotlin/com/daxzel/compiler/CompilerHelper.kt:54-56 | `cleanClassesForRemovedFiles` returns from the whole stage at the first prior record whose path is still listed | previous records `A.java` (still listed) then `B.java` (source gone, `/out/B.class` present): the stage stops at `A.java` and `/out/B.class` survives | skip a listed record and go on (`continue`), so the class of every removed source is deleted | high; not executed | Findings.CleanupStopsEarly | Findings.CleanCorrectedDeletes |
| src/main/kotlin/com/daxzel/compiler/CompilerHelper.kt:166-167 | the dependent is added to `recompileRequired` only when it is already there, so nothing is ever scheduled | `B.java` depends on `A.java` and A changes: scheduling A leaves `recompileRequired` empty, and an up-to-date B is never recompiled | add each listed dependent that is not yet required, then recurse (`!contains`) | high; not executed | Findings.ScheduleMissesDependent | Findings.CompiledClosed |

The as-written behaviour is what `Stages` models, since that is what the code does. The
corrected stages are `Findings.CleanCorrected`, `Findings.ScheduleCorrected`,
`Findings.CompileNewCorrected` and `Findings.CompileCorrected`, assembled in
`Findings.BuildCorrected`. Two lemmas cover the corrected cleanup:
`Findings.CleanCorrectedDeletes` proves it deletes the class of every removed record, and
`Findings.CorrectedDeletesB` shows this on the same input. `Findings.CompiledClosed` proves that
after the corrected stages no listed dependent of a compiled file is left uncompiled.
`Findings.BuildSkipsDependent` shows the as-written consequence in general: a listed file that is
up to date is never compiled by a staged run, whatever changed in the files it depends on.

=== FILE: build_db.dfy ===
/**
 * The persisted build record: one `BuildFileInfo` per compiled source, owned by a `BuildInfo`.
 * Reverse edges ("these files depend on me") are sets of relative paths into the same record
 * list, an arena keyed by path, rather than object references.
 */
module BuildDb {
  import opened Wrappers
  import opened FileNames
  import opened FileSystem

  /** What the previous build knew about one source file. */
  datatype BuildFileInfo = BuildFileInfo(
    relativePathStr: string,
    sourceHash: Digest,
    classHash: Digest,
    filesDependsOnMe: set<string>)
  {
    /** The stored path string parsed back into a path. */
    function RelativePath(): RelPath {
      Parse(relativePathStr)
    }
  }

  /** A whole build: the source folder and the records of the files it compiled. */
  datatype BuildInfo = BuildInfo(sourceFolder: string, files: seq<BuildFileInfo>)

  /** The query `files.filter { relativePathStr eq rel }.firstOrNull()`. */
  function FindRecord(files: seq<BuildFileInfo>, rel: string): (r: Option<BuildFileInfo>)
    ensures r.Some? ==> r.value in files && r.value.relativePathStr == rel
    ensures r.None? <==> forall i | 0 <= i < |files| :: files[i].relativePathStr != rel
    decreases |files|
  {
    if files == [] then None
    else if files[0].relativePathStr == rel then Some(files[0])
    else FindRecord(files[1..], rel)
  }

  /** With unique paths, looking up a record's own path finds that record. */
  lemma {:induction false} FindRecordUnique(files: seq<BuildFileInfo>, i: nat)
    requires UniquePaths(files)
    requires i < |files|
    ensures FindRecord(files, files[i].relativePathStr) == Some(files[i])
    decreases |files|
  {
    if i > 0 {
      assert files[0].relativePathStr != files[i].relativePathStr;
      assert files[1..][i - 1] == files[i];
      FindRecordUnique(files[1..], i - 1);
    }
  }

  /** getBuildFileInfo: the first record for a relative path (given in its string form). */
  function GetBuildFileInfo(b: BuildInfo, relativePath: string): (r: Option<BuildFileInfo>)
    ensures r.Some? ==> r.value in b.files && r.value.relativePathStr == relativePath
    ensures r.None? <==> forall i | 0 <= i < |b.files| :: b.files[i].relativePathStr != relativePath
  {
    FindRecord(b.files, relativePath)
  }

  /** No two records share a path: a record is identified by its path. */
  predicate UniquePaths(files: seq<BuildFileInfo>) {
    forall i, j | 0 <= i < j < |files| :: files[i].relativePathStr != files[j].relativePathStr
  }

  /** The paths of the records. */
  function Paths(files: seq<BuildFileInfo>): set<string> {
    set i | 0 <= i < |files| :: files[i].relativePathStr
  }

  /** Every reverse edge points at a record of the same build. */
  predicate EdgesInGraph(files: seq<BuildFileInfo>) {
    forall i | 0 <= i < |files| :: files[i].filesDependsOnMe <= Paths(files)
  }

  /** No record lists itself among its dependents. */
  predicate NoSelfEdges(files: seq<BuildFileInfo>) {
    forall i | 0 <= i < |files| :: files[i].relativePathStr !in files[i].filesDependsOnMe
  }

  /** The arena invariant of a build record. */
  predicate WellFormed(files: seq<BuildFileInfo>) {
    UniquePaths(files) && EdgesInGraph(files) && NoSelfEdges(files)
  }

  /** With unique paths, the lookup by a record's own path finds exactly that record. */
  lemma LookupFindsRecord(b: BuildInfo, i: nat)
    requires UniquePaths(b.files)
    requires i < |b.files|
    ensures GetBuildFileInfo(b, b.files[i].relativePathStr) == Some(b.files[i])
  {
    FindRecordUnique(b.files, i);
  }

  /** The stored string and the parsed path describe the same path. */
  lemma RelativePathRoundTrip(r: BuildFileInfo)
    requires Normalized(r.relativePathStr)
    ensures Show(r.RelativePath()) == r.relativePathStr
    ensures ValidSegments(r.RelativePath()) ==> Parse(Show(r.RelativePath())) == r.RelativePath()
  {
    ShowParse(r.relativePathStr);
  }

  /** A class built in this run and the relative path of the record made for it. */
  datatype Built = Built(info: ClassInfo, path: string)

  /** `builtClasses`: class name to the class built under it (a later put replaces). */
  type BuiltClasses = map<string, Built>

  /** The class registered as `cn` mentions, under another name, the class registered at `path`. */
  predicate MentionsClassAt(built: BuiltClasses, cn: string, path: string)
    requires cn in built
  {
    exists dn | dn in built[cn].info.dependencies :: dn != cn && dn in built && built[dn].path == path
  }

  /** The edges the rebuild gives the record at `path`: every built class that mentions it. */
  function DependentsOf(built: BuiltClasses, path: string): set<string> {
    set cn | cn in built && MentionsClassAt(built, cn, path) :: built[cn].path
  }

  /**
   * The reverse-edge rebuild: for each built class and each class it mentions other than
   * itself, the mentioning record is added to the mentioned record's `filesDependsOnMe`.
   * Adding to a set is order-insensitive, so the loop is stated as one set per record.
   */
  function LinkDependents(records: seq<BuildFileInfo>, built: BuiltClasses): (r: seq<BuildFileInfo>)
    ensures |r| == |records|
    ensures forall i | 0 <= i < |r| ::
      r[i].relativePathStr == records[i].relativePathStr &&
      r[i].sourceHash == records[i].sourceHash &&
      r[i].classHash == records[i].classHash &&
      records[i].filesDependsOnMe <= r[i].filesDependsOnMe
  {
    seq(|records|, i requires 0 <= i < |records| =>
      records[i].(filesDependsOnMe := records[i].filesDependsOnMe + DependentsOf(built, records[i].relativePathStr)))
  }

  /** Different class names were built from different files. */
  predicate DistinctBuiltPaths(built: BuiltClasses) {
    forall cn, dn | cn in built && dn in built && cn != dn :: built[cn].path != built[dn].path
  }

  /** Every built class is filed under a record of `records`, and no two classes share one. */
  predicate BuiltWithin(records: seq<BuildFileInfo>, built: BuiltClasses) {
    (forall cn | cn in built :: built[cn].path in Paths(records)) && DistinctBuiltPaths(built)
  }

  /**
   * The rebuilt graph is well formed: no self-edges, edges only between records of this run;
   * and an edge X -> Y is there exactly when X's class mentions Y's class under another name.
   */
  lemma LinkDependentsWellFormed(records: seq<BuildFileInfo>, built: BuiltClasses)
    requires UniquePaths(records)
    requires forall i | 0 <= i < |records| :: records[i].filesDependsOnMe == {}
    requires forall cn | cn in built :: built[cn].path in Paths(records)
    requires DistinctBuiltPaths(built)
    ensures WellFormed(LinkDependents(records, built))
    ensures Paths(LinkDependents(records, built)) == Paths(records)
    ensures forall i, cn | 0 <= i < |records| && cn in built ::
      built[cn].path in LinkDependents(records, built)[i].filesDependsOnMe <==>
        MentionsClassAt(built, cn, records[i].relativePathStr)
  {
    var r := LinkDependents(records, built);
    assert Paths(r) == Paths(records) by {
      forall i | 0 <= i < |r| ensures r[i].relativePathStr == records[i].relativePathStr { }
    }
    forall i | 0 <= i < |r|
      ensures r[i].relativePathStr !in r[i].filesDependsOnMe
    {
      var y := records[i].relativePathStr;
      forall cn | cn in built && MentionsClassAt(built, cn, y)
        ensures built[cn].path != y
      {
        var dn :| dn in built[cn].info.dependencies && dn != cn && dn in built && built[dn].path == y;
      }
    }
    forall i | 0 <= i < |r|
      ensures r[i].filesDependsOnMe <= Paths(r)
    {
      forall x | x in r[i].filesDependsOnMe
        ensures x in Paths(r)
      {
        var cn :| cn in built && MentionsClassAt(built, cn, records[i].relativePathStr) && built[cn].path == x;
      }
    }
    forall i, cn | 0 <= i < |records| && cn in built
      ensures built[cn].path in r[i].filesDependsOnMe <==> MentionsClassAt(built, cn, records[i].relativePathStr)
    {
      if built[cn].path in r[i].filesDependsOnMe {
        var cn' :| cn' in built && MentionsClassAt(built, cn', records[i].relativePathStr) &&
          built[cn'].path == built[cn].path;
        assert cn' == cn;
      }
    }
  }
}

=== FILE: collections.dfy ===
/**
 * Insertion-ordered sets and the string order the source sorts by.
 *
 * Kotlin's `mutableSetOf()` is a LinkedHashSet: iteration follows insertion order and a
 * second `add` of an element already present changes nothing. It is modelled as a sequence
 * without duplicates together with `Add`.
 */
module Collections {

  /** No element occurs twice. */
  predicate NoDups<T(==)>(s: seq<T>) {
    forall i, j | 0 <= i < j < |s| :: s[i] != s[j]
  }

  /** LinkedHashSet.add: appends the element unless it is already present. */
  function Add<T(==, !new)>(s: seq<T>, x: T): (r: seq<T>)
    ensures x in r
    ensures forall y :: y in r <==> y in s || y == x
    ensures x in s ==> r == s
    ensures x !in s ==> r == s + [x]
    ensures NoDups(s) ==> NoDups(r)
  {
    if x in s then s else s + [x]
  }

  /** Adds every element of `xs`, in order. */
  function AddAll<T(==, !new)>(s: seq<T>, xs: seq<T>): (r: seq<T>)
    ensures forall y :: y in r <==> y in s || y in xs
    ensures NoDups(s) ==> NoDups(r)
    ensures |s| <= |r|
    ensures r[..|s|] == s
    decreases |xs|
  {
    if xs == [] then s else AddAll(Add(s, xs[0]), xs[1..])
  }

  /** AddAll adds the first element, then the rest. */
  lemma AddAllUnfold<T(!new)>(s: seq<T>, xs: seq<T>)
    requires xs != []
    ensures AddAll(s, xs) == AddAll(Add(s, xs[0]), xs[1..])
    ensures xs[0] in s ==> AddAll(s, xs) == AddAll(s, xs[1..])
  {
  }

  /**
   * With no duplicates to start from, the elements `AddAll` appends are exactly the new
   * elements of `xs`, each once.
   */
  lemma {:induction false} AddAllAppends<T(!new)>(s: seq<T>, xs: seq<T>)
    requires NoDups(s)
    ensures forall y :: y in AddAll(s, xs)[|s|..] <==> y in xs && y !in s
    ensures NoDups(AddAll(s, xs)[|s|..])
    decreases |xs|
  {
    var r := AddAll(s, xs);
    assert r == r[..|s|] + r[|s|..];
    forall y | y in r[|s|..] ensures y !in s {
      var k :| |s| <= k < |r| && r[k] == y;
      forall j | 0 <= j < |s| ensures s[j] != y {
        assert r[j] == s[j];
      }
    }
    forall i, j | 0 <= i < j < |r[|s|..]| ensures r[|s|..][i] != r[|s|..][j] {
      assert r[|s|..][i] == r[|s| + i] && r[|s|..][j] == r[|s| + j];
    }
  }

  /** Adding elements that are all new, and distinct, appends them. */
  lemma {:induction false} AddAllFresh<T(!new)>(s: seq<T>, xs: seq<T>)
    requires NoDups(xs)
    requires forall x | x in xs :: x !in s
    ensures AddAll(s, xs) == s + xs
    decreases |xs|
  {
    if xs != [] {
      AddFreshStep(s, xs);
      AddAllFresh(s + [xs[0]], xs[1..]);
      AppendSplit(s, xs);
    }
  }

  /** Concatenation is associative: the bracketing of a log built in steps does not matter. */
  lemma AppendAssoc<T>(a: seq<T>, b: seq<T>, c: seq<T>)
    ensures a + b + c == a + (b + c)
  {
  }

  lemma AppendSplit<T>(s: seq<T>, xs: seq<T>)
    requires xs != []
    ensures s + [xs[0]] + xs[1..] == s + xs
  {
    assert xs == [xs[0]] + xs[1..];
  }

  /** One step of AddAllFresh: the first element is appended and the rest stay fresh. */
  lemma AddFreshStep<T(!new)>(s: seq<T>, xs: seq<T>)
    requires xs != [] && NoDups(xs)
    requires forall x | x in xs :: x !in s
    ensures AddAll(s, xs) == AddAll(s + [xs[0]], xs[1..])
    ensures NoDups(xs[1..])
    ensures forall x | x in xs[1..] :: x !in s + [xs[0]]
  {
    NoDupsTail(xs);
    assert xs[0] in xs;
    assert Add(s, xs[0]) == s + [xs[0]];
    forall x | x in xs[1..] ensures x !in s + [xs[0]] {
      assert x in xs;
    }
  }

  /** Dropping the first element keeps a sequence duplicate-free, and that element is not in the rest. */
  lemma NoDupsTail<T>(s: seq<T>)
    requires s != [] && NoDups(s)
    ensures NoDups(s[1..]) && s[0] !in s[1..]
  {
    forall i, j | 0 <= i < j < |s[1..]| ensures s[1..][i] != s[1..][j] {
      assert s[1..][i] == s[i + 1] && s[1..][j] == s[j + 1];
    }
    forall k | 0 <= k < |s[1..]| ensures s[1..][k] != s[0] {
      assert s[1..][k] == s[k + 1];
    }
  }

  /** Two duplicate-free sequences with no element in common concatenate to a duplicate-free one. */
  lemma NoDupsAppend<T>(a: seq<T>, b: seq<T>)
    requires NoDups(a) && NoDups(b)
    requires forall x | x in a :: x !in b
    ensures NoDups(a + b)
  {
    var r := a + b;
    forall i, j | 0 <= i < j < |r| ensures r[i] != r[j] {
      if i < |a| && |a| <= j {
        assert r[i] in a && r[j] == b[j - |a|];
      } else if |a| <= i {
        assert r[i] == b[i - |a|] && r[j] == b[j - |a|];
      }
    }
  }

  /** Lexicographic order on strings by code point; `String.compareTo` for names in the Basic Multilingual Plane. */
  predicate Less(a: string, b: string)
    ensures Less(a, b) ==> a != b
    ensures |a| < |b| && a == b[..|a|] ==> Less(a, b)
  {
    if |a| == 0 then |b| > 0
    else if |b| == 0 then false
    else if a[0] != b[0] then a[0] < b[0]
    else Less(a[1..], b[1..])
  }

  lemma {:induction false} LessIrreflexive(a: string)
    ensures !Less(a, a)
  {
    if |a| > 0 {
      LessIrreflexive(a[1..]);
    }
  }

  lemma {:induction false} LessAsymmetric(a: string, b: string)
    requires Less(a, b)
    ensures !Less(b, a)
  {
    if |a| > 0 && |b| > 0 && a[0] == b[0] {
      LessAsymmetric(a[1..], b[1..]);
    }
  }

  lemma {:induction false} LessTransitive(a: string, b: string, c: string)
    requires Less(a, b) && Less(b, c)
    ensures Less(a, c)
  {
    if |a| > 0 && |b| > 0 && |c| > 0 && a[0] == b[0] && b[0] == c[0] {
      LessTransitive(a[1..], b[1..], c[1..]);
    }
  }

  lemma {:induction false} LessTotal(a: string, b: string)
    requires a != b
    ensures Less(a, b) || Less(b, a)
  {
    if |a| > 0 && |b| > 0 && a[0] == b[0] {
      assert a == [a[0]] + a[1..] && b == [b[0]] + b[1..];
      LessTotal(a[1..], b[1..]);
    }
  }

  /** `m` precedes every other element of `s`. */
  predicate IsLeast(m: string, s: set<string>) {
    m in s && forall y | y in s :: y == m || Less(m, y)
  }

  lemma {:induction false} LeastExists(s: set<string>)
    requires s != {}
    ensures exists m :: IsLeast(m, s)
    decreases |s|
  {
    var x :| x in s;
    if s - {x} == {} {
      assert s == {x};
      assert IsLeast(x, s);
    } else {
      LeastExists(s - {x});
      var m :| IsLeast(m, s - {x});
      if Less(x, m) {
        forall y | y in s && y != x
          ensures Less(x, y)
        {
          if y != m {
            LessTransitive(x, m, y);
          }
        }
        assert IsLeast(x, s);
      } else {
        if x != m {
          LessTotal(x, m);
        }
        assert IsLeast(m, s);
      }
    }
  }

  /** Strictly ascending, hence duplicate-free. */
  predicate Ascending(r: seq<string>) {
    forall i, j | 0 <= i < j < |r| :: Less(r[i], r[j])
  }

  /** The least element of a set is unique: what makes `Enumerate` deterministic. */
  lemma LeastUnique(s: set<string>)
    ensures forall m, m' | IsLeast(m, s) && IsLeast(m', s) :: m == m'
  {
    forall m, m' | IsLeast(m, s) && IsLeast(m', s)
      ensures m == m'
    {
      if m != m' {
        LessAsymmetric(m, m');
      }
    }
  }

  lemma PrependLeast(m: string, s: set<string>, rest: seq<string>)
    requires IsLeast(m, s)
    requires Ascending(rest)
    requires forall x :: x in rest <==> x in s - {m}
    ensures Ascending([m] + rest)
  {
    var r := [m] + rest;
    forall i, j | 0 <= i < j < |r|
      ensures Less(r[i], r[j])
    {
      if i > 0 {
        assert r[i] == rest[i - 1] && r[j] == rest[j - 1];
      } else {
        assert r[j] == rest[j - 1] && r[j] in s - {m};
      }
    }
  }

  lemma AscendingNoDups(r: seq<string>)
    requires Ascending(r)
    ensures NoDups(r)
  {
    forall i, j | 0 <= i < j < |r|
      ensures r[i] != r[j]
    {
      LessIrreflexive(r[i]);
    }
  }

  /**
   * The elements of a finite set of strings in ascending order: the model's fixed
   * iteration order for collections whose order the source leaves unspecified.
   */
  function Enumerate(s: set<string>): (r: seq<string>)
    ensures |r| == |s|
    ensures forall x :: x in r <==> x in s
    ensures Ascending(r)
    ensures NoDups(r)
    decreases |s|
  {
    if s == {} then []
    else
      LeastExists(s);
      LeastUnique(s);
      var m :| IsLeast(m, s);
      var rest := Enumerate(s - {m});
      PrependLeast(m, s, rest);
      AscendingNoDups([m] + rest);
      [m] + rest
  }
}

=== FILE: dir_tree.dfy ===
/**
 * Directory trees as the test helpers see them: the name-sorted, depth-first collection of
 * the files whose extension is wanted (collectInputStreams), the digest of a whole directory
 * built on it, and the position-by-position comparison of two trees (compareTwoDirs/equate).
 * A directory's listing comes in no particular order; every traversal sorts it by name first.
 */
module DirTree {
  import opened Wrappers
  import opened Collections
  import opened FileNames
  import opened FileSystem

  /** An entry of a directory: a regular file with its bytes, or a directory with its listing. */
  datatype Node = FileNode(name: string, content: Bytes) | DirNode(name: string, children: seq<Node>)

  /** Entries in name order, as `Arrays.sort` by `name.compareTo` leaves them. */
  predicate SortedByName(s: seq<Node>) {
    forall i, j | 0 <= i < j < |s| :: !Less(s[j].name, s[i].name)
  }

  /** No two entries share a name, as in any real directory listing. */
  predicate DistinctNames(s: seq<Node>) {
    forall i, j | 0 <= i < j < |s| :: s[i].name != s[j].name
  }

  /** "Not less than" is transitive: what keeps an insertion sorted. */
  lemma NotLessTransitive(a: string, b: string, c: string)
    requires !Less(b, a) && !Less(c, b)
    ensures !Less(c, a)
  {
    if Less(c, a) && a != b {
      LessTotal(a, b);
      LessTransitive(c, a, b);
    }
  }

  /** Places `x` before the first entry whose name is not less than its own. */
  function Insert(x: Node, s: seq<Node>): (r: seq<Node>)
    ensures multiset(r) == multiset(s) + multiset{x}
    ensures forall y :: y in r <==> y in s || y == x
    ensures |r| == |s| + 1
    decreases |s|
  {
    if s == [] then [x]
    else if !Less(s[0].name, x.name) then [x] + s
    else
      assert s == [s[0]] + s[1..];
      [s[0]] + Insert(x, s[1..])
  }

  /** Inserting into a sorted listing keeps it sorted. */
  lemma {:induction false} InsertSorted(x: Node, s: seq<Node>)
    requires SortedByName(s)
    ensures SortedByName(Insert(x, s))
    decreases |s|
  {
    var r := Insert(x, s);
    if s == [] {
    } else if !Less(s[0].name, x.name) {
      forall j | 0 < j < |r| ensures !Less(r[j].name, x.name) {
        assert r[j] == s[j - 1];
        if j > 1 {
          NotLessTransitive(x.name, s[0].name, s[j - 1].name);
        }
      }
    } else {
      var rest := Insert(x, s[1..]);
      InsertSorted(x, s[1..]);
      LessAsymmetric(s[0].name, x.name);
      forall k | 0 <= k < |rest| ensures !Less(rest[k].name, s[0].name) {
        assert rest[k] in multiset(rest);
        if rest[k] != x {
          assert rest[k] in s[1..];
        }
      }
      assert r == [s[0]] + rest;
    }
  }

  /** Inserting an entry whose name is new into a listing of distinct names keeps them distinct. */
  lemma {:induction false} InsertDistinct(x: Node, s: seq<Node>)
    requires DistinctNames(s)
    requires forall y | y in s :: y.name != x.name
    ensures DistinctNames(Insert(x, s))
    decreases |s|
  {
    var r := Insert(x, s);
    if s != [] && Less(s[0].name, x.name) {
      var rest := Insert(x, s[1..]);
      InsertDistinct(x, s[1..]);
      forall k | 0 <= k < |rest| ensures rest[k].name != s[0].name {
        assert rest[k] in multiset(rest);
        if rest[k] != x {
          var j :| 0 <= j < |s[1..]| && s[1..][j] == rest[k];
          assert s[j + 1] == rest[k];
        }
      }
      assert r == [s[0]] + rest;
    } else if s != [] {
      assert r == [x] + s;
    }
  }

  /** `Arrays.sort(fileList) { f1, f2 -> f1.name.compareTo(f2.name) }`, as an insertion sort. */
  function SortByName(s: seq<Node>): (r: seq<Node>)
    ensures SortedByName(r)
    ensures multiset(r) == multiset(s)
    ensures forall y :: y in r <==> y in s
    ensures |r| == |s|
    decreases |s|
  {
    if s == [] then []
    else
      var rest := SortByName(s[1..]);
      InsertSorted(s[0], rest);
      assert s == [s[0]] + s[1..];
      Insert(s[0], rest)
  }

  /** Sorting a listing of distinct names keeps the names distinct. */
  lemma {:induction false} SortByNameDistinct(s: seq<Node>)
    requires DistinctNames(s)
    ensures DistinctNames(SortByName(s))
    decreases |s|
  {
    if s != [] {
      assert DistinctNames(s[1..]) by {
        forall i, j | 0 <= i < j < |s[1..]| ensures s[1..][i].name != s[1..][j].name {
          assert s[1..][i] == s[i + 1] && s[1..][j] == s[j + 1];
        }
      }
      SortByNameDistinct(s[1..]);
      forall y | y in SortByName(s[1..]) ensures y.name != s[0].name {
        var j :| 0 <= j < |s[1..]| && s[1..][j] == y;
        assert s[j + 1] == y;
      }
      InsertDistinct(s[0], SortByName(s[1..]));
    }
  }

  /**
   * Two name-sorted listings of the same entries with distinct names are the same listing:
   * the sorted order does not depend on the order the directory was listed in.
   */
  lemma {:induction false} SortedUnique(a: seq<Node>, b: seq<Node>)
    requires SortedByName(a) && SortedByName(b)
    requires DistinctNames(a)
    requires multiset(a) == multiset(b)
    ensures a == b
    decreases |a|
  {
    if a != [] {
      assert |multiset(b)| == |b| && |multiset(a)| == |a|;
      SortedHeads(a, b);
      assert a == [a[0]] + a[1..] && b == [b[0]] + b[1..];
      assert multiset(a[1..]) == multiset(a) - multiset{a[0]};
      assert multiset(b[1..]) == multiset(b) - multiset{b[0]};
      DistinctTail(a);
      SortedUnique(a[1..], b[1..]);
    }
  }

  /** Two name-sorted listings of the same distinctly named entries start with the same entry. */
  lemma SortedHeads(a: seq<Node>, b: seq<Node>)
    requires SortedByName(a) && SortedByName(b)
    requires DistinctNames(a)
    requires multiset(a) == multiset(b)
    requires a != [] && b != []
    ensures a[0] == b[0]
  {
    assert a[0] in multiset(b) && b[0] in multiset(a);
    var k :| 0 <= k < |b| && b[k] == a[0];
    var m :| 0 <= m < |a| && a[m] == b[0];
    if m > 0 {
      assert !Less(b[0].name, a[0].name);
    } else {
      LessIrreflexive(a[0].name);
    }
    if k > 0 {
      assert !Less(a[0].name, b[0].name);
    } else {
      LessIrreflexive(a[0].name);
    }
    if a[0].name != b[0].name {
      LessTotal(a[0].name, b[0].name);
    }
  }

  /** Dropping the first entry keeps the names distinct. */
  lemma DistinctTail(a: seq<Node>)
    requires a != [] && DistinctNames(a)
    ensures DistinctNames(a[1..])
  {
    forall i, j | 0 <= i < j < |a[1..]| ensures a[1..][i].name != a[1..][j].name {
      assert a[1..][i] == a[i + 1] && a[1..][j] == a[j + 1];
    }
  }

  /**
   * collectInputStreams on a directory: its entries in name order; a directory is descended
   * into, whatever its name, and a file is kept when its extension is one of `exts`.
   */
  function CollectInputStreams(dir: Node, exts: set<string>): (r: seq<Bytes>)
    requires dir.DirNode?
    ensures exts == {} ==> r == []
    ensures (forall x | x in dir.children :: x.FileNode? && GetExtension(x.name) !in exts) ==> r == []
    decreases dir, 1
  {
    CollectEntries(dir, SortByName(dir.children), exts)
  }

  /** The loop of collectInputStreams over some of `dir`'s entries, in the given order. */
  function CollectEntries(dir: Node, entries: seq<Node>, exts: set<string>): (r: seq<Bytes>)
    requires dir.DirNode? && forall x | x in entries :: x in dir.children
    ensures exts == {} ==> r == []
    ensures (forall x | x in entries :: x.FileNode? && GetExtension(x.name) !in exts) ==> r == []
    decreases dir, 0, |entries|
  {
    if entries == [] then []
    else
      var e := entries[0];
      assert dir == DirNode(dir.name, dir.children) && e in dir.children;
      var here := if e.DirNode? then CollectInputStreams(e, exts)
        else if GetExtension(e.name) in exts then [e.content]
        else [];
      here + CollectEntries(dir, entries[1..], exts)
  }

  /** The contents of the wanted files anywhere below an entry, counted with multiplicity. */
  function Matching(e: Node, exts: set<string>): multiset<Bytes>
    decreases e, 1
  {
    match e
    case FileNode(name, content) => if GetExtension(name) in exts then multiset{content} else multiset{}
    case DirNode(_, children) => MatchingIn(e, children, exts)
  }

  function MatchingIn(dir: Node, entries: seq<Node>, exts: set<string>): multiset<Bytes>
    requires dir.DirNode? && forall x | x in entries :: x in dir.children
    decreases dir, 0, |entries|
  {
    if entries == [] then multiset{}
    else
      assert dir == DirNode(dir.name, dir.children) && entries[0] in dir.children;
      Matching(entries[0], exts) + MatchingIn(dir, entries[1..], exts)
  }

  /** What an entry contributes does not depend on where it is inserted. */
  lemma {:induction false} MatchingInsert(dir: Node, x: Node, s: seq<Node>, exts: set<string>)
    requires dir.DirNode? && x in dir.children && forall y | y in s :: y in dir.children
    ensures forall y | y in Insert(x, s) :: y in dir.children
    ensures MatchingIn(dir, Insert(x, s), exts) == Matching(x, exts) + MatchingIn(dir, s, exts)
    decreases |s|
  {
    var r := Insert(x, s);
    forall y | y in r ensures y in dir.children {
      assert y in multiset(r);
    }
    if s != [] && Less(s[0].name, x.name) {
      MatchingInsert(dir, x, s[1..], exts);
      assert r == [s[0]] + Insert(x, s[1..]);
      assert r[1..] == Insert(x, s[1..]);
    }
  }

  /** Sorting a listing does not change what its entries contribute in total. */
  lemma {:induction false} MatchingSorted(dir: Node, s: seq<Node>, exts: set<string>)
    requires dir.DirNode? && forall y | y in s :: y in dir.children
    ensures MatchingIn(dir, SortByName(s), exts) == MatchingIn(dir, s, exts)
    decreases |s|
  {
    if s != [] {
      MatchingSorted(dir, s[1..], exts);
      MatchingInsert(dir, s[0], SortByName(s[1..]), exts);
    }
  }

  /**
   * collectInputStreams keeps exactly the files below the directory, at any depth, whose
   * extension is wanted, each once; directories are never kept themselves.
   */
  lemma {:induction false} CollectMatches(dir: Node, exts: set<string>)
    requires dir.DirNode?
    ensures multiset(CollectInputStreams(dir, exts)) == Matching(dir, exts)
    decreases dir, 1
  {
    CollectEntriesMatch(dir, SortByName(dir.children), exts);
    MatchingSorted(dir, dir.children, exts);
  }

  lemma {:induction false} CollectEntriesMatch(dir: Node, entries: seq<Node>, exts: set<string>)
    requires dir.DirNode? && forall x | x in entries :: x in dir.children
    ensures multiset(CollectEntries(dir, entries, exts)) == MatchingIn(dir, entries, exts)
    decreases dir, 0, |entries|
  {
    if entries != [] {
      var e := entries[0];
      assert dir == DirNode(dir.name, dir.children) && e in dir.children;
      if e.DirNode? {
        CollectMatches(e, exts);
      }
      CollectEntriesMatch(dir, entries[1..], exts);
    }
  }

  /** The loop's result depends on the entries only, not on which directory holds them. */
  lemma {:induction false} CollectEntriesAnyDir(d1: Node, d2: Node, entries: seq<Node>, exts: set<string>)
    requires d1.DirNode? && forall x | x in entries :: x in d1.children
    requires d2.DirNode? && forall x | x in entries :: x in d2.children
    ensures CollectEntries(d1, entries, exts) == CollectEntries(d2, entries, exts)
    decreases |entries|
  {
    if entries != [] {
      CollectEntriesAnyDir(d1, d2, entries[1..], exts);
    }
  }

  /**
   * Two directories holding the same entries, listed in any order, yield the same sequence:
   * the collection is deterministic.
   */
  lemma CollectOrderIndependent(d1: Node, d2: Node, exts: set<string>)
    requires d1.DirNode? && d2.DirNode?
    requires multiset(d1.children) == multiset(d2.children)
    requires DistinctNames(d1.children)
    ensures CollectInputStreams(d1, exts) == CollectInputStreams(d2, exts)
  {
    SortByNameDistinct(d1.children);
    SortedUnique(SortByName(d1.children), SortByName(d2.children));
    var sorted := SortByName(d1.children);
    forall x | x in sorted ensures x in d2.children {
      assert x in multiset(d2.children);
    }
    CollectEntriesAnyDir(d1, d2, sorted, exts);
  }

  /** `SequenceInputStream` over the collected streams: their bytes one after another. */
  function Concat(chunks: seq<Bytes>): (r: Bytes)
    ensures chunks != [] ==> |chunks[0]| <= |r| && r[..|chunks[0]|] == chunks[0]
    ensures r == [] <==> forall i | 0 <= i < |chunks| :: chunks[i] == []
    decreases |chunks|
  {
    if chunks == [] then [] else chunks[0] + Concat(chunks[1..])
  }

  /** Reading two runs of streams in sequence reads the first run, then the second. */
  lemma {:induction false} ConcatAppend(a: seq<Bytes>, b: seq<Bytes>)
    ensures Concat(a + b) == Concat(a) + Concat(b)
    decreases |a|
  {
    if a != [] {
      var ab := a + b;
      assert ab[0] == a[0] && ab[1..] == a[1..] + b;
      ConcatAppend(a[1..], b);
      assert ab != [];
      calc {
        Concat(ab);
        ab[0] + Concat(ab[1..]);
        a[0] + (Concat(a[1..]) + Concat(b));
        { assert a[0] + (Concat(a[1..]) + Concat(b)) == (a[0] + Concat(a[1..])) + Concat(b); }
        (a[0] + Concat(a[1..])) + Concat(b);
        Concat(a) + Concat(b);
      }
    } else {
      assert a + b == b;
    }
  }

  /**
   * getSHA1Dir / getMD5Dir / calcMD5HashForDir: asserts that it is given a directory, then
   * digests the collected files' bytes in collection order.
   */
  function DirDigest(env: Env, dir: Node, exts: set<string>): (r: Result<Digest, Fault>)
    ensures r.Failure? <==> !dir.DirNode?
    ensures r.Failure? ==> r.error == AssertionFailed(dir.name)
  {
    if !dir.DirNode? then Failure(AssertionFailed(dir.name))
    else Success(env.hash(Concat(CollectInputStreams(dir, exts))))
  }

  /** compareClasses: the digests of the two directories' class files agree. */
  function CompareClasses(env: Env, d1: Node, d2: Node): (r: Result<bool, Fault>)
    ensures r.Failure? <==> !d1.DirNode? || !d2.DirNode?
    ensures r.Success? ==> (r.value <==> DirDigest(env, d1, {ClassExtension}) == DirDigest(env, d2, {ClassExtension}))
  {
    var h1 :- DirDigest(env, d1, {ClassExtension});
    var h2 :- DirDigest(env, d2, {ClassExtension});
    Success(h1 == h2)
  }

  /**
   * Directories whose class files hold the same bytes in name order compare equal, however
   * their listings are ordered and whatever other files they hold; in particular each
   * directory compares equal to itself.
   */
  lemma CompareClassesSameBytes(env: Env, d1: Node, d2: Node)
    requires d1.DirNode? && d2.DirNode?
    requires Concat(CollectInputStreams(d1, {ClassExtension})) == Concat(CollectInputStreams(d2, {ClassExtension}))
    ensures CompareClasses(env, d1, d2) == Success(true)
  {
  }

  /** compareClasses does not depend on the order either directory is listed in. */
  lemma CompareClassesOrderIndependent(env: Env, d1: Node, d1': Node, d2: Node)
    requires d1.DirNode? && d1'.DirNode? && d2.DirNode?
    requires multiset(d1.children) == multiset(d1'.children)
    requires DistinctNames(d1.children)
    ensures CompareClasses(env, d1, d2) == CompareClasses(env, d1', d2)
  {
    CollectOrderIndependent(d1, d1', {ClassExtension});
  }

  /**
   * equate: two files compare by the digest of their bytes, two directories by
   * compareTwoDirs, and a file never equals a directory. Names are not looked at.
   */
  function Equate(env: Env, a: Node, b: Node): (r: bool)
    ensures r ==> (a.FileNode? <==> b.FileNode?)
    ensures a.FileNode? && b.FileNode? && a.content == b.content ==> r
    decreases a, 2
  {
    if a.FileNode? && b.FileNode? then env.hash(a.content) == env.hash(b.content)
    else if a.DirNode? && b.DirNode? then CompareDirs(env, a, b)
    else false
  }

  /** compareTwoDirs on two directories: equally long sorted listings, equal position by position. */
  function CompareDirs(env: Env, d1: Node, d2: Node): (r: bool)
    requires d1.DirNode? && d2.DirNode?
    ensures r ==> |d1.children| == |d2.children|
    decreases d1, 1
  {
    var s1 := SortByName(d1.children);
    var s2 := SortByName(d2.children);
    |s1| == |s2| && AllEquate(env, d1, s1, s2)
  }

  /** `files1.zip(files2).all { equate(it.first, it.second) }` over entries of `d1`. */
  function AllEquate(env: Env, d1: Node, s1: seq<Node>, s2: seq<Node>): (r: bool)
    requires d1.DirNode? && forall x | x in s1 :: x in d1.children
    requires |s1| == |s2|
    decreases d1, 0, |s1|
  {
    s1 == [] ||
      (assert d1 == DirNode(d1.name, d1.children) && s1[0] in d1.children;
       Equate(env, s1[0], s2[0]) && AllEquate(env, d1, s1[1..], s2[1..]))
  }

  /** The zip-all holds exactly when every position holds. */
  lemma {:induction false} AllEquatePositionwise(env: Env, d1: Node, s1: seq<Node>, s2: seq<Node>)
    requires d1.DirNode? && forall x | x in s1 :: x in d1.children
    requires |s1| == |s2|
    ensures AllEquate(env, d1, s1, s2) <==> forall i | 0 <= i < |s1| :: Equate(env, s1[i], s2[i])
    decreases |s1|
  {
    if s1 != [] {
      AllEquatePositionwise(env, d1, s1[1..], s2[1..]);
      assert forall i | 0 < i < |s1| :: s1[1..][i - 1] == s1[i] && s2[1..][i - 1] == s2[i];
    }
  }

  /**
   * compareTwoDirs: `listFiles()` of a path that is no directory is null and the sort fails on
   * it; of two directories, false when the listings differ in length, else position-by-position
   * equate over the name-sorted listings.
   */
  function CompareTwoDirs(env: Env, d1: Node, d2: Node): (r: Result<bool, Fault>)
    ensures r.Failure? <==> !d1.DirNode? || !d2.DirNode?
    ensures r.Success? && |d1.children| != |d2.children| ==> !r.value
  {
    if !d1.DirNode? then Failure(NotADirectory(d1.name))
    else if !d2.DirNode? then Failure(NotADirectory(d2.name))
    else Success(CompareDirs(env, d1, d2))
  }

  /**
   * Of two equally long listings, compareTwoDirs holds exactly when every position of the
   * name-sorted listings satisfies equate.
   */
  lemma CompareTwoDirsPositionwise(env: Env, d1: Node, d2: Node)
    requires d1.DirNode? && d2.DirNode? && |d1.children| == |d2.children|
    ensures var s1, s2 := SortByName(d1.children), SortByName(d2.children);
      CompareTwoDirs(env, d1, d2) == Success(forall i | 0 <= i < |s1| :: Equate(env, s1[i], s2[i]))
  {
    AllEquatePositionwise(env, d1, SortByName(d1.children), SortByName(d2.children));
  }

  /** Two files with the same bytes are equal under equate, whatever their names. */
  lemma EquateIgnoresNames(env: Env, n1: string, n2: string, content: Bytes)
    ensures Equate(env, FileNode(n1, content), FileNode(n2, content))
  {
  }

  /** equate is reflexive. */
  lemma {:induction false} EquateReflexive(env: Env, a: Node)
    ensures Equate(env, a, a)
    decreases a, 2
  {
    if a.DirNode? {
      CompareDirsReflexive(env, a);
    }
  }

  /** compareTwoDirs is reflexive. */
  lemma {:induction false} CompareDirsReflexive(env: Env, d: Node)
    requires d.DirNode?
    ensures CompareDirs(env, d, d)
    decreases d, 1
  {
    var s := SortByName(d.children);
    forall i | 0 <= i < |s| ensures Equate(env, s[i], s[i]) {
      assert s[i] in d.children;
      EquateReflexive(env, s[i]);
    }
    AllEquatePositionwise(env, d, s, s);
  }

  /** equate is symmetric. */
  lemma {:induction false} EquateSymmetric(env: Env, a: Node, b: Node)
    ensures Equate(env, a, b) == Equate(env, b, a)
    decreases a, 2
  {
    if a.DirNode? && b.DirNode? {
      CompareDirsSymmetric(env, a, b);
    }
  }

  /** compareTwoDirs is symmetric. */
  lemma {:induction false} CompareDirsSymmetric(env: Env, d1: Node, d2: Node)
    requires d1.DirNode? && d2.DirNode?
    ensures CompareDirs(env, d1, d2) == CompareDirs(env, d2, d1)
    decreases d1, 1
  {
    var s1, s2 := SortByName(d1.children), SortByName(d2.children);
    if |s1| == |s2| {
      forall i | 0 <= i < |s1| ensures Equate(env, s1[i], s2[i]) == Equate(env, s2[i], s1[i]) {
        assert s1[i] in d1.children;
        EquateSymmetric(env, s1[i], s2[i]);
      }
      AllEquatePositionwise(env, d1, s1, s2);
      AllEquatePositionwise(env, d2, s2, s1);
    }
  }

  /** compareTwoDirs does not depend on the order the first directory is listed in. */
  lemma CompareTwoDirsOrderIndependent(env: Env, d1: Node, d1': Node, d2: Node)
    requires d1.DirNode? && d1'.DirNode? && d2.DirNode?
    requires multiset(d1.children) == multiset(d1'.children)
    requires DistinctNames(d1.children)
    ensures CompareTwoDirs(env, d1, d2) == CompareTwoDirs(env, d1', d2)
  {
    SortByNameDistinct(d1.children);
    var s := SortByName(d1.children);
    SortedUnique(s, SortByName(d1'.children));
    if |s| == |d2.children| {
      AllEquatePositionwise(env, d1, s, SortByName(d2.children));
      AllEquatePositionwise(env, d1', s, SortByName(d2.children));
    }
  }
}

=== FILE: file_names.dfy ===
/**
 * Path arithmetic: the extension functions of commons-io's FilenameUtils as the source uses
 * them, the `.java` to `.class` substitution, and joining/relativising against a root.
 * Paths are strings; `/` joins a root and a relative path.
 */
module FileNames {
  import opened Wrappers

  const JavaExtension: string := "java"
  const ClassExtension: string := "class"

  /** FilenameUtils treats both separators alike. */
  predicate IsSeparator(c: char) {
    c == '/' || c == '\\'
  }

  /**
   * Scanning `s[..i]` backwards: the index of the last `.` provided no separator follows it,
   * otherwise -1 (FilenameUtils.indexOfExtension restricted to the prefix).
   */
  function ExtensionIndexBefore(s: string, i: nat): (k: int)
    requires i <= |s|
    ensures -1 <= k < i
    ensures k >= 0 ==> s[k] == '.'
    ensures k >= 0 ==> forall j | k < j < i :: s[j] != '.' && !IsSeparator(s[j])
    ensures k == -1 ==> forall j | 0 <= j < i && s[j] == '.' :: exists l | j < l < i :: IsSeparator(s[l])
    decreases i
  {
    if i == 0 then -1
    else if s[i - 1] == '.' then i - 1
    else if IsSeparator(s[i - 1]) then -1
    else ExtensionIndexBefore(s, i - 1)
  }

  /** The index of the extension's dot in the final path segment, or -1 when it has none. */
  function ExtensionIndex(s: string): int {
    ExtensionIndexBefore(s, |s|)
  }

  /** FilenameUtils.getExtension: the text after the last dot of the final segment, or "". */
  function GetExtension(s: string): (r: string)
    ensures PlainExtension(r)
  {
    var k := ExtensionIndex(s);
    if k == -1 then "" else s[k + 1..]
  }

  /** FilenameUtils.removeExtension: the path without the final segment's dot and extension. */
  function RemoveExtension(s: string): (r: string)
    ensures |r| <= |s|
    ensures r != s ==> |r| < |s| && s[|r|] == '.'
  {
    var k := ExtensionIndex(s);
    if k == -1 then s else s[..k]
  }

  /** Taking a path apart into stem and extension loses nothing. */
  lemma ExtensionSplit(s: string)
    ensures ExtensionIndex(s) >= 0 ==> s == RemoveExtension(s) + "." + GetExtension(s)
    ensures ExtensionIndex(s) == -1 ==> s == RemoveExtension(s) && GetExtension(s) == ""
  {
    var k := ExtensionIndex(s);
    if k >= 0 {
      assert s == s[..k] + [s[k]] + s[k + 1..];
    }
  }

  /** A plain extension: neither a dot nor a separator in it. */
  predicate PlainExtension(e: string) {
    forall j | 0 <= j < |e| :: e[j] != '.' && !IsSeparator(e[j])
  }

  lemma {:induction false} ScanOverPlain(s: string, k: nat, i: nat)
    requires k < i <= |s|
    requires s[k] == '.'
    requires forall j | k < j < i :: s[j] != '.' && !IsSeparator(s[j])
    ensures ExtensionIndexBefore(s, i) == k
    decreases i
  {
    if i - 1 != k {
      ScanOverPlain(s, k, i - 1);
    }
  }

  /** Appending `.e` gives a path whose extension is `e` and whose stem is the original path. */
  lemma WithExtension(stem: string, e: string)
    requires PlainExtension(e)
    ensures GetExtension(stem + "." + e) == e
    ensures RemoveExtension(stem + "." + e) == stem
  {
    var s := stem + "." + e;
    forall j | |stem| < j < |s|
      ensures s[j] != '.' && !IsSeparator(s[j])
    {
      assert s[j] == e[j - |stem| - 1];
    }
    ScanOverPlain(s, |stem|, |s|);
    assert s[|stem| + 1..] == e;
    assert s[..|stem|] == stem;
  }

  /** `Path.resolve`: a relative path below a root. */
  function Resolve(dir: string, rel: string): string {
    dir + "/" + rel
  }

  /** `Path.relativize` for a path below the root; any other path is returned as it is. */
  function Relativize(dir: string, p: string): string {
    if |dir| < |p| && p[..|dir| + 1] == dir + "/" then p[|dir| + 1..] else p
  }

  /** Relativising undoes resolving. */
  lemma RelativizeResolve(dir: string, rel: string)
    ensures Relativize(dir, Resolve(dir, rel)) == rel
  {
    var p := Resolve(dir, rel);
    assert p[..|dir| + 1] == dir + "/";
    assert p[|dir| + 1..] == rel;
  }

  /** A path below the root is the root resolved against its relativised form. */
  lemma ResolveRelativize(dir: string, p: string)
    requires |dir| < |p| && p[..|dir| + 1] == dir + "/"
    ensures Resolve(dir, Relativize(dir, p)) == p
  {
    assert p == p[..|dir| + 1] + p[|dir| + 1..];
  }

  /** Relativising keeps the extension. */
  lemma RelativizeExtension(dir: string, p: string)
    ensures GetExtension(Relativize(dir, p)) == GetExtension(p)
  {
    if |dir| < |p| && p[..|dir| + 1] == dir + "/" {
      ResolveRelativize(dir, p);
      ResolveExtension(dir, Relativize(dir, p));
    }
  }

  lemma ResolveInjective(dir: string, a: string, b: string)
    requires Resolve(dir, a) == Resolve(dir, b)
    ensures a == b
  {
    RelativizeResolve(dir, a);
    RelativizeResolve(dir, b);
  }

  lemma {:induction false} ScanBelowRoot(dir: string, rel: string, i: nat)
    requires i <= |rel|
    ensures ExtensionIndexBefore(rel, i) == -1 ==> ExtensionIndexBefore(Resolve(dir, rel), |dir| + 1 + i) == -1
    ensures ExtensionIndexBefore(rel, i) >= 0 ==>
      ExtensionIndexBefore(Resolve(dir, rel), |dir| + 1 + i) == ExtensionIndexBefore(rel, i) + |dir| + 1
    decreases i
  {
    var s := Resolve(dir, rel);
    if i == 0 {
      assert s[|dir|] == '/';
    } else {
      assert s[|dir| + i] == rel[i - 1];
      ScanBelowRoot(dir, rel, i - 1);
    }
  }

  /** The extension of a resolved path is that of the relative part; so is the stem. */
  lemma ResolveExtension(dir: string, rel: string)
    ensures GetExtension(Resolve(dir, rel)) == GetExtension(rel)
    ensures RemoveExtension(Resolve(dir, rel)) == Resolve(dir, RemoveExtension(rel))
  {
    ScanBelowRoot(dir, rel, |rel|);
    var s := Resolve(dir, rel);
    var k := ExtensionIndex(rel);
    assert |s| == |dir| + 1 + |rel|;
    if k >= 0 {
      assert ExtensionIndex(s) == k + |dir| + 1;
      assert s[k + |dir| + 1 + 1..] == rel[k + 1..];
      assert s[..k + |dir| + 1] == dir + "/" + rel[..k];
    } else {
      assert ExtensionIndex(s) == -1;
    }
  }

  lemma ClassExtensionIsPlain()
    ensures PlainExtension(ClassExtension)
  {
    assert ClassExtension == ['c', 'l', 'a', 's', 's'];
  }

  /** The `.class` file name of a source file: its stem with the class extension. */
  function ClassFileName(p: string): (c: string)
    ensures GetExtension(c) == ClassExtension
    ensures RemoveExtension(c) == RemoveExtension(p)
  {
    ClassExtensionIsPlain();
    WithExtension(RemoveExtension(p), ClassExtension);
    RemoveExtension(p) + "." + ClassExtension
  }

  /**
   * javaToClassFilename: asserts the `java` extension (a failed assertion when it is not),
   * then substitutes `class` for it, keeping the stem.
   */
  function JavaToClassFilename(p: string): (r: Result<string, Fault>)
    ensures r.Success? <==> GetExtension(p) == JavaExtension
    ensures r.Failure? ==> r.error == AssertionFailed(p)
    ensures r.Success? ==> GetExtension(r.value) == ClassExtension
    ensures r.Success? ==> RemoveExtension(r.value) == RemoveExtension(p)
    ensures r.Success? ==> p == RemoveExtension(r.value) + "." + JavaExtension
    ensures r.Success? ==> r.value == ClassFileName(p)
  {
    if GetExtension(p) == JavaExtension then
      ExtensionSplit(p);
      Success(ClassFileName(p))
    else Failure(AssertionFailed(p))
  }

  /** Two java sources never share a class file name. */
  lemma ClassFileNameInjective(p: string, q: string)
    requires GetExtension(p) == JavaExtension && GetExtension(q) == JavaExtension
    requires ClassFileName(p) == ClassFileName(q)
    ensures p == q
  {
    ExtensionSplit(p);
    ExtensionSplit(q);
  }

  /** A class file name is never a java source name. */
  lemma ClassFileNameNotJava(p: string, q: string)
    requires GetExtension(q) == JavaExtension
    ensures ClassFileName(p) != q
  {
  }

  /** A relative path as `java.nio.file.Path` holds it: its non-empty name segments. */
  type RelPath = seq<string>

  /** Number of leading characters before the first `/`. */
  function SegmentLength(s: string): (n: nat)
    ensures n <= |s|
    ensures forall j | 0 <= j < n :: s[j] != '/'
    ensures n < |s| ==> s[n] == '/'
  {
    if s == [] || s[0] == '/' then 0 else 1 + SegmentLength(s[1..])
  }

  /** `Paths.get(s)`: the segments between separators; redundant separators vanish. */
  function Parse(s: string): (r: RelPath)
    ensures ValidSegments(r)
    decreases |s|
  {
    if s == [] then []
    else if s[0] == '/' then Parse(s[1..])
    else
      var n := SegmentLength(s);
      [s[..n]] + Parse(s[n..])
  }

  /** `Path.toString()`: the segments joined by `/`. */
  function Show(p: RelPath): (r: string)
    ensures ValidSegments(p) ==> Normalized(r)
  {
    if p == [] then ""
    else if |p| == 1 then p[0]
    else p[0] + "/" + Show(p[1..])
  }

  /** Segments as a parsed path has them: non-empty and free of `/`. */
  predicate ValidSegments(p: RelPath) {
    forall i | 0 <= i < |p| :: p[i] != "" && NoSlash(p[i])
  }

  predicate NoSlash(seg: string) {
    forall j | 0 <= j < |seg| :: seg[j] != '/'
  }

  lemma {:induction false} SegmentLengthNoSlash(seg: string)
    requires NoSlash(seg)
    ensures SegmentLength(seg) == |seg|
    decreases |seg|
  {
    if seg != [] {
      SegmentLengthNoSlash(seg[1..]);
    }
  }

  /** A relative path string in the form `Path.toString()` produces. */
  predicate Normalized(s: string) {
    s == "" ||
    (s[0] != '/' && s[|s| - 1] != '/' && forall j | 0 <= j < |s| - 1 :: !(s[j] == '/' && s[j + 1] == '/'))
  }

  lemma {:induction false} ParseShow(p: RelPath)
    requires ValidSegments(p)
    ensures Parse(Show(p)) == p
    decreases |p|
  {
    if |p| == 1 {
      SegmentLengthNoSlash(p[0]);
      assert p[0][..|p[0]|] == p[0];
      assert p[0][|p[0]|..] == [];
    } else if |p| > 1 {
      var s := Show(p);
      var rest := Show(p[1..]);
      assert s == p[0] + "/" + rest;
      SegmentPrefix(p[0], rest);
      assert s[..|p[0]|] == p[0];
      assert s[|p[0]|..] == "/" + rest;
      ParseShow(p[1..]);
      assert ("/" + rest)[1..] == rest;
    }
  }

  lemma {:induction false} SegmentPrefix(seg: string, rest: string)
    requires NoSlash(seg)
    ensures SegmentLength(seg + "/" + rest) == |seg|
    decreases |seg|
  {
    var s := seg + "/" + rest;
    if seg != [] {
      assert s[1..] == seg[1..] + "/" + rest;
      SegmentPrefix(seg[1..], rest);
    }
  }

  lemma {:induction false} ShowParse(s: string)
    requires Normalized(s)
    ensures Show(Parse(s)) == s
    decreases |s|
  {
    if s != [] {
      var n := SegmentLength(s);
      assert n > 0;
      if n == |s| {
        assert s[..n] == s;
        assert s[n..] == [];
      } else {
        var rest := s[n + 1..];
        assert rest != [] by {
          assert s[|s| - 1] != '/';
        }
        assert rest[0] != '/' by {
          assert !(s[n] == '/' && s[n + 1] == '/');
        }
        assert Normalized(rest) by {
          forall j | 0 <= j < |rest| - 1
            ensures !(rest[j] == '/' && rest[j + 1] == '/')
          {
            assert rest[j] == s[n + 1 + j] && rest[j + 1] == s[n + 1 + j + 1];
          }
        }
        assert s[n..][1..] == rest;
        ShowParse(rest);
        assert Parse(s[n..]) == Parse(rest);
        assert Parse(rest) != [] by {
          assert rest[0] != '/';
        }
        assert s == s[..n] + "/" + rest;
      }
    }
  }
}

=== FILE: file_system.dfy ===
/**
 * The abstract world the compiler runs in: a finite filesystem keyed by absolute path, the
 * digest and class-file analysis it consults, and `javac` as an oracle that rewrites one
 * class file and is logged.
 */
module FileSystem {
  import opened Wrappers

  newtype byte = x: int | 0 <= x < 256

  type Bytes = seq<byte>

  /** A hex digest (MD5 or SHA-1) as the build records store it. */
  type Digest = string

  datatype Entry = File(content: Bytes) | Directory

  /** Every existing path with its kind; a path absent from the map does not exist. */
  type Fs = map<string, Entry>

  /** What the analysis of a class file reports: its name and every class it mentions. */
  datatype ClassInfo = ClassInfo(classname: string, dependencies: set<string>)

  /** What one `javac` call does to the class file of the compiled source. */
  datatype JavacEffect = Unchanged | Emit(content: Bytes) | Erase

  /**
   * The collaborators whose insides are not modelled: the digest function, the class-file
   * analysis, javac (which may look at the whole filesystem) and the depth of recursion the
   * JVM stack allows.
   */
  datatype Env = Env(
    hash: Bytes -> Digest,
    classInfo: Bytes -> ClassInfo,
    javac: (Fs, string) -> JavacEffect,
    stack: nat)

  /** The filesystem together with the log of compiled source paths, oldest first. */
  datatype State = State(fs: Fs, log: seq<string>)

  /** `File.exists()`: a file or a directory. */
  predicate Exists(fs: Fs, p: string) {
    p in fs
  }

  /** `File.isFile()`. */
  predicate IsFile(fs: Fs, p: string) {
    p in fs && fs[p].File?
  }

  /** Two filesystems hold the same thing at `p`. */
  predicate Agree(fs1: Fs, fs2: Fs, p: string) {
    (p in fs1 <==> p in fs2) && (p in fs1 ==> fs1[p] == fs2[p])
  }

  /** The digest of a file, absent when no file is there (the `?:`-checked hash). */
  function HashFile(env: Env, fs: Fs, p: string): (r: Option<Digest>)
    ensures r.Some? <==> IsFile(fs, p)
    ensures r.Some? ==> r.value == env.hash(fs[p].content)
  {
    if IsFile(fs, p) then Some(env.hash(fs[p].content)) else None
  }

  /** The digest of a file where a missing file raises (getMD5 of the earlier iteration). */
  function HashOrFail(env: Env, fs: Fs, p: string): (r: Result<Digest, Fault>)
    ensures r.Success? <==> IsFile(fs, p)
    ensures r.Success? ==> HashFile(env, fs, p) == Some(r.value)
    ensures r.Failure? ==> r.error == NoSuchFile(p)
  {
    if IsFile(fs, p) then Success(env.hash(fs[p].content)) else Failure(NoSuchFile(p))
  }

  function ClassInfoOf(env: Env, fs: Fs, p: string): ClassInfo
    requires IsFile(fs, p)
  {
    env.classInfo(fs[p].content)
  }

  /** getClassInfo: reading a missing class file raises. */
  function ReadClassInfo(env: Env, fs: Fs, p: string): (r: Result<ClassInfo, Fault>)
    ensures r.Success? <==> IsFile(fs, p)
    ensures r.Success? ==> r.value == ClassInfoOf(env, fs, p)
    ensures r.Failure? ==> r.error == NoSuchFile(p)
  {
    if IsFile(fs, p) then Success(ClassInfoOf(env, fs, p)) else Failure(NoSuchFile(p))
  }

  /** Files.deleteIfExists: `p` is gone afterwards and nothing else changed. */
  function DeleteIfExists(fs: Fs, p: string): (r: Fs)
    ensures !Exists(r, p)
    ensures forall q | q != p :: Agree(fs, r, q)
  {
    fs - {p}
  }

  /** The filesystem after a javac effect on `classFile`. */
  function ApplyEffect(fs: Fs, classFile: string, e: JavacEffect): (r: Fs)
    ensures forall q | q != classFile :: Agree(fs, r, q)
  {
    match e
    case Unchanged => fs
    case Emit(content) => fs[classFile := File(content)]
    case Erase => fs - {classFile}
  }

  /**
   * `javac.compileClass(source, ...)`: logs the source and lets the oracle rewrite or remove
   * the source's class file; no other path changes. Its result is never inspected.
   */
  function Javac(env: Env, st: State, source: string, classFile: string): (r: State)
    ensures r.log == st.log + [source]
    ensures forall q | q != classFile :: Agree(st.fs, r.fs, q)
  {
    State(ApplyEffect(st.fs, classFile, env.javac(st.fs, source)), st.log + [source])
  }

  /** Agreement at a path carries over to every observation made there. */
  lemma AgreeObservations(env: Env, fs1: Fs, fs2: Fs, p: string)
    requires Agree(fs1, fs2, p)
    ensures HashFile(env, fs1, p) == HashFile(env, fs2, p)
    ensures HashOrFail(env, fs1, p) == HashOrFail(env, fs2, p)
    ensures ReadClassInfo(env, fs1, p) == ReadClassInfo(env, fs2, p)
    ensures Exists(fs1, p) == Exists(fs2, p)
    ensures IsFile(fs1, p) == IsFile(fs2, p)
  {
  }
}

=== FILE: findings.dfy ===
/**
 * Corrected versions of the two staged-scheduler steps whose code departs from their own
 * documentation, each with the property the documentation promises, together with the inputs
 * on which the code as written falls short of it.
 *
 * 1. The cleanup of removed files `return`s at the first prior record that is still listed,
 *    so removed files recorded after it keep their stale class files; `continue` was meant.
 * 2. Scheduling adds a dependent to `recompileRequired` only when it is already there, so
 *    nothing is ever scheduled; the guard was meant to be negated.
 */
module Findings {
  import opened Wrappers
  import opened Collections
  import opened FileNames
  import opened FileSystem
  import opened BuildDb
  import opened JavaSources
  import opened Stages

  /** The listed files the prior record of `javaFile` names as depending on it. */
  function ListedDependents(info: CompilationInfo, javaFile: JavaToClass): set<JavaToClass> {
    match PreviousRecord(info, javaFile.relativePath)
    case None => {}
    case Some(b) => set d | d in b.filesDependsOnMe && d in info.javaFiles :: info.javaFiles[d]
  }

  /** Every file that joined `after` beyond `before` has its listed dependents in `after`. */
  predicate ClosedOver(info: CompilationInfo, before: seq<JavaToClass>, after: seq<JavaToClass>) {
    forall x, y | x in after && x !in before && y in ListedDependents(info, x) :: y in after
  }

  /** `after` holds everything `before` holds. */
  predicate Grows(before: seq<JavaToClass>, after: seq<JavaToClass>) {
    forall x | x in before :: x in after
  }

  /** The listed keys whose file is not scheduled yet: the measure scheduling consumes. */
  function Unscheduled(info: CompilationInfo, required: seq<JavaToClass>): set<string> {
    set k | k in info.javaFiles && info.javaFiles[k] !in required
  }

  lemma {:induction false} SubsetCardinality<T>(a: set<T>, b: set<T>)
    requires a <= b
    ensures |a| <= |b|
    decreases |b|
  {
    if a != {} {
      var x :| x in a;
      SubsetCardinality(a - {x}, b - {x});
    }
  }

  lemma UnscheduledShrinks(info: CompilationInfo, a: seq<JavaToClass>, b: seq<JavaToClass>)
    requires Grows(a, b)
    ensures |Unscheduled(info, b)| <= |Unscheduled(info, a)|
  {
    SubsetCardinality(Unscheduled(info, b), Unscheduled(info, a));
  }

  lemma UnscheduledAdd(info: CompilationInfo, required: seq<JavaToClass>, d: string)
    requires d in info.javaFiles && info.javaFiles[d] !in required
    ensures |Unscheduled(info, Add(required, info.javaFiles[d]))| < |Unscheduled(info, required)|
  {
    var before := Unscheduled(info, required);
    var after := Unscheduled(info, Add(required, info.javaFiles[d]));
    assert after <= before - {d};
    SubsetCardinality(after, before - {d});
  }

  /**
   * scheduleDependenciesForCompilation with the guard negated: every listed dependent not yet
   * required is added and its own dependents scheduled in turn. Each recursive call first adds
   * a file, so the recursion ends without a stack bound.
   */
  function ScheduleCorrected(info: CompilationInfo, ctx: Context, javaFile: JavaToClass): (r: Context)
    ensures r.recompiled == ctx.recompiled
    ensures Grows(ctx.recompileRequired, r.recompileRequired)
    ensures forall y | y in ListedDependents(info, javaFile) :: y in r.recompileRequired
    ensures ClosedOver(info, ctx.recompileRequired, r.recompileRequired)
    decreases |Unscheduled(info, ctx.recompileRequired)|, 1, 0
  {
    match PreviousRecord(info, javaFile.relativePath)
    case None => ctx
    case Some(buildFile) =>
      var r := ScheduleEachCorrected(info, ctx, Enumerate(buildFile.filesDependsOnMe));
      assert forall y | y in ListedDependents(info, javaFile) :: y in r.recompileRequired by {
        forall y | y in ListedDependents(info, javaFile) ensures y in r.recompileRequired {
          var d :| d in buildFile.filesDependsOnMe && d in info.javaFiles && y == info.javaFiles[d];
          assert d in Enumerate(buildFile.filesDependsOnMe);
        }
      }
      r
  }

  function ScheduleEachCorrected(info: CompilationInfo, ctx: Context, dependents: seq<string>): (r: Context)
    ensures r.recompiled == ctx.recompiled
    ensures Grows(ctx.recompileRequired, r.recompileRequired)
    ensures forall d | d in dependents && d in info.javaFiles :: info.javaFiles[d] in r.recompileRequired
    ensures ClosedOver(info, ctx.recompileRequired, r.recompileRequired)
    decreases |Unscheduled(info, ctx.recompileRequired)|, 0, |dependents|
  {
    if dependents == [] then ctx
    else
      var d := dependents[0];
      var next :=
        if d in info.javaFiles && info.javaFiles[d] !in ctx.recompileRequired then
          var y := info.javaFiles[d];
          UnscheduledAdd(info, ctx.recompileRequired, d);
          var scheduled := ctx.(recompileRequired := Add(ctx.recompileRequired, y));
          var sub := ScheduleCorrected(info, scheduled, y);
          ClosedAdd(info, ctx.recompileRequired, y, sub.recompileRequired);
          sub
        else ctx;
      UnscheduledShrinks(info, ctx.recompileRequired, next.recompileRequired);
      var r := ScheduleEachCorrected(info, next, dependents[1..]);
      ClosedTrans(info, ctx.recompileRequired, next.recompileRequired, r.recompileRequired);
      r
  }

  /** Closure composes along a growing chain. */
  lemma ClosedTrans(info: CompilationInfo, a: seq<JavaToClass>, b: seq<JavaToClass>, c: seq<JavaToClass>)
    requires Grows(a, b) && Grows(b, c)
    requires ClosedOver(info, a, b) && ClosedOver(info, b, c)
    ensures ClosedOver(info, a, c)
  {
  }

  /** Adding `y` and then closing over it closes over the original set. */
  lemma ClosedAdd(info: CompilationInfo, a: seq<JavaToClass>, y: JavaToClass, c: seq<JavaToClass>)
    requires Grows(Add(a, y), c)
    requires forall z | z in ListedDependents(info, y) :: z in c
    requires ClosedOver(info, Add(a, y), c)
    ensures ClosedOver(info, a, c)
  {
  }

  /** compileNewAndChanged scheduling with the corrected guard. */
  function CompileNewCorrected(env: Env, info: CompilationInfo, st: State, ctx: Context, pending: seq<JavaToClass>): (r: (State, Context))
    ensures Grows(ctx.recompiled, r.1.recompiled)
    ensures Grows(ctx.recompileRequired, r.1.recompileRequired)
    ensures ClosedOver(info, ctx.recompileRequired, r.1.recompileRequired)
    ensures forall x, y | x in r.1.recompiled && x !in ctx.recompiled && y in ListedDependents(info, x) ::
      y in r.1.recompileRequired
    decreases |pending|
  {
    if pending == [] then (st, ctx)
    else
      var javaFile := pending[0];
      if Skips(env, info, st.fs, javaFile) then CompileNewCorrected(env, info, st, ctx, pending[1..])
      else
        var scheduled := ScheduleCorrected(info, ctx, javaFile);
        var compiled := Javac(env, st, javaFile.javaFileAbsolute, javaFile.classFileAbsolute);
        var next := scheduled.(recompiled := Add(scheduled.recompiled, javaFile));
        var r := CompileNewCorrected(env, info, compiled, next, pending[1..]);
        ClosedTrans(info, ctx.recompileRequired, next.recompileRequired, r.1.recompileRequired);
        r
  }

  /** cleanClassesForRemovedFiles with `continue` for listed records and the corrected guard. */
  function CleanCorrectedFrom(info: CompilationInfo, fs: Fs, ctx: Context, files: seq<BuildFileInfo>): (r: Result<(Fs, Context), Fault>)
    ensures r.Success? ==> r.value.1.recompiled == ctx.recompiled
    ensures r.Success? ==> Grows(ctx.recompileRequired, r.value.1.recompileRequired)
    ensures r.Success? ==> ClosedOver(info, ctx.recompileRequired, r.value.1.recompileRequired)
    ensures r.Failure? ==> r.error.AssertionFailed?
    ensures (forall i | 0 <= i < |files| && files[i].relativePathStr !in info.javaFiles ::
      GetExtension(RecordKey(files[i])) == JavaExtension) ==> r.Success?
    decreases |files|
  {
    if files == [] then Success((fs, ctx))
    else
      var file := files[0];
      assert forall i | 0 <= i < |files[1..]| :: files[1..][i] == files[i + 1];
      if file.relativePathStr in info.javaFiles then CleanCorrectedFrom(info, fs, ctx, files[1..])
      else
        var possible :- Get(info.inputDir, info.outputDir, RecordKey(file));
        if !Exists(fs, possible.javaFileAbsolute) then
          var scheduled := ScheduleCorrected(info, ctx, possible);
          var r := CleanCorrectedFrom(info, DeleteIfExists(fs, possible.classFileAbsolute), scheduled, files[1..]);
          if r.Success? then
            ClosedTrans(info, ctx.recompileRequired, scheduled.recompileRequired, r.value.1.recompileRequired);
            r
          else r
        else CleanCorrectedFrom(info, fs, ctx, files[1..])
  }

  function CleanCorrected(info: CompilationInfo, fs: Fs, ctx: Context): (r: Result<(Fs, Context), Fault>)
    ensures info.previousBuildInfo.None? ==> r == Success((fs, ctx))
    ensures r.Success? ==> r.value.1.recompiled == ctx.recompiled
    ensures r.Success? ==> Grows(ctx.recompileRequired, r.value.1.recompileRequired)
    ensures r.Success? ==> ClosedOver(info, ctx.recompileRequired, r.value.1.recompileRequired)
  {
    match info.previousBuildInfo
    case None => Success((fs, ctx))
    case Some(b) => CleanCorrectedFrom(info, fs, ctx, b.files)
  }

  /** The corrected cleanup deletes the class file of every removed record, wherever it is listed. */
  lemma {:induction false} CleanCorrectedDeletes(info: CompilationInfo, fs: Fs, ctx: Context, files: seq<BuildFileInfo>)
    ensures var r := CleanCorrectedFrom(info, fs, ctx, files);
      r.Success? ==> r.value.0 == fs - StaleClasses(info, fs, files)
    decreases |files|
  {
    if files != [] {
      var got := Get(info.inputDir, info.outputDir, RecordKey(files[0]));
      if files[0].relativePathStr in info.javaFiles || (got.Success? && Exists(fs, got.value.javaFileAbsolute)) {
        CleanCorrectedKept(info, fs, ctx, files);
      } else if got.Success? {
        CleanCorrectedStep(info, fs, ctx, files);
      }
    }
  }

  /** The step of CleanCorrectedDeletes that deletes nothing. */
  lemma {:induction false} CleanCorrectedKept(info: CompilationInfo, fs: Fs, ctx: Context, files: seq<BuildFileInfo>)
    requires files != []
    requires files[0].relativePathStr in info.javaFiles ||
      (Get(info.inputDir, info.outputDir, RecordKey(files[0])).Success? &&
       Exists(fs, Get(info.inputDir, info.outputDir, RecordKey(files[0])).value.javaFileAbsolute))
    ensures var r := CleanCorrectedFrom(info, fs, ctx, files);
      r.Success? ==> r.value.0 == fs - StaleClasses(info, fs, files)
    decreases |files|, 0
  {
    assert CleanCorrectedFrom(info, fs, ctx, files) == CleanCorrectedFrom(info, fs, ctx, files[1..]);
    CleanCorrectedDeletes(info, fs, ctx, files[1..]);
    assert !Removed(info, fs, files[0]);
    StaleShift(info, fs, files);
  }

  /** The deleting step of CleanCorrectedDeletes. */
  lemma {:induction false} CleanCorrectedStep(info: CompilationInfo, fs: Fs, ctx: Context, files: seq<BuildFileInfo>)
    requires files != [] && files[0].relativePathStr !in info.javaFiles
    requires Get(info.inputDir, info.outputDir, RecordKey(files[0])).Success?
    requires !Exists(fs, Resolve(info.inputDir, RecordKey(files[0])))
    ensures var r := CleanCorrectedFrom(info, fs, ctx, files);
      r.Success? ==> r.value.0 == fs - StaleClasses(info, fs, files)
    decreases |files|, 0
  {
    var key := RecordKey(files[0]);
    var possible := Get(info.inputDir, info.outputDir, key).value;
    var fs' := DeleteIfExists(fs, possible.classFileAbsolute);
    var scheduled := ScheduleCorrected(info, ctx, possible);
    assert CleanCorrectedFrom(info, fs, ctx, files) == CleanCorrectedFrom(info, fs', scheduled, files[1..]);
    CleanCorrectedDeletes(info, fs', scheduled, files[1..]);
    StaleFrame(info, fs, key, files[1..]);
    RemoveTwice(fs, possible.classFileAbsolute, StaleClasses(info, fs, files[1..]));
    assert Removed(info, fs, files[0]);
    StaleShift(info, fs, files);
  }

  /** The compiling stages with both corrections: clean, compile new and changed, dependents. */
  function CompileCorrected(env: Env, info: CompilationInfo, st: State): (r: Result<(State, Context), Fault>)
    ensures info.previousBuildInfo.None? ==> r.Success?
  {
    var cleaned :- CleanCorrected(info, st.fs, EmptyContext);
    var compiled := CompileNewCorrected(env, info, State(cleaned.0, st.log), cleaned.1, Listing(info));
    Success(CompileDependencies(env, compiled.0, compiled.1))
  }

  /** The corrected run, recording what it compiled as the staged run does. */
  function BuildCorrected(env: Env, info: CompilationInfo, st: State): (r: Result<(State, BuildInfo), Fault>)
    ensures r.Success? ==> r.value.1.sourceFolder == info.inputDir
    ensures info.previousBuildInfo.None? ==> r.Success?
  {
    var done :- CompileCorrected(env, info, st);
    Success((done.0, FillUpNewBuildInfo(env, done.0.fs, done.1, BuildInfo(info.inputDir, []))))
  }

  /**
   * What recompiling dependents is for: with both corrections, the files a run compiles are
   * closed under "depends on": every listed dependent of a compiled file is compiled too.
   */
  lemma CompiledClosed(env: Env, info: CompilationInfo, st: State)
    ensures var r := CompileCorrected(env, info, st);
      r.Success? ==>
        forall x, y | x in r.value.1.recompiled && y in ListedDependents(info, x) :: y in r.value.1.recompiled
  {
    var cleaned := CleanCorrected(info, st.fs, EmptyContext);
    if cleaned.Success? {
      var ctx1 := cleaned.value.1;
      var compiled := CompileNewCorrected(env, info, State(cleaned.value.0, st.log), ctx1, Listing(info));
      ClosedTrans(info, [], ctx1.recompileRequired, compiled.1.recompileRequired);
      assert ctx1.recompiled == [];
    }
  }

  /** The counterexample records: `A.java` is still listed, `B.java` was removed. */
  const RecordA: BuildFileInfo := BuildFileInfo("A.java", "a", "a", {"B.java"})
  const RecordB: BuildFileInfo := BuildFileInfo("B.java", "b", "b", {})
  const TargetA: JavaToClass := JavaToClass("A.java", "/in/A.java", "/out/A.class")
  const TargetB: JavaToClass := JavaToClass("B.java", "/in/B.java", "/out/B.class")

  /** A previous build of A and B where B is now gone but its class file is still there. */
  const RemovedInfo: CompilationInfo :=
    CompilationInfo("/in", "/out", map["A.java" := TargetA], ["A.java"], Some(BuildInfo("/in", [RecordA, RecordB])))
  const RemovedFs: Fs := map["/in/A.java" := File([]), "/out/B.class" := File([])]

  lemma JavaExtensionIsPlain()
    ensures PlainExtension(JavaExtension)
  {
    assert JavaExtension == ['j', 'a', 'v', 'a'];
  }

  /** The class path and removal verdict of the record of `B.java`. */
  lemma RecordBRemoved()
    ensures RecordKey(RecordB) == "B.java"
    ensures ClassPath("/out", "B.java") == "/out/B.class"
    ensures Removed(RemovedInfo, RemovedFs, RecordB)
  {
    RecordBKey();
    BClassPath();
    RecordBGone();
  }

  lemma RecordBGone()
    requires RecordKey(RecordB) == "B.java" && GetExtension("B.java") == JavaExtension
    ensures Removed(RemovedInfo, RemovedFs, RecordB)
  {
    var p := Resolve("/in", "B.java");
    assert p[1] == 'i' && p[4] == 'B';
    assert p != "/in/A.java" by { assert "/in/A.java"[4] == 'A'; }
    assert p != "/out/B.class" by { assert "/out/B.class"[1] == 'o'; }
    assert "B.java" !in RemovedInfo.javaFiles;
  }

  lemma RecordBKey()
    ensures RecordKey(RecordB) == "B.java" && GetExtension("B.java") == JavaExtension
  {
    assert Normalized("B.java");
    ShowParse("B.java");
    JavaExtensionIsPlain();
    WithExtension("B", JavaExtension);
    assert "B" + "." + JavaExtension == "B.java";
  }

  lemma BClassPath()
    ensures ClassPath("/out", "B.java") == "/out/B.class"
  {
    JavaExtensionIsPlain();
    WithExtension("/out/B", JavaExtension);
    assert "/out/B" + "." + JavaExtension == Resolve("/out", "B.java");
    assert "/out/B" + "." + ClassExtension == "/out/B.class";
  }

  /**
   * Finding 1. The cleanup as written stops at A's record and leaves B's stale class file;
   * the corrected cleanup deletes it.
   */
  lemma CleanupStopsEarly(env: Env)
    ensures CleanClassesForRemovedFiles(env, RemovedInfo, RemovedFs, EmptyContext) == Success((RemovedFs, EmptyContext))
    ensures IsFile(RemovedFs, "/out/B.class")
    ensures CleanCorrected(RemovedInfo, RemovedFs, EmptyContext).Success?
    ensures !Exists(CleanCorrected(RemovedInfo, RemovedFs, EmptyContext).value.0, "/out/B.class")
  {
    assert FirstListed(RemovedInfo, [RecordA, RecordB]) == 0;
    CorrectedDeletesB();
  }

  /** The only unlisted record of the counterexample names a java source. */
  lemma UnlistedAreJava(files: seq<BuildFileInfo>)
    requires files == [RecordA, RecordB]
    requires GetExtension(RecordKey(RecordB)) == JavaExtension
    ensures forall i | 0 <= i < |files| && files[i].relativePathStr !in RemovedInfo.javaFiles ::
      GetExtension(RecordKey(files[i])) == JavaExtension
  {
    forall i | 0 <= i < |files| && files[i].relativePathStr !in RemovedInfo.javaFiles
      ensures GetExtension(RecordKey(files[i])) == JavaExtension
    {
      assert files[0].relativePathStr in RemovedInfo.javaFiles;
      assert i == 1 && files[i] == RecordB;
    }
  }

  lemma CorrectedDeletesB()
    ensures CleanCorrected(RemovedInfo, RemovedFs, EmptyContext).Success?
    ensures !Exists(CleanCorrected(RemovedInfo, RemovedFs, EmptyContext).value.0, "/out/B.class")
  {
    var files := [RecordA, RecordB];
    RecordBRemoved();
    UnlistedAreJava(files);
    assert CleanCorrected(RemovedInfo, RemovedFs, EmptyContext) == CleanCorrectedFrom(RemovedInfo, RemovedFs, EmptyContext, files);
    StaleMember(RemovedInfo, RemovedFs, files, 1);
    CleanCorrectedDeletes(RemovedInfo, RemovedFs, EmptyContext, files);
  }

  /** A previous build where B depends on A, both still listed. */
  const DependentInfo: CompilationInfo :=
    CompilationInfo("/in", "/out", map["A.java" := TargetA, "B.java" := TargetB], ["A.java", "B.java"],
      Some(BuildInfo("/in", [RecordA, RecordB])))

  /**
   * Finding 2. Scheduling A as written leaves `recompileRequired` empty although B depends on
   * A; the corrected scheduling requires B.
   */
  lemma ScheduleMissesDependent(depth: nat)
    ensures TargetB in ListedDependents(DependentInfo, TargetA)
    ensures ScheduleDependencies(DependentInfo, EmptyContext, TargetA, depth) == Success(EmptyContext)
    ensures TargetB in ScheduleCorrected(DependentInfo, EmptyContext, TargetA).recompileRequired
  {
    assert PreviousRecord(DependentInfo, "A.java") == Some(RecordA);
    assert DependentInfo.javaFiles["B.java"] == TargetB;
  }

  /**
   * Finding 2 on a whole staged run: a listed file that is unchanged after the cleanup is never
   * compiled, even when a file it depends on is.
   */
  lemma BuildSkipsDependent(env: Env, info: CompilationInfo, st: State, y: JavaToClass)
    requires ValidInfo(info)
    requires y in Listing(info) && Skips(env, info, CleanedFs(env, info, st.fs), y)
    ensures var r := Build(env, info, st);
      r.Success? ==> forall i | |st.log| <= i < |r.value.0.log| :: r.value.0.log[i] != y.javaFileAbsolute
  {
    var changed := ToCompile(env, info, CleanedFs(env, info, st.fs), Listing(info));
    BuildCompilesChanged(env, info, st);
    forall x | x in changed
      ensures x.javaFileAbsolute != y.javaFileAbsolute
    {
      if x.javaFileAbsolute == y.javaFileAbsolute {
        ListingSources(info, x, y);
      }
    }
    var r := Build(env, info, st);
    if r.Success? {
      NotLogged(st.log, r.value.0.log, changed, y.javaFileAbsolute);
    }
  }

  /** A source none of `changed` has is not among their logged sources. */
  lemma NotLogged(log0: seq<string>, log: seq<string>, changed: seq<JavaToClass>, source: string)
    requires log == log0 + Sources(changed)
    requires forall x | x in changed :: x.javaFileAbsolute != source
    ensures forall i | |log0| <= i < |log| :: log[i] != source
  {
    forall i | |log0| <= i < |log|
      ensures log[i] != source
    {
      assert log[i] == changed[i - |log0|].javaFileAbsolute;
    }
  }

  /** Under a walk-built info, listed files with the same source are the same file. */
  lemma ListingSources(info: CompilationInfo, x: JavaToClass, y: JavaToClass)
    requires ValidInfo(info)
    requires x in Listing(info) && y in Listing(info) && x.javaFileAbsolute == y.javaFileAbsolute
    ensures x == y
  {
    var kx :| kx in info.order && kx in info.javaFiles && x == info.javaFiles[kx];
    var ky :| ky in info.order && ky in info.javaFiles && y == info.javaFiles[ky];
    if kx != ky {
      GetSeparates(info.inputDir, info.outputDir, kx, ky);
    }
  }
}

=== FILE: incremental_compiler.dfy ===
/**
 * The entry points: the incremental `IncrementalCompiler.compile`, which walks the input
 * directory, runs the cleanup stage and then the two-pass scheduler, and the non-incremental
 * `Compiler.compile`, which hands javac every walked regular file. The theorems relate them:
 * a build without a prior record is the full build, and an immediate rebuild compiles nothing.
 */
module IncrementalCompiler {
  import opened Wrappers
  import opened Collections
  import opened FileNames
  import opened FileSystem
  import opened BuildDb
  import opened JavaSources
  import opened Stages
  import StagesEarlier
  import opened TwoPass

  /**
   * compile: the targets of the walk keyed by relative path (a key met twice fails), the
   * cleanup of classes whose listed source is gone, then internalCompile on what the cleanup
   * leaves. The result is the new build record, filed under the input directory.
   */
  function Compile(env: Env, inputDir: string, outputDir: string, walked: seq<string>, previous: Option<BuildInfo>, st: State): (r: Result<(State, BuildInfo), Fault>)
    ensures r.Success? ==> r.value.1.sourceFolder == inputDir
  {
    var targets := WalkJavaClasses(st.fs, inputDir, outputDir, walked);
    var javaClasses :- ToMap(targets);
    var info := CompilationInfo(inputDir, outputDir, javaClasses, Keys(targets), previous);
    var cleaned :- StagesEarlier.CleanClassesBasedOnRemoved(env, info, st.fs, EmptyContext);
    var built :- InternalCompile(env, inputDir, outputDir, walked, previous, State(cleaned.0, st.log));
    Success((built.0, BuildInfo(inputDir, built.1)))
  }

  /**
   * On a genuine walk the cleanup stage never deletes anything: every listed target comes from
   * a walked regular file, so no listed source is missing. compile is then internalCompile on
   * the filesystem as found, with its records filed under the input directory.
   */
  lemma CompileIsInternalCompile(env: Env, inputDir: string, outputDir: string, walked: seq<string>, previous: Option<BuildInfo>, st: State)
    requires WalkedBelow(inputDir, walked)
    ensures var r := Compile(env, inputDir, outputDir, walked, previous, st);
      var ic := InternalCompile(env, inputDir, outputDir, walked, previous, st);
      (r.Success? <==> ic.Success?) &&
      (r.Success? ==> r.value == (ic.value.0, BuildInfo(inputDir, ic.value.1)))
  {
    var targets := WalkJavaClasses(st.fs, inputDir, outputDir, walked);
    WalkTargets(st.fs, inputDir, outputDir, walked);
    var javaClasses := ToMap(targets).value;
    var info := CompilationInfo(inputDir, outputDir, javaClasses, Keys(targets), previous);
    if previous.Some? {
      var files := previous.value.files;
      forall i | 0 <= i < |files| ensures !StagesEarlier.SourceGone(info, st.fs, files[i]) {
        var k := files[i].relativePathStr;
        if k in javaClasses {
          var t :| t in targets && t.relativePath == k;
          assert javaClasses[k] == t;
        }
      }
    }
    assert StagesEarlier.CleanClassesBasedOnRemoved(env, info, st.fs, EmptyContext) == Success((st.fs, EmptyContext));
    assert State(st.fs, st.log) == st;
  }

  /** Files.walk(inputDir).filter { isFile }: the walked regular files, in walk order. */
  function WalkedFiles(fs: Fs, walked: seq<string>): (r: seq<string>)
    ensures forall p :: p in r <==> p in walked && IsFile(fs, p)
    ensures |r| <= |walked|
  {
    if walked == [] then []
    else if IsFile(fs, walked[0]) then [walked[0]] + WalkedFiles(fs, walked[1..])
    else WalkedFiles(fs, walked[1..])
  }

  /**
   * Compiler.compile(inputDir, outputDir): javac on every walked path that is a regular file
   * when the walk reaches it; each call writes the class file of its source.
   */
  function FullCompile(env: Env, inputDir: string, outputDir: string, walked: seq<string>, st: State): (r: State)
    ensures |st.log| <= |r.log| <= |st.log| + |walked|
    ensures r.log[..|st.log|] == st.log
    decreases |walked|
  {
    if walked == [] then st
    else
      var p := walked[0];
      var next := if IsFile(st.fs, p) then Javac(env, st, p, ClassOf(inputDir, outputDir, p)) else st;
      FullCompile(env, inputDir, outputDir, walked[1..], next)
  }

  /**
   * When no walked path is a class file, the full build hands javac exactly the walked regular
   * files, in walk order, once each, and changes nothing in the filesystem but class files.
   */
  lemma {:induction false} FullCompileLog(env: Env, inputDir: string, outputDir: string, walked: seq<string>, st: State)
    requires forall p | p in walked :: GetExtension(p) != ClassExtension
    ensures FullCompile(env, inputDir, outputDir, walked, st).log == st.log + WalkedFiles(st.fs, walked)
    ensures SourcesKept(st.fs, FullCompile(env, inputDir, outputDir, walked, st).fs)
    decreases |walked|
  {
    if walked != [] {
      var p := walked[0];
      var next := if IsFile(st.fs, p) then Javac(env, st, p, ClassOf(inputDir, outputDir, p)) else st;
      assert SourcesKept(st.fs, next.fs);
      assert forall q | q in walked[1..] :: q in walked;
      FullCompileLog(env, inputDir, outputDir, walked[1..], next);
      FilesKept(st.fs, next.fs, walked[1..]);
      assert FullCompile(env, inputDir, outputDir, walked, st) == FullCompile(env, inputDir, outputDir, walked[1..], next);
      if IsFile(st.fs, p) {
        AppendAssoc(st.log, [p], WalkedFiles(st.fs, walked[1..]));
      }
    }
  }

  /** Filesystems that agree on every non-class path have the same walked regular files. */
  lemma {:induction false} FilesKept(fs1: Fs, fs2: Fs, walked: seq<string>)
    requires forall p | p in walked :: GetExtension(p) != ClassExtension
    requires SourcesKept(fs1, fs2)
    ensures WalkedFiles(fs1, walked) == WalkedFiles(fs2, walked)
    decreases |walked|
  {
    if walked != [] {
      assert Agree(fs1, fs2, walked[0]);
      assert forall q | q in walked[1..] :: q in walked;
      FilesKept(fs1, fs2, walked[1..]);
    }
  }

  /** Without a prior record every walked regular file needs compiling. */
  lemma {:induction false} FreshWithoutRecords(env: Env, inputDir: string, outputDir: string, fs: Fs, walked: seq<string>)
    ensures FreshSources(env, inputDir, outputDir, None, fs, walked) == WalkedFiles(fs, walked)
    decreases |walked|
  {
    if walked != [] {
      FreshWithoutRecords(env, inputDir, outputDir, fs, walked[1..]);
    }
  }

  /** Without a prior record nothing is queued for the second pass. */
  lemma {:induction false} QueueWithoutRecords(inputDir: string, queue: seq<string>, sources: seq<string>)
    ensures QueueAfter(inputDir, None, queue, sources) == queue
    decreases |sources|
  {
    if sources != [] {
      var ds := Dependents(inputDir, None, sources[0]);
      assert ds == [];
      assert AddAll(queue, ds) == queue by {
        AddAllFresh(queue, ds);
      }
      QueueWithoutRecords(inputDir, queue, sources[1..]);
    }
  }

  /**
   * A build without a prior record makes the same javac calls as the full build: every
   * walked regular file, in walk order, once each.
   */
  lemma CleanBuildIsFullBuild(env: Env, inputDir: string, outputDir: string, walked: seq<string>, st: State)
    requires SourceTree(inputDir, walked)
    ensures var r := InternalCompile(env, inputDir, outputDir, walked, None, st);
      r.Success? ==> r.value.0.log == FullCompile(env, inputDir, outputDir, walked, st).log
  {
    InternalCompileLog(env, inputDir, outputDir, walked, None, st);
    FreshWithoutRecords(env, inputDir, outputDir, st.fs, walked);
    var compiled := WalkedFiles(st.fs, walked);
    QueueWithoutRecords(inputDir, [], compiled);
    assert Unbuilt([], set p | p in compiled) == [];
    assert compiled + [] == compiled;
    FullCompileLog(env, inputDir, outputDir, walked, st);
  }

  /**
   * Every path internalCompile hands javac is a walked file that is not up to date or a
   * direct dependent, by the prior records, of one; and each of those is handed over. A
   * dependent of a dependent is not reached unless it is itself out of date.
   */
  lemma InternalCompileReaches(env: Env, inputDir: string, outputDir: string, walked: seq<string>, previous: Option<BuildInfo>, st: State)
    requires SourceTree(inputDir, walked)
    ensures var r := InternalCompile(env, inputDir, outputDir, walked, previous, st);
      var compiled := FreshSources(env, inputDir, outputDir, previous, st.fs, walked);
      r.Success? ==> |st.log| <= |r.value.0.log| && forall q :: q in r.value.0.log[|st.log|..] <==>
        q in compiled || exists p | p in compiled :: q in Dependents(inputDir, previous, p)
  {
    var r := InternalCompile(env, inputDir, outputDir, walked, previous, st);
    InternalCompileLog(env, inputDir, outputDir, walked, previous, st);
    if r.Success? {
      assert r.value.0.log[|st.log|..] == PlannedCompiles(env, inputDir, outputDir, previous, st.fs, walked);
    }
  }

  /**
   * With nothing out of date internalCompile makes no javac call and records nothing; a walked
   * file that is up to date is skipped without a record in the new build.
   */
  lemma IdleWhenNothingFresh(env: Env, inputDir: string, outputDir: string, walked: seq<string>, previous: Option<BuildInfo>, st: State)
    requires SourceTree(inputDir, walked)
    requires forall p | p in walked :: !Fresh(env, inputDir, outputDir, previous, st.fs, p)
    ensures var r := InternalCompile(env, inputDir, outputDir, walked, previous, st);
      r.Success? ==> r.value.0.log == st.log && r.value.1 == []
  {
    InternalCompileLog(env, inputDir, outputDir, walked, previous, st);
    InternalCompileRecords(env, inputDir, outputDir, walked, previous, st);
    var compiled := FreshSources(env, inputDir, outputDir, previous, st.fs, walked);
    assert compiled == [];
    assert QueueAfter(inputDir, previous, [], compiled) == [];
    assert PlannedCompiles(env, inputDir, outputDir, previous, st.fs, walked) == [];
  }

  /** A record that is current for its file makes the file up to date against the records. */
  lemma RecordedUpToDate(env: Env, inputDir: string, outputDir: string, records: seq<BuildFileInfo>, fs: Fs, j: nat)
    requires UniquePaths(records) && j < |records|
    requires Current(env, inputDir, outputDir, fs, records[j])
    ensures UpToDate(env, inputDir, outputDir, Some(BuildInfo(inputDir, records)), fs, Resolve(inputDir, records[j].relativePathStr))
  {
    FindRecordUnique(records, j);
    RelativizeResolve(inputDir, records[j].relativePathStr);
  }

  /**
   * A build from scratch followed by a build against its records, with no edit in between,
   * makes no javac call in the second build.
   */
  lemma SecondRunIdle(env: Env, inputDir: string, outputDir: string, walked: seq<string>, st: State)
    requires SourceTree(inputDir, walked)
    requires InternalCompile(env, inputDir, outputDir, walked, None, st).Success?
    ensures var (st1, records) := InternalCompile(env, inputDir, outputDir, walked, None, st).value;
      var r := InternalCompile(env, inputDir, outputDir, walked, Some(BuildInfo(inputDir, records)), st1);
      r.Success? ==> r.value.0.log == st1.log && r.value.1 == []
  {
    var n := |st.log|;
    var (st1, records) := InternalCompile(env, inputDir, outputDir, walked, None, st).value;
    var previous := Some(BuildInfo(inputDir, records));
    var compiled := WalkedFiles(st.fs, walked);
    InternalCompileRecords(env, inputDir, outputDir, walked, None, st);
    InternalCompileSourcesKept(env, inputDir, outputDir, walked, None, st);
    FirstBuildLog(env, inputDir, outputDir, walked, st);
    forall p | p in walked ensures !Fresh(env, inputDir, outputDir, previous, st1.fs, p) {
      if IsFile(st1.fs, p) {
        assert Agree(st.fs, st1.fs, p);
        var j :| 0 <= j < |compiled| && compiled[j] == p;
        assert st1.log[n + j] == p;
        RecordedUpToDate(env, inputDir, outputDir, records, st1.fs, j);
      }
    }
    IdleWhenNothingFresh(env, inputDir, outputDir, walked, previous, st1);
  }

  /** A build from scratch compiles the walked regular files, in walk order, and nothing else. */
  lemma FirstBuildLog(env: Env, inputDir: string, outputDir: string, walked: seq<string>, st: State)
    requires SourceTree(inputDir, walked)
    ensures var r := InternalCompile(env, inputDir, outputDir, walked, None, st);
      r.Success? ==> r.value.0.log == st.log + WalkedFiles(st.fs, walked)
  {
    InternalCompileLog(env, inputDir, outputDir, walked, None, st);
    FreshWithoutRecords(env, inputDir, outputDir, st.fs, walked);
    var compiled := WalkedFiles(st.fs, walked);
    QueueWithoutRecords(inputDir, [], compiled);
    assert Unbuilt([], set p | p in compiled) == [];
    assert compiled + [] == compiled;
  }

  /**
   * When a single walked file is out of date, internalCompile compiles it first and then each
   * of its direct dependents by the prior records once, and nothing else.
   */
  lemma OneChangeRebuildsDependents(env: Env, inputDir: string, outputDir: string, walked: seq<string>, previous: Option<BuildInfo>, st: State, a: string)
    requires SourceTree(inputDir, walked)
    requires FreshSources(env, inputDir, outputDir, previous, st.fs, walked) == [a]
    ensures var r := InternalCompile(env, inputDir, outputDir, walked, previous, st);
      r.Success? ==> (
        |st.log| <= |r.value.0.log| &&
        var added := r.value.0.log[|st.log|..];
        added != [] && added[0] == a && NoDups(added) &&
        forall q :: q in added <==> q == a || exists d | d in DependentPaths(previous, Relativize(inputDir, a)) :: q == Resolve(inputDir, d))
  {
    var r := InternalCompile(env, inputDir, outputDir, walked, previous, st);
    InternalCompileLog(env, inputDir, outputDir, walked, previous, st);
    if r.Success? {
      var added := r.value.0.log[|st.log|..];
      assert added == [a] + Unbuilt(QueueAfter(inputDir, previous, [], [a]), set p | p in [a]);
      OnePlan(inputDir, previous, a, added);
    }
  }

  /** The plan for one out-of-date file: the file, then its direct dependents other than itself. */
  lemma OnePlan(inputDir: string, previous: Option<BuildInfo>, a: string, added: seq<string>)
    requires added == [a] + Unbuilt(QueueAfter(inputDir, previous, [], [a]), set p | p in [a])
    ensures added != [] && added[0] == a
    ensures forall q :: q in added <==> q == a || exists d | d in DependentPaths(previous, Relativize(inputDir, a)) :: q == Resolve(inputDir, d)
  {
    var ds := Dependents(inputDir, previous, a);
    forall q ensures q in added <==> q == a || q in ds {
      OnePlanMember(inputDir, previous, a, added, q);
    }
  }

  lemma OnePlanMember(inputDir: string, previous: Option<BuildInfo>, a: string, added: seq<string>, q: string)
    requires added == [a] + Unbuilt(QueueAfter(inputDir, previous, [], [a]), set p | p in [a])
    ensures q in added <==> q == a || q in Dependents(inputDir, previous, a)
  {
    var queue := QueueAfter(inputDir, previous, [], [a]);
    assert q in queue <==> q in Dependents(inputDir, previous, a);
    assert q in added <==> q == a || q in Unbuilt(queue, set p | p in [a]);
  }
}

=== FILE: java_sources.dfy ===
/**
 * Build targets: a java source below the input directory paired with the class file javac
 * writes for it below the output directory; the walk that finds them; the nullable SHA-1.
 */
module JavaSources {
  import opened Wrappers
  import opened Collections
  import opened FileNames
  import opened FileSystem

  /** A source file: its path relative to the input directory, its source path and its class path. */
  datatype JavaToClass = JavaToClass(relativePath: string, javaFileAbsolute: string, classFileAbsolute: string)

  /** The class file of a relative source path below the output directory. */
  function ClassPath(outputDir: string, rel: string): string {
    ClassFileName(Resolve(outputDir, rel))
  }

  /** JavaToClass.get: the source below `inputDir`, the class below `outputDir`. */
  function Get(inputDir: string, outputDir: string, rel: string): (r: Result<JavaToClass, Fault>)
    ensures r.Success? <==> GetExtension(rel) == JavaExtension
    ensures r.Success? ==> r.value == JavaToClass(rel, Resolve(inputDir, rel), ClassPath(outputDir, rel))
    ensures r.Failure? ==> r.error == AssertionFailed(Resolve(outputDir, rel))
  {
    ResolveExtension(outputDir, rel);
    var classFile :- JavaToClassFilename(Resolve(outputDir, rel));
    Success(JavaToClass(rel, Resolve(inputDir, rel), classFile))
  }

  /**
   * Targets obtained from different relative paths never share a source or a class file,
   * and no class file is a source file.
   */
  lemma GetSeparates(inputDir: string, outputDir: string, a: string, b: string)
    requires Get(inputDir, outputDir, a).Success? && Get(inputDir, outputDir, b).Success?
    ensures var x, y := Get(inputDir, outputDir, a).value, Get(inputDir, outputDir, b).value;
      x.javaFileAbsolute != y.classFileAbsolute &&
      (a != b ==> x.javaFileAbsolute != y.javaFileAbsolute && x.classFileAbsolute != y.classFileAbsolute)
  {
    var x, y := Get(inputDir, outputDir, a).value, Get(inputDir, outputDir, b).value;
    ResolveExtension(inputDir, a);
    ResolveExtension(outputDir, a);
    ResolveExtension(outputDir, b);
    assert GetExtension(x.javaFileAbsolute) == JavaExtension;
    assert GetExtension(y.classFileAbsolute) == ClassExtension;
    assert JavaExtension[0] != ClassExtension[0];
    if a != b {
      if x.javaFileAbsolute == y.javaFileAbsolute {
        ResolveInjective(inputDir, a, b);
      }
      if x.classFileAbsolute == y.classFileAbsolute {
        ClassFileNameInjective(Resolve(outputDir, a), Resolve(outputDir, b));
        ResolveInjective(outputDir, a, b);
      }
    }
  }

  /** A walked path is a java source. */
  predicate IsJavaSource(fs: Fs, p: string) {
    IsFile(fs, p) && GetExtension(p) == JavaExtension
  }

  /** The target a walked source yields: keyed by its path relative to the input directory. */
  function TargetOf(inputDir: string, outputDir: string, p: string): (t: JavaToClass)
    requires GetExtension(p) == JavaExtension
    ensures Get(inputDir, outputDir, Relativize(inputDir, p)) == Success(t)
  {
    RelativizeExtension(inputDir, p);
    Get(inputDir, outputDir, Relativize(inputDir, p)).value
  }

  /**
   * walkJavaClasses over the paths `Files.walk` yields, in that order: the regular files with
   * the `java` extension, each turned into its target.
   */
  function WalkJavaClasses(fs: Fs, inputDir: string, outputDir: string, walked: seq<string>): (r: seq<JavaToClass>)
    ensures |r| <= |walked|
  {
    if walked == [] then []
    else
      var rest := WalkJavaClasses(fs, inputDir, outputDir, walked[1..]);
      if IsJavaSource(fs, walked[0]) then [TargetOf(inputDir, outputDir, walked[0])] + rest else rest
  }

  /** The walk yields a target for each walked java source, and nothing else. */
  lemma {:induction false} WalkMembers(fs: Fs, inputDir: string, outputDir: string, walked: seq<string>)
    ensures forall t | t in WalkJavaClasses(fs, inputDir, outputDir, walked) ::
      exists p | p in walked :: IsJavaSource(fs, p) && t == TargetOf(inputDir, outputDir, p)
    ensures forall p | p in walked && IsJavaSource(fs, p) ::
      TargetOf(inputDir, outputDir, p) in WalkJavaClasses(fs, inputDir, outputDir, walked)
    decreases |walked|
  {
    if walked != [] {
      var rest := WalkJavaClasses(fs, inputDir, outputDir, walked[1..]);
      var r := WalkJavaClasses(fs, inputDir, outputDir, walked);
      WalkMembers(fs, inputDir, outputDir, walked[1..]);
      forall p | p in walked && IsJavaSource(fs, p) ensures TargetOf(inputDir, outputDir, p) in r {
        if p != walked[0] {
          assert p in walked[1..];
        }
      }
      forall t | t in r ensures exists p | p in walked :: IsJavaSource(fs, p) && t == TargetOf(inputDir, outputDir, p) {
        if t !in rest {
          assert walked[0] in walked;
        } else {
          var p :| p in walked[1..] && IsJavaSource(fs, p) && t == TargetOf(inputDir, outputDir, p);
          assert p in walked;
        }
      }
    }
  }

  /** The walk covers a tree: each path lies below the root, and none is listed twice. */
  predicate WalkedBelow(inputDir: string, walked: seq<string>) {
    NoDups(walked) && forall p | p in walked :: Resolve(inputDir, Relativize(inputDir, p)) == p
  }

  /**
   * On a genuine walk every target's source is the walked file itself, it exists, and
   * different targets have different keys.
   */
  lemma WalkTargets(fs: Fs, inputDir: string, outputDir: string, walked: seq<string>)
    requires WalkedBelow(inputDir, walked)
    ensures var r := WalkJavaClasses(fs, inputDir, outputDir, walked);
      (forall t | t in r :: t.javaFileAbsolute in walked && IsJavaSource(fs, t.javaFileAbsolute)) &&
      NoDups(Keys(r))
  {
    var r := WalkJavaClasses(fs, inputDir, outputDir, walked);
    WalkMembers(fs, inputDir, outputDir, walked);
    forall t | t in r
      ensures t.javaFileAbsolute in walked && IsJavaSource(fs, t.javaFileAbsolute)
    {
      var p :| p in walked && IsJavaSource(fs, p) && t == TargetOf(inputDir, outputDir, p);
    }
    WalkKeysDistinct(fs, inputDir, outputDir, walked);
  }

  lemma {:induction false} WalkKeysDistinct(fs: Fs, inputDir: string, outputDir: string, walked: seq<string>)
    requires WalkedBelow(inputDir, walked)
    ensures NoDups(Keys(WalkJavaClasses(fs, inputDir, outputDir, walked)))
    decreases |walked|
  {
    if walked != [] {
      assert WalkedBelow(inputDir, walked[1..]) by {
        forall i, j | 0 <= i < j < |walked[1..]| ensures walked[1..][i] != walked[1..][j] {
          assert walked[1..][i] == walked[i + 1] && walked[1..][j] == walked[j + 1];
        }
      }
      WalkKeysDistinct(fs, inputDir, outputDir, walked[1..]);
      var rest := WalkJavaClasses(fs, inputDir, outputDir, walked[1..]);
      WalkMembers(fs, inputDir, outputDir, walked[1..]);
      if IsJavaSource(fs, walked[0]) {
        var t := TargetOf(inputDir, outputDir, walked[0]);
        forall u | u in rest
          ensures u.relativePath != t.relativePath
        {
          var q :| q in walked[1..] && IsJavaSource(fs, q) && u == TargetOf(inputDir, outputDir, q);
          var k :| 0 <= k < |walked[1..]| && walked[1..][k] == q;
          assert walked[0] != walked[k + 1];
          TargetKeysApart(inputDir, outputDir, walked[0], q);
        }
        KeysCons(t, rest);
      }
    }
  }

  /** Two different paths below the root have different keys. */
  lemma TargetKeysApart(inputDir: string, outputDir: string, p: string, q: string)
    requires GetExtension(p) == JavaExtension && GetExtension(q) == JavaExtension
    requires Resolve(inputDir, Relativize(inputDir, p)) == p && Resolve(inputDir, Relativize(inputDir, q)) == q
    requires p != q
    ensures TargetOf(inputDir, outputDir, p).relativePath != TargetOf(inputDir, outputDir, q).relativePath
  {
  }

  lemma KeysCons(t: JavaToClass, rest: seq<JavaToClass>)
    requires NoDups(Keys(rest))
    requires forall u | u in rest :: u.relativePath != t.relativePath
    ensures NoDups(Keys([t] + rest))
  {
    var ks := Keys([t] + rest);
    forall i, j | 0 <= i < j < |ks| ensures ks[i] != ks[j] {
      if i == 0 {
        assert rest[j - 1] in rest;
      } else {
        assert ks[i] == Keys(rest)[i - 1] && ks[j] == Keys(rest)[j - 1];
      }
    }
  }

  /** The relative paths of a list of targets, in order. */
  function Keys(ts: seq<JavaToClass>): (ks: seq<string>)
    ensures |ks| == |ts|
    ensures forall i | 0 <= i < |ts| :: ks[i] == ts[i].relativePath
  {
    seq(|ts|, i requires 0 <= i < |ts| => ts[i].relativePath)
  }

  /**
   * `Collectors.toMap(JavaToClass::relativePath) { it }`: a map by relative path, which
   * throws on a key met twice.
   */
  function ToMap(ts: seq<JavaToClass>): (r: Result<map<string, JavaToClass>, Fault>)
    ensures r.Success? <==> NoDups(Keys(ts))
    ensures r.Success? ==> r.value.Keys == set t | t in ts :: t.relativePath
    ensures r.Success? ==> forall t | t in ts :: r.value[t.relativePath] == t
    decreases |ts|
  {
    if ts == [] then Success(map[])
    else
      var m := ToMap(ts[1..]);
      if m.Failure? then
        KeysTailDuplicate(ts);
        m
      else if ts[0].relativePath in m.value then
        KeysHeadDuplicate(ts);
        Failure(DuplicateKey(ts[0].relativePath))
      else
        KeysHeadFresh(ts);
        Success(m.value[ts[0].relativePath := ts[0]])
  }

  /** A key met twice after the head is met twice in the whole list. */
  lemma KeysTailDuplicate(ts: seq<JavaToClass>)
    requires ts != [] && !NoDups(Keys(ts[1..]))
    ensures !NoDups(Keys(ts))
  {
    var ks := Keys(ts[1..]);
    var i, j :| 0 <= i < j < |ks| && ks[i] == ks[j];
    assert Keys(ts)[i + 1] == Keys(ts)[j + 1];
  }

  /** The head's key met again later is a duplicate. */
  lemma KeysHeadDuplicate(ts: seq<JavaToClass>)
    requires ts != [] && exists u | u in ts[1..] :: u.relativePath == ts[0].relativePath
    ensures !NoDups(Keys(ts))
  {
    var u :| u in ts[1..] && u.relativePath == ts[0].relativePath;
    var k :| 0 <= k < |ts[1..]| && ts[1..][k] == u;
    assert Keys(ts)[0] == Keys(ts)[k + 1];
  }

  /** A fresh head on a list of distinct keys keeps them distinct. */
  lemma KeysHeadFresh(ts: seq<JavaToClass>)
    requires ts != [] && NoDups(Keys(ts[1..]))
    requires forall u | u in ts[1..] :: u.relativePath != ts[0].relativePath
    ensures NoDups(Keys(ts))
  {
    KeysCons(ts[0], ts[1..]);
    assert [ts[0]] + ts[1..] == ts;
  }

  /**
   * getSHA1 of the latest iteration: absent exactly when nothing exists at the path; a
   * directory there fails its `isFile` assertion.
   */
  function GetSha1(env: Env, fs: Fs, p: string): (r: Result<Option<Digest>, Fault>)
    ensures r == Success(None) <==> !Exists(fs, p)
    ensures r.Failure? <==> Exists(fs, p) && !IsFile(fs, p)
    ensures r.Failure? ==> r.error == AssertionFailed(p)
    ensures r.Success? && r.value.Some? ==> HashOrFail(env, fs, p) == Success(r.value.value)
  {
    if !Exists(fs, p) then Success(None)
    else if !IsFile(fs, p) then Failure(AssertionFailed(p))
    else Success(Some(env.hash(fs[p].content)))
  }

  /** On a file both digests agree; the nullable one differs from getMD5 only on a missing path. */
  lemma Sha1AgreesWithMd5(env: Env, fs: Fs, p: string)
    ensures IsFile(fs, p) ==> GetSha1(env, fs, p) == Success(HashFile(env, fs, p))
    ensures !Exists(fs, p) ==> GetSha1(env, fs, p).Success? && HashOrFail(env, fs, p).Failure?
  {
  }
}

=== FILE: stages.dfy ===
/**
 * The staged scheduler of the latest iteration: four stages thread a `Context` of two
 * insertion-ordered sets over the filesystem and the compile log. The cleanup stage stops at
 * the first prior record that is still listed, and scheduling adds a dependent only when it
 * is already present; both are modelled as written (see the corrected stages in Findings).
 */
module Stages {
  import opened Wrappers
  import opened Collections
  import opened FileNames
  import opened FileSystem
  import opened BuildDb
  import opened JavaSources

  /** The read-only input of the stages; `order` is the iteration order of `javaFiles`. */
  datatype CompilationInfo = CompilationInfo(
    inputDir: string,
    outputDir: string,
    javaFiles: map<string, JavaToClass>,
    order: seq<string>,
    previousBuildInfo: Option<BuildInfo>)

  /** `javaFiles` as a walk builds it: every key maps to its own target and is listed once. */
  predicate ValidInfo(info: CompilationInfo) {
    NoDups(info.order) &&
    (forall k | k in info.order :: k in info.javaFiles) &&
    (forall k | k in info.javaFiles :: k in info.order) &&
    forall k | k in info.javaFiles :: Get(info.inputDir, info.outputDir, k) == Success(info.javaFiles[k])
  }

  /** `javaFiles.values`, in iteration order. */
  function Listing(info: CompilationInfo): (r: seq<JavaToClass>)
    ensures forall x :: x in r <==> exists k | k in info.order :: k in info.javaFiles && x == info.javaFiles[k]
    decreases |info.order|
  {
    if info.order == [] then []
    else
      var rest := Listing(info.(order := info.order[1..]));
      var k := info.order[0];
      if k in info.javaFiles then [info.javaFiles[k]] + rest else rest
  }

  /** The mutable part the stages share: what was compiled, and what must be compiled. */
  datatype Context = Context(recompiled: seq<JavaToClass>, recompileRequired: seq<JavaToClass>)

  /** A fresh `CompilationContext()`. */
  const EmptyContext: Context := Context([], [])

  /** No listed file is in `recompileRequired`: the state every run starts in and keeps. */
  predicate NoneRequired(info: CompilationInfo, ctx: Context) {
    forall k | k in info.javaFiles :: info.javaFiles[k] !in ctx.recompileRequired
  }

  /** `previousBuildInfo?.getBuildFileInfo(rel)`. */
  function PreviousRecord(info: CompilationInfo, rel: string): (r: Option<BuildFileInfo>)
    ensures info.previousBuildInfo.None? ==> r.None?
    ensures r.Some? ==> r.value in info.previousBuildInfo.value.files && r.value.relativePathStr == rel
    ensures info.previousBuildInfo.Some? ==>
      (r.None? <==> forall i | 0 <= i < |info.previousBuildInfo.value.files| :: info.previousBuildInfo.value.files[i].relativePathStr != rel)
  {
    match info.previousBuildInfo
    case None => None
    case Some(b) => GetBuildFileInfo(b, rel)
  }

  /**
   * requiresRecompilation: a missing source, a missing class file, a changed source or a
   * changed class file each demand recompilation.
   */
  function RequiresRecompilation(env: Env, fs: Fs, javaFile: JavaToClass, buildFile: BuildFileInfo): (r: bool)
    ensures !r <==>
      HashFile(env, fs, javaFile.javaFileAbsolute) == Some(buildFile.sourceHash) &&
      HashFile(env, fs, javaFile.classFileAbsolute) == Some(buildFile.classHash)
  {
    match HashFile(env, fs, javaFile.javaFileAbsolute)
    case None => true
    case Some(currentSourceHash) =>
      match HashFile(env, fs, javaFile.classFileAbsolute)
      case None => true
      case Some(currentClassHash) =>
        if buildFile.sourceHash != currentSourceHash then true
        else buildFile.classHash != currentClassHash
  }

  /** compileNewAndChanged passes over a file: it has a record and needs no recompilation. */
  predicate Skips(env: Env, info: CompilationInfo, fs: Fs, javaFile: JavaToClass) {
    match PreviousRecord(info, javaFile.relativePath)
    case None => false
    case Some(buildFile) => !RequiresRecompilation(env, fs, javaFile, buildFile)
  }

  /** A listed file is passed over exactly when it has a prior record that both current digests match. */
  lemma SkipsExactly(env: Env, info: CompilationInfo, fs: Fs, javaFile: JavaToClass)
    ensures Skips(env, info, fs, javaFile) <==>
      PreviousRecord(info, javaFile.relativePath).Some? &&
      HashFile(env, fs, javaFile.javaFileAbsolute) == Some(PreviousRecord(info, javaFile.relativePath).value.sourceHash) &&
      HashFile(env, fs, javaFile.classFileAbsolute) == Some(PreviousRecord(info, javaFile.relativePath).value.classHash)
  {
  }

  /**
   * scheduleDependenciesForCompilation as written: for each dependent of the file's prior
   * record that is listed, the `add` runs only when the dependent is already in
   * `recompileRequired`, followed by the recursive call. `depth` is the stack left.
   */
  function ScheduleDependencies(info: CompilationInfo, ctx: Context, javaFile: JavaToClass, depth: nat): (r: Result<Context, Fault>)
    ensures r.Success? ==> r.value == ctx
    ensures r.Failure? ==> r.error.StackOverflow?
    ensures PreviousRecord(info, javaFile.relativePath).None? ==> r == Success(ctx)
    ensures NoneRequired(info, ctx) ==> r == Success(ctx)
    decreases depth, 1, 0
  {
    match PreviousRecord(info, javaFile.relativePath)
    case None => Success(ctx)
    case Some(buildFile) => ScheduleEach(info, ctx, Enumerate(buildFile.filesDependsOnMe), depth)
  }

  function ScheduleEach(info: CompilationInfo, ctx: Context, dependents: seq<string>, depth: nat): (r: Result<Context, Fault>)
    ensures r.Success? ==> r.value == ctx
    ensures r.Failure? ==> r.error.StackOverflow?
    ensures NoneRequired(info, ctx) ==> r == Success(ctx)
    decreases depth, 0, |dependents|
  {
    if dependents == [] then Success(ctx)
    else
      var d := dependents[0];
      var next :-
        if d in info.javaFiles && info.javaFiles[d] in ctx.recompileRequired then
          var scheduled := ctx.(recompileRequired := Add(ctx.recompileRequired, info.javaFiles[d]));
          if depth == 0 then Failure(StackOverflow(info.javaFiles[d].javaFileAbsolute))
          else ScheduleDependencies(info, scheduled, info.javaFiles[d], depth - 1)
        else Success(ctx);
      ScheduleEach(info, next, dependents[1..], depth)
  }

  /** The source paths of a list of targets. */
  function Sources(ts: seq<JavaToClass>): (r: seq<string>)
    ensures |r| == |ts|
    ensures forall i | 0 <= i < |ts| :: r[i] == ts[i].javaFileAbsolute
  {
    seq(|ts|, i requires 0 <= i < |ts| => ts[i].javaFileAbsolute)
  }

  /** The files compileNewAndChanged compiles, judged against one filesystem, in order. */
  function ToCompile(env: Env, info: CompilationInfo, fs: Fs, pending: seq<JavaToClass>): (r: seq<JavaToClass>)
    ensures forall x :: x in r <==> x in pending && !Skips(env, info, fs, x)
    ensures |r| <= |pending|
    ensures NoDups(pending) ==> NoDups(r)
    decreases |pending|
  {
    if pending == [] then []
    else
      var rest := ToCompile(env, info, fs, pending[1..]);
      if Skips(env, info, fs, pending[0]) then rest else [pending[0]] + rest
  }

  /** compileNewAndChanged, from a given point of the listing on. */
  function CompileNewFrom(env: Env, info: CompilationInfo, st: State, ctx: Context, pending: seq<JavaToClass>): (r: Result<(State, Context), Fault>)
    ensures NoneRequired(info, ctx) ==> r.Success?
    ensures r.Success? ==> r.value.1.recompileRequired == ctx.recompileRequired
    decreases |pending|
  {
    if pending == [] then Success((st, ctx))
    else
      var javaFile := pending[0];
      if Skips(env, info, st.fs, javaFile) then CompileNewFrom(env, info, st, ctx, pending[1..])
      else
        var scheduled :- ScheduleDependencies(info, ctx, javaFile, env.stack);
        var compiled := Javac(env, st, javaFile.javaFileAbsolute, javaFile.classFileAbsolute);
        var next := scheduled.(recompiled := Add(scheduled.recompiled, javaFile));
        CompileNewFrom(env, info, compiled, next, pending[1..])
  }

  /** compileNewAndChanged: every listed file that is new or changed is compiled and recorded. */
  function CompileNewAndChanged(env: Env, info: CompilationInfo, st: State, ctx: Context): (r: Result<(State, Context), Fault>)
    ensures NoneRequired(info, ctx) ==> r.Success?
    ensures r.Success? ==> r.value.1.recompileRequired == ctx.recompileRequired
  {
    CompileNewFrom(env, info, st, ctx, Listing(info))
  }

  /** Every key is its target's relative path. */
  predicate KeyedByPath(info: CompilationInfo) {
    forall k | k in info.javaFiles :: info.javaFiles[k].relativePath == k
  }

  lemma ValidKeyed(info: CompilationInfo)
    requires ValidInfo(info)
    ensures KeyedByPath(info)
  {
  }

  /** Listed targets, none twice. */
  predicate Targets(info: CompilationInfo, pending: seq<JavaToClass>) {
    NoDups(pending) &&
    forall x | x in pending :: x.relativePath in info.javaFiles && info.javaFiles[x.relativePath] == x
  }

  lemma TargetsTail(info: CompilationInfo, pending: seq<JavaToClass>)
    requires Targets(info, pending) && pending != []
    ensures Targets(info, pending[1..])
    ensures pending[0] !in pending[1..]
  {
    forall i, j | 0 <= i < j < |pending[1..]| ensures pending[1..][i] != pending[1..][j] {
      assert pending[1..][i] == pending[i + 1] && pending[1..][j] == pending[j + 1];
    }
    forall k | 0 <= k < |pending[1..]| ensures pending[1..][k] != pending[0] {
      assert pending[1..][k] == pending[k + 1];
    }
  }

  /** The listing of a well-formed info names every target once. */
  lemma {:induction false} ListingTargets(info: CompilationInfo)
    requires NoDups(info.order) && KeyedByPath(info)
    ensures Targets(info, Listing(info))
    decreases |info.order|
  {
    if info.order != [] {
      var tail := info.(order := info.order[1..]);
      NoDupsTail(info.order);
      ListingTargets(tail);
      var k := info.order[0];
      if k in info.javaFiles {
        ListingHeadFresh(info, tail);
        NoDupsAppend([info.javaFiles[k]], Listing(tail));
      }
    }
  }

  /** The target of the first key is not among those of the later keys. */
  lemma ListingHeadFresh(info: CompilationInfo, tail: CompilationInfo)
    requires info.order != [] && info.order[0] !in info.order[1..] && KeyedByPath(info)
    requires tail == info.(order := info.order[1..])
    requires info.order[0] in info.javaFiles
    ensures forall y | y in [info.javaFiles[info.order[0]]] :: y !in Listing(tail)
  {
    var k := info.order[0];
    forall y | y in Listing(tail) ensures y != info.javaFiles[k] {
      var k' :| k' in tail.order && k' in info.javaFiles && y == info.javaFiles[k'];
    }
  }

  /** Whether a file is skipped depends only on its own source and class file. */
  lemma {:induction false} ToCompileFrame(env: Env, info: CompilationInfo, fs1: Fs, fs2: Fs, pending: seq<JavaToClass>)
    requires forall y | y in pending :: Agree(fs1, fs2, y.javaFileAbsolute) && Agree(fs1, fs2, y.classFileAbsolute)
    ensures ToCompile(env, info, fs1, pending) == ToCompile(env, info, fs2, pending)
    decreases |pending|
  {
    if pending != [] {
      AgreeObservations(env, fs1, fs2, pending[0].javaFileAbsolute);
      AgreeObservations(env, fs1, fs2, pending[0].classFileAbsolute);
      ToCompileFrame(env, info, fs1, fs2, pending[1..]);
    }
  }

  /** `fs2` differs from `fs1` at most at the class files of `compiled`. */
  ghost predicate ChangedOnlyClasses(fs1: Fs, fs2: Fs, compiled: seq<JavaToClass>) {
    forall q | (forall x | x in compiled :: q != x.classFileAbsolute) :: Agree(fs1, fs2, q)
  }

  lemma ChangedOnlyClassesCons(fs1: Fs, fs2: Fs, fs3: Fs, x: JavaToClass, later: seq<JavaToClass>)
    requires forall q | q != x.classFileAbsolute :: Agree(fs1, fs2, q)
    requires ChangedOnlyClasses(fs2, fs3, later)
    ensures ChangedOnlyClasses(fs1, fs3, [x] + later)
  {
    forall q | (forall y | y in [x] + later :: q != y.classFileAbsolute)
      ensures Agree(fs1, fs3, q)
    {
      assert x in [x] + later;
      forall y | y in later ensures q != y.classFileAbsolute {
        assert y in [x] + later;
      }
      assert Agree(fs1, fs2, q) && Agree(fs2, fs3, q);
    }
  }

  /** One compiling step of compileNewAndChanged, unfolded. */
  lemma CompileNewUnfold(env: Env, info: CompilationInfo, st: State, ctx: Context, pending: seq<JavaToClass>)
    requires pending != [] && !Skips(env, info, st.fs, pending[0])
    requires ScheduleDependencies(info, ctx, pending[0], env.stack).Success?
    ensures CompileNewFrom(env, info, st, ctx, pending) ==
      CompileNewFrom(env, info, Javac(env, st, pending[0].javaFileAbsolute, pending[0].classFileAbsolute),
        ctx.(recompiled := Add(ctx.recompiled, pending[0])), pending[1..])
  {
  }

  lemma SourcesCons(x: JavaToClass, later: seq<JavaToClass>)
    ensures Sources([x] + later) == [x.javaFileAbsolute] + Sources(later)
  {
  }

  /**
   * The outcome compileNewAndChanged promises from `pending` on: when it succeeds it has
   * compiled, in listing order, exactly the files that are new or changed in the filesystem it
   * started from, added them to `recompiled`, and touched no path but their class files.
   */
  ghost predicate CompiledAsListed(env: Env, info: CompilationInfo, st: State, ctx: Context, pending: seq<JavaToClass>) {
    var r := CompileNewFrom(env, info, st, ctx, pending);
    var compiled := ToCompile(env, info, st.fs, pending);
    r.Success? ==>
      r.value.0.log == st.log + Sources(compiled) &&
      r.value.1.recompiled == AddAll(ctx.recompiled, compiled) &&
      ChangedOnlyClasses(st.fs, r.value.0.fs, compiled)
  }

  /**
   * compileNewAndChanged compiles exactly the new and changed files (compiling one file never
   * changes the verdict on another), logs them in listing order and touches only their classes.
   */
  lemma {:induction false} CompileNewFromLog(env: Env, info: CompilationInfo, st: State, ctx: Context, pending: seq<JavaToClass>)
    requires ValidInfo(info)
    requires Targets(info, pending)
    ensures CompiledAsListed(env, info, st, ctx, pending)
    decreases |pending|
  {
    if pending != [] {
      var x := pending[0];
      TargetsTail(info, pending);
      if Skips(env, info, st.fs, x) {
        CompileNewFromLog(env, info, st, ctx, pending[1..]);
      } else if ScheduleDependencies(info, ctx, x, env.stack).Success? {
        var compiledSt := Javac(env, st, x.javaFileAbsolute, x.classFileAbsolute);
        CompileNewFromLog(env, info, compiledSt, ctx.(recompiled := Add(ctx.recompiled, x)), pending[1..]);
        CompileNewStep(env, info, st, ctx, pending);
      }
    }
  }

  /** The compiling step of CompileNewFromLog. */
  lemma CompileNewStep(env: Env, info: CompilationInfo, st: State, ctx: Context, pending: seq<JavaToClass>)
    requires ValidInfo(info) && Targets(info, pending) && pending != []
    requires !Skips(env, info, st.fs, pending[0]) && ScheduleDependencies(info, ctx, pending[0], env.stack).Success?
    requires CompiledAsListed(env, info, Javac(env, st, pending[0].javaFileAbsolute, pending[0].classFileAbsolute),
      ctx.(recompiled := Add(ctx.recompiled, pending[0])), pending[1..])
    ensures CompiledAsListed(env, info, st, ctx, pending)
  {
    var x := pending[0];
    var rest := pending[1..];
    var compiledSt := Javac(env, st, x.javaFileAbsolute, x.classFileAbsolute);
    var next := ctx.(recompiled := Add(ctx.recompiled, x));
    var r := CompileNewFrom(env, info, compiledSt, next, rest);
    var later := ToCompile(env, info, st.fs, rest);
    assert CompileNewFrom(env, info, st, ctx, pending) == r by {
      CompileNewUnfold(env, info, st, ctx, pending);
    }
    assert ToCompile(env, info, compiledSt.fs, rest) == later by {
      CompiledFrame(env, info, st, pending);
    }
    assert ToCompile(env, info, st.fs, pending) == [x] + later;
    if r.Success? {
      LogStep(st.log, compiledSt.log, r.value.0.log, x, later);
      AddAllStep(ctx.recompiled, r.value.1.recompiled, x, later);
      ChangedOnlyClassesCons(st.fs, compiledSt.fs, r.value.0.fs, x, later);
    }
  }

  lemma LogStep(log: seq<string>, log1: seq<string>, log2: seq<string>, x: JavaToClass, later: seq<JavaToClass>)
    requires log1 == log + [x.javaFileAbsolute] && log2 == log1 + Sources(later)
    ensures log2 == log + Sources([x] + later)
  {
    SourcesCons(x, later);
  }

  lemma AddAllStep<T(!new)>(s: seq<T>, r: seq<T>, x: T, later: seq<T>)
    requires r == AddAll(Add(s, x), later)
    ensures r == AddAll(s, [x] + later)
  {
    assert ([x] + later)[0] == x && ([x] + later)[1..] == later;
  }

  /** Compiling `x` leaves the source and the class file of another target `y` as they were. */
  lemma CompiledAgree(env: Env, info: CompilationInfo, st: State, x: JavaToClass, y: JavaToClass)
    requires ValidInfo(info)
    requires Targets(info, [x]) && Targets(info, [y]) && x != y
    ensures var compiledSt := Javac(env, st, x.javaFileAbsolute, x.classFileAbsolute);
      Agree(st.fs, compiledSt.fs, y.javaFileAbsolute) && Agree(st.fs, compiledSt.fs, y.classFileAbsolute)
  {
    assert x in [x] && y in [y];
    GetSeparates(info.inputDir, info.outputDir, y.relativePath, x.relativePath);
  }

  /** Compiling one listed file leaves the verdict on every other listed file as it was. */
  lemma CompiledFrame(env: Env, info: CompilationInfo, st: State, pending: seq<JavaToClass>)
    requires ValidInfo(info)
    requires Targets(info, pending) && pending != []
    ensures var compiledSt := Javac(env, st, pending[0].javaFileAbsolute, pending[0].classFileAbsolute);
      ToCompile(env, info, compiledSt.fs, pending[1..]) == ToCompile(env, info, st.fs, pending[1..])
  {
    var x := pending[0];
    var compiledSt := Javac(env, st, x.javaFileAbsolute, x.classFileAbsolute);
    forall y | y in pending[1..]
      ensures Agree(st.fs, compiledSt.fs, y.javaFileAbsolute) && Agree(st.fs, compiledSt.fs, y.classFileAbsolute)
    {
      TargetsTail(info, pending);
      CompiledAgree(env, info, st, x, y);
    }
    ToCompileFrame(env, info, st.fs, compiledSt.fs, pending[1..]);
  }

  /** With no previous build every listed file is compiled once, in listing order. */
  lemma FirstBuildCompilesAll(env: Env, info: CompilationInfo, st: State)
    requires ValidInfo(info)
    requires info.previousBuildInfo.None?
    ensures var r := CompileNewAndChanged(env, info, st, EmptyContext);
      r.Success? &&
      r.value.0.log == st.log + Sources(Listing(info)) &&
      r.value.1.recompiled == Listing(info) &&
      r.value.1.recompileRequired == []
  {
    ListingTargets(info);
    CompileNewFromLog(env, info, st, EmptyContext, Listing(info));
    NoToCompileSkips(env, info, st.fs, Listing(info));
    AddAllFresh([], Listing(info));
  }

  lemma {:induction false} NoToCompileSkips(env: Env, info: CompilationInfo, fs: Fs, pending: seq<JavaToClass>)
    requires info.previousBuildInfo.None?
    ensures ToCompile(env, info, fs, pending) == pending
    decreases |pending|
  {
    if pending != [] {
      NoToCompileSkips(env, info, fs, pending[1..]);
      assert [pending[0]] + pending[1..] == pending;
    }
  }

  /** compileDependencies, from a given point of `recompileRequired` on. */
  function CompileRequiredFrom(env: Env, st: State, ctx: Context, pending: seq<JavaToClass>): (r: (State, Context))
    ensures r.1.recompiled == AddAll(ctx.recompiled, pending)
    ensures r.0.log == st.log + Sources(r.1.recompiled[|ctx.recompiled|..])
    ensures r.1.recompileRequired == ctx.recompileRequired
    decreases |pending|
  {
    if pending == [] then
      NothingAfter(st.log, ctx.recompiled);
      (st, ctx)
    else
      var javaFile := pending[0];
      if javaFile in ctx.recompiled then
        AddAllUnfold(ctx.recompiled, pending);
        CompileRequiredFrom(env, st, ctx, pending[1..])
      else
        var compiled := Javac(env, st, javaFile.javaFileAbsolute, javaFile.classFileAbsolute);
        var next := ctx.(recompiled := Add(ctx.recompiled, javaFile));
        var r := CompileRequiredFrom(env, compiled, next, pending[1..]);
        AddAllUnfold(ctx.recompiled, pending);
        LogAfter(st.log, compiled.log, ctx.recompiled, javaFile, r.1.recompiled, r.0.log);
        r
  }

  lemma NothingAfter(log: seq<string>, done: seq<JavaToClass>)
    ensures log + Sources(done[|done|..]) == log
  {
    assert Sources(done[|done|..]) == [];
  }

  /** The log of one more compiled file, followed by the log of the files recompiled after it. */
  lemma LogAfter(log: seq<string>, log': seq<string>, done: seq<JavaToClass>, x: JavaToClass, rec: seq<JavaToClass>, final: seq<string>)
    requires log' == log + [x.javaFileAbsolute]
    requires |done| + 1 <= |rec| && rec[..|done| + 1] == done + [x]
    requires final == log' + Sources(rec[|done| + 1..])
    ensures final == log + Sources(rec[|done|..])
  {
    var later := rec[|done| + 1..];
    SliceAfter(done, x, rec);
    SourcesCons(x, later);
    assert Sources(rec[|done|..]) == [x.javaFileAbsolute] + Sources(later);
    AppendAssoc(log, [x.javaFileAbsolute], Sources(later));
  }

  lemma SliceAfter<T>(s: seq<T>, x: T, r: seq<T>)
    requires |s| + 1 <= |r| && r[..|s| + 1] == s + [x]
    ensures r[|s|..] == [x] + r[|s| + 1..]
  {
    assert r[|s|] == (s + [x])[|s|];
  }

  /**
   * compileDependencies: compiles every required file not yet recompiled; afterwards every
   * required file is recompiled.
   */
  function CompileDependencies(env: Env, st: State, ctx: Context): (r: (State, Context))
    ensures r.1.recompiled == AddAll(ctx.recompiled, ctx.recompileRequired)
    ensures forall x | x in ctx.recompileRequired :: x in r.1.recompiled
    ensures forall x | x in ctx.recompiled :: x in r.1.recompiled
    ensures r.0.log == st.log + Sources(r.1.recompiled[|ctx.recompiled|..])
    ensures r.1.recompileRequired == ctx.recompileRequired
  {
    CompileRequiredFrom(env, st, ctx, ctx.recompileRequired)
  }

  /**
   * The files compileDependencies compiles are exactly the required ones not yet recompiled,
   * each once; with nothing required it compiles nothing.
   */
  lemma CompileDependenciesExact(env: Env, st: State, ctx: Context)
    requires NoDups(ctx.recompiled)
    ensures var r := CompileDependencies(env, st, ctx);
      var compiled := r.1.recompiled[|ctx.recompiled|..];
      NoDups(compiled) &&
      (forall x :: x in compiled <==> x in ctx.recompileRequired && x !in ctx.recompiled) &&
      (ctx.recompileRequired == [] ==> (r.0.log == st.log))
  {
    AddAllAppends(ctx.recompiled, ctx.recompileRequired);
  }

  /** The record fillUpNewBuildInfo makes for a file: none when either digest is missing. */
  function RecordOf(env: Env, fs: Fs, javaFile: JavaToClass): (r: Option<BuildFileInfo>)
    ensures r.Some? <==> IsFile(fs, javaFile.javaFileAbsolute) && IsFile(fs, javaFile.classFileAbsolute)
    ensures r.Some? ==> r.value.relativePathStr == javaFile.relativePath && r.value.filesDependsOnMe == {}
    ensures r.Some? ==> HashFile(env, fs, javaFile.javaFileAbsolute) == Some(r.value.sourceHash)
    ensures r.Some? ==> HashFile(env, fs, javaFile.classFileAbsolute) == Some(r.value.classHash)
  {
    match HashFile(env, fs, javaFile.classFileAbsolute)
    case None => None
    case Some(classFileHash) =>
      match HashFile(env, fs, javaFile.javaFileAbsolute)
      case None => None
      case Some(javaFileHash) => Some(BuildFileInfo(javaFile.relativePath, javaFileHash, classFileHash, {}))
  }

  /**
   * The first loop of fillUpNewBuildInfo: one record per recompiled file that has both
   * digests, and its class registered under its class name (a later one replaces).
   */
  function Gather(env: Env, fs: Fs, pending: seq<JavaToClass>, records: seq<BuildFileInfo>, built: BuiltClasses): (r: (seq<BuildFileInfo>, BuiltClasses))
    ensures |records| <= |r.0| && r.0[..|records|] == records
    ensures forall x | x in pending && RecordOf(env, fs, x).Some? :: RecordOf(env, fs, x).value in r.0[|records|..]
    ensures forall i | |records| <= i < |r.0| :: exists x | x in pending :: RecordOf(env, fs, x) == Some(r.0[i])
    decreases |pending|
  {
    if pending == [] then (records, built)
    else
      var javaFile := pending[0];
      match RecordOf(env, fs, javaFile)
      case None => Gather(env, fs, pending[1..], records, built)
      case Some(newBuildFile) =>
        var classInfo := ClassInfoOf(env, fs, javaFile.classFileAbsolute);
        var r := Gather(env, fs, pending[1..], records + [newBuildFile],
          built[classInfo.classname := Built(classInfo, newBuildFile.relativePathStr)]);
        assert r.0[|records|] == newBuildFile;
        r
  }

  /** The relative paths of a list of targets are distinct. */
  predicate DistinctTargets(ts: seq<JavaToClass>) {
    forall i, j | 0 <= i < j < |ts| :: ts[i].relativePath != ts[j].relativePath
  }

  /** Gathering files with distinct paths keeps paths unique and classes filed one per record. */
  lemma {:induction false} GatherUnique(env: Env, fs: Fs, pending: seq<JavaToClass>, records: seq<BuildFileInfo>, built: BuiltClasses)
    requires DistinctTargets(pending)
    requires UniquePaths(records) && BuiltWithin(records, built)
    requires forall x | x in pending :: x.relativePath !in Paths(records)
    ensures var r := Gather(env, fs, pending, records, built);
      UniquePaths(r.0) && BuiltWithin(r.0, r.1)
    decreases |pending|
  {
    if pending != [] {
      var javaFile := pending[0];
      assert DistinctTargets(pending[1..]) by {
        forall i, j | 0 <= i < j < |pending[1..]| ensures pending[1..][i].relativePath != pending[1..][j].relativePath {
          assert pending[1..][i] == pending[i + 1] && pending[1..][j] == pending[j + 1];
        }
      }
      match RecordOf(env, fs, javaFile)
      case None =>
        GatherUnique(env, fs, pending[1..], records, built);
      case Some(newBuildFile) =>
        var classInfo := ClassInfoOf(env, fs, javaFile.classFileAbsolute);
        var records' := records + [newBuildFile];
        var built' := built[classInfo.classname := Built(classInfo, newBuildFile.relativePathStr)];
        assert Paths(records') == Paths(records) + {javaFile.relativePath} by {
          forall p | p in Paths(records') ensures p in Paths(records) + {javaFile.relativePath} {
            var i :| 0 <= i < |records'| && records'[i].relativePathStr == p;
            if i < |records| { assert records'[i] == records[i]; }
          }
          forall p | p in Paths(records) ensures p in Paths(records') {
            var i :| 0 <= i < |records| && records[i].relativePathStr == p;
            assert records'[i] == records[i];
          }
          assert records'[|records|] == newBuildFile;
        }
        assert UniquePaths(records') by {
          forall i, j | 0 <= i < j < |records'| ensures records'[i].relativePathStr != records'[j].relativePathStr {
            if j == |records| {
              assert records'[i] == records[i];
              assert records[i].relativePathStr in Paths(records);
            } else {
              assert records'[i] == records[i] && records'[j] == records[j];
            }
          }
        }
        assert BuiltWithin(records', built') by {
          forall cn, dn | cn in built' && dn in built' && cn != dn ensures built'[cn].path != built'[dn].path {
            if cn == classInfo.classname {
              assert built'[dn] == built[dn];
            } else if dn == classInfo.classname {
              assert built'[cn] == built[cn];
            } else {
              assert built'[cn] == built[cn] && built'[dn] == built[dn];
            }
          }
        }
        forall y | y in pending[1..] ensures y.relativePath !in Paths(records') {
          var k :| 0 <= k < |pending[1..]| && pending[1..][k] == y;
          assert pending[k + 1] == y;
          assert pending[0].relativePath != pending[k + 1].relativePath;
        }
        GatherUnique(env, fs, pending[1..], records', built');
    }
  }

  /** `rec` carries the path and both digests of the file. */
  predicate RecordFor(env: Env, fs: Fs, javaFile: JavaToClass, rec: BuildFileInfo) {
    rec.relativePathStr == javaFile.relativePath &&
    HashFile(env, fs, javaFile.javaFileAbsolute) == Some(rec.sourceHash) &&
    HashFile(env, fs, javaFile.classFileAbsolute) == Some(rec.classHash)
  }

  /** `rec` is the record of one of the files. */
  predicate RecordOfSome(env: Env, fs: Fs, files: seq<JavaToClass>, rec: BuildFileInfo) {
    exists x | x in files :: RecordFor(env, fs, x, rec)
  }

  /**
   * fillUpNewBuildInfo: appends the gathered records, linked by the classes they mention, to
   * the new build; what was there is kept.
   */
  function FillUpNewBuildInfo(env: Env, fs: Fs, ctx: Context, newBuildInfo: BuildInfo): (r: BuildInfo)
    ensures r.sourceFolder == newBuildInfo.sourceFolder
    ensures |newBuildInfo.files| <= |r.files| && r.files[..|newBuildInfo.files|] == newBuildInfo.files
  {
    var gathered := Gather(env, fs, ctx.recompiled, [], map[]);
    newBuildInfo.(files := newBuildInfo.files + LinkDependents(gathered.0, gathered.1))
  }

  /** The record made for a file carries its path and digests, whatever edges it is given. */
  lemma RecordOfFor(env: Env, fs: Fs, x: JavaToClass, rec: BuildFileInfo, edges: set<string>)
    requires RecordOf(env, fs, x) == Some(rec)
    ensures RecordFor(env, fs, x, rec.(filesDependsOnMe := edges))
  {
  }

  /** Every file with both digests has its record among the gathered ones, edges added. */
  lemma GatheredCovers(env: Env, fs: Fs, pending: seq<JavaToClass>, x: JavaToClass) returns (k: nat)
    requires x in pending && RecordOf(env, fs, x).Some?
    ensures var g := Gather(env, fs, pending, [], map[]);
      k < |g.0| && RecordFor(env, fs, x, LinkDependents(g.0, g.1)[k])
  {
    var g := Gather(env, fs, pending, [], map[]);
    var linked := LinkDependents(g.0, g.1);
    var none: seq<BuildFileInfo> := [];
    assert g.0[|none|..] == g.0;
    var rec := RecordOf(env, fs, x).value;
    assert rec in g.0;
    k :| 0 <= k < |g.0| && g.0[k] == rec;
    RecordOfFor(env, fs, x, rec, linked[k].filesDependsOnMe);
    assert linked[k] == rec.(filesDependsOnMe := linked[k].filesDependsOnMe);
  }

  /** Every gathered record, edges added, is the record of a pending file. */
  lemma GatheredStems(env: Env, fs: Fs, pending: seq<JavaToClass>, k: nat)
    requires k < |Gather(env, fs, pending, [], map[]).0|
    ensures var g := Gather(env, fs, pending, [], map[]);
      RecordOfSome(env, fs, pending, LinkDependents(g.0, g.1)[k])
  {
    var g := Gather(env, fs, pending, [], map[]);
    var linked := LinkDependents(g.0, g.1);
    var none: seq<BuildFileInfo> := [];
    assert |none| <= k < |g.0|;
    assert exists x | x in pending :: RecordOf(env, fs, x) == Some(g.0[k]);
    var x :| x in pending && RecordOf(env, fs, x) == Some(g.0[k]);
    RecordOfFor(env, fs, x, g.0[k], linked[k].filesDependsOnMe);
    assert linked[k] == g.0[k].(filesDependsOnMe := linked[k].filesDependsOnMe);
  }

  /**
   * Every recompiled file with both digests gets a record holding its path and digests, and
   * every record added stems from a recompiled file; files that were not recompiled get none.
   */
  lemma FillUpRecords(env: Env, fs: Fs, ctx: Context, newBuildInfo: BuildInfo)
    ensures var r := FillUpNewBuildInfo(env, fs, ctx, newBuildInfo);
      var n := |newBuildInfo.files|;
      (forall x | x in ctx.recompiled && RecordOf(env, fs, x).Some? ::
        exists i | n <= i < |r.files| :: RecordFor(env, fs, x, r.files[i])) &&
      (forall i | n <= i < |r.files| :: RecordOfSome(env, fs, ctx.recompiled, r.files[i]))
  {
    FillUpCovers(env, fs, ctx, newBuildInfo);
    FillUpStems(env, fs, ctx, newBuildInfo);
  }

  lemma FillUpCovers(env: Env, fs: Fs, ctx: Context, newBuildInfo: BuildInfo)
    ensures var r := FillUpNewBuildInfo(env, fs, ctx, newBuildInfo);
      var n := |newBuildInfo.files|;
      forall x | x in ctx.recompiled && RecordOf(env, fs, x).Some? ::
        exists i | n <= i < |r.files| :: RecordFor(env, fs, x, r.files[i])
  {
    var g := Gather(env, fs, ctx.recompiled, [], map[]);
    var linked := LinkDependents(g.0, g.1);
    var r := FillUpNewBuildInfo(env, fs, ctx, newBuildInfo);
    var n := |newBuildInfo.files|;
    assert r.files == newBuildInfo.files + linked;
    forall x | x in ctx.recompiled && RecordOf(env, fs, x).Some?
      ensures exists i | n <= i < |r.files| :: RecordFor(env, fs, x, r.files[i])
    {
      var k := GatheredCovers(env, fs, ctx.recompiled, x);
      assert r.files[n + k] == linked[k];
    }
  }

  lemma FillUpStems(env: Env, fs: Fs, ctx: Context, newBuildInfo: BuildInfo)
    ensures var r := FillUpNewBuildInfo(env, fs, ctx, newBuildInfo);
      forall i | |newBuildInfo.files| <= i < |r.files| :: RecordOfSome(env, fs, ctx.recompiled, r.files[i])
  {
    var g := Gather(env, fs, ctx.recompiled, [], map[]);
    var linked := LinkDependents(g.0, g.1);
    forall k | 0 <= k < |linked|
      ensures RecordOfSome(env, fs, ctx.recompiled, linked[k])
    {
      GatheredStems(env, fs, ctx.recompiled, k);
    }
    StemsAfter(env, fs, ctx.recompiled, newBuildInfo.files, linked);
  }

  lemma StemsAfter(env: Env, fs: Fs, files: seq<JavaToClass>, prefix: seq<BuildFileInfo>, linked: seq<BuildFileInfo>)
    requires forall k | 0 <= k < |linked| :: RecordOfSome(env, fs, files, linked[k])
    ensures forall i | |prefix| <= i < |prefix + linked| :: RecordOfSome(env, fs, files, (prefix + linked)[i])
  {
    forall i | |prefix| <= i < |prefix + linked|
      ensures RecordOfSome(env, fs, files, (prefix + linked)[i])
    {
      assert (prefix + linked)[i] == linked[i - |prefix|];
    }
  }

  /**
   * The graph fillUpNewBuildInfo builds from recompiled files with distinct paths is well
   * formed: unique paths, no self-edges, edges only between records of this run, and X is a
   * dependent of Y exactly when X's class mentions Y's class under another name.
   */
  lemma FillUpGraph(env: Env, fs: Fs, ctx: Context)
    requires DistinctTargets(ctx.recompiled)
    ensures var gathered := Gather(env, fs, ctx.recompiled, [], map[]);
      var added := FillUpNewBuildInfo(env, fs, ctx, BuildInfo("", [])).files;
      added == LinkDependents(gathered.0, gathered.1) &&
      WellFormed(added) &&
      forall i, cn | 0 <= i < |added| && cn in gathered.1 ::
        gathered.1[cn].path in added[i].filesDependsOnMe <==> MentionsClassAt(gathered.1, cn, added[i].relativePathStr)
  {
    var gathered := Gather(env, fs, ctx.recompiled, [], map[]);
    FillUpFromEmpty(env, fs, ctx);
    GatherUnique(env, fs, ctx.recompiled, [], map[]);
    LinkDependentsWellFormed(gathered.0, gathered.1);
  }

  /** Filling up an empty build leaves just the linked records. */
  lemma FillUpFromEmpty(env: Env, fs: Fs, ctx: Context)
    ensures var gathered := Gather(env, fs, ctx.recompiled, [], map[]);
      FillUpNewBuildInfo(env, fs, ctx, BuildInfo("", [])).files == LinkDependents(gathered.0, gathered.1)
  {
    var gathered := Gather(env, fs, ctx.recompiled, [], map[]);
    var linked := LinkDependents(gathered.0, gathered.1);
    var empty := BuildInfo("", []);
    assert FillUpNewBuildInfo(env, fs, ctx, empty).files == empty.files + linked;
    assert empty.files + linked == linked;
  }

  /** The path a prior record names, as the `Path` it is parsed into prints. */
  function RecordKey(file: BuildFileInfo): string {
    Show(file.RelativePath())
  }

  /** The number of prior records before the first one whose path is still listed. */
  function FirstListed(info: CompilationInfo, files: seq<BuildFileInfo>): (n: nat)
    ensures n <= |files|
    ensures forall i | 0 <= i < n :: files[i].relativePathStr !in info.javaFiles
    ensures n < |files| ==> files[n].relativePathStr in info.javaFiles
    decreases |files|
  {
    if files == [] || files[0].relativePathStr in info.javaFiles then 0
    else 1 + FirstListed(info, files[1..])
  }

  /** A prior record whose path is no longer listed and whose source is gone. */
  predicate Removed(info: CompilationInfo, fs: Fs, file: BuildFileInfo) {
    file.relativePathStr !in info.javaFiles &&
    GetExtension(RecordKey(file)) == JavaExtension &&
    !Exists(fs, Resolve(info.inputDir, RecordKey(file)))
  }

  /** The class files of the removed records among `files`. */
  function StaleClasses(info: CompilationInfo, fs: Fs, files: seq<BuildFileInfo>): set<string> {
    set i | 0 <= i < |files| && Removed(info, fs, files[i]) :: ClassPath(info.outputDir, RecordKey(files[i]))
  }

  /**
   * cleanClassesForRemovedFiles as written, from a given record on: the first record that is
   * still listed ends the whole stage; an unlisted record whose source is gone has its class
   * file deleted and its dependents scheduled.
   */
  function CleanFrom(env: Env, info: CompilationInfo, fs: Fs, ctx: Context, files: seq<BuildFileInfo>): (r: Result<(Fs, Context), Fault>)
    ensures r.Success? ==> r.value.1 == ctx
    ensures r.Failure? ==> r.error.AssertionFailed? || r.error.StackOverflow?
    ensures (NoneRequired(info, ctx) &&
      forall i | 0 <= i < FirstListed(info, files) :: GetExtension(RecordKey(files[i])) == JavaExtension) ==>
      r.Success?
    ensures FirstListed(info, files) == 0 ==> r == Success((fs, ctx))
    decreases |files|
  {
    if files == [] then Success((fs, ctx))
    else
      var file := files[0];
      if file.relativePathStr in info.javaFiles then Success((fs, ctx))
      else
        var possible :- Get(info.inputDir, info.outputDir, RecordKey(file));
        if !Exists(fs, possible.javaFileAbsolute) then
          var scheduled :- ScheduleDependencies(info, ctx, possible, env.stack);
          CleanFrom(env, info, DeleteIfExists(fs, possible.classFileAbsolute), scheduled, files[1..])
        else CleanFrom(env, info, fs, ctx, files[1..])
  }

  /** cleanClassesForRemovedFiles: nothing to clean without a previous build. */
  function CleanClassesForRemovedFiles(env: Env, info: CompilationInfo, fs: Fs, ctx: Context): (r: Result<(Fs, Context), Fault>)
    ensures info.previousBuildInfo.None? ==> r == Success((fs, ctx))
    ensures r.Success? ==> r.value.1 == ctx
  {
    match info.previousBuildInfo
    case None => Success((fs, ctx))
    case Some(b) => CleanFrom(env, info, fs, ctx, b.files)
  }

  /** The stale classes of a list are those of its head and those of its tail. */
  lemma StaleShift(info: CompilationInfo, fs: Fs, files: seq<BuildFileInfo>)
    requires files != []
    ensures StaleClasses(info, fs, files) ==
      (if Removed(info, fs, files[0]) then {ClassPath(info.outputDir, RecordKey(files[0]))} else {}) +
      StaleClasses(info, fs, files[1..])
  {
    var tail := files[1..];
    forall c | c in StaleClasses(info, fs, files)
      ensures c in (if Removed(info, fs, files[0]) then {ClassPath(info.outputDir, RecordKey(files[0]))} else {}) +
        StaleClasses(info, fs, tail)
    {
      var i :| 0 <= i < |files| && Removed(info, fs, files[i]) && c == ClassPath(info.outputDir, RecordKey(files[i]));
      if i > 0 {
        assert tail[i - 1] == files[i];
      }
    }
    forall c | c in StaleClasses(info, fs, tail)
      ensures c in StaleClasses(info, fs, files)
    {
      var i :| 0 <= i < |tail| && Removed(info, fs, tail[i]) && c == ClassPath(info.outputDir, RecordKey(tail[i]));
      assert files[i + 1] == tail[i];
    }
  }

  lemma StaleMember(info: CompilationInfo, fs: Fs, files: seq<BuildFileInfo>, i: nat)
    requires i < |files| && Removed(info, fs, files[i])
    ensures ClassPath(info.outputDir, RecordKey(files[i])) in StaleClasses(info, fs, files)
  {
  }

  /** Deleting a class file never makes a source disappear: removal is judged on sources. */
  lemma StaleFrame(info: CompilationInfo, fs: Fs, key: string, files: seq<BuildFileInfo>)
    requires GetExtension(key) == JavaExtension
    ensures StaleClasses(info, DeleteIfExists(fs, ClassPath(info.outputDir, key)), files) == StaleClasses(info, fs, files)
  {
    var fs' := DeleteIfExists(fs, ClassPath(info.outputDir, key));
    forall i | 0 <= i < |files|
      ensures Removed(info, fs', files[i]) == Removed(info, fs, files[i])
    {
      StaleFrameOne(info, fs, key, files[i]);
    }
    StaleAgree(info, fs', fs, files);
  }

  /** StaleFrame for one record. */
  lemma StaleFrameOne(info: CompilationInfo, fs: Fs, key: string, f: BuildFileInfo)
    requires GetExtension(key) == JavaExtension
    ensures Removed(info, DeleteIfExists(fs, ClassPath(info.outputDir, key)), f) == Removed(info, fs, f)
  {
    if GetExtension(RecordKey(f)) == JavaExtension {
      SourceKept(info.inputDir, info.outputDir, RecordKey(f), key, fs);
    }
  }

  /** Deleting one target's class file keeps every target's source. */
  lemma SourceKept(inputDir: string, outputDir: string, a: string, b: string, fs: Fs)
    requires GetExtension(a) == JavaExtension && GetExtension(b) == JavaExtension
    ensures Exists(DeleteIfExists(fs, ClassPath(outputDir, b)), Resolve(inputDir, a)) == Exists(fs, Resolve(inputDir, a))
  {
    GetSeparates(inputDir, outputDir, a, b);
  }

  /** Two filesystems on which the same records count as removed have the same stale classes. */
  lemma StaleAgree(info: CompilationInfo, fs1: Fs, fs2: Fs, files: seq<BuildFileInfo>)
    requires forall i | 0 <= i < |files| :: Removed(info, fs1, files[i]) == Removed(info, fs2, files[i])
    ensures StaleClasses(info, fs1, files) == StaleClasses(info, fs2, files)
  {
  }

  /** Set difference on filesystems, one path at a time. */
  lemma RemoveTwice(fs: Fs, c: string, rest: set<string>)
    ensures DeleteIfExists(fs, c) - rest == fs - ({c} + rest)
  {
  }

  /**
   * What the cleanup deletes when it succeeds: exactly the class files of the removed records
   * before the first listed one; every later record is left alone.
   */
  lemma {:induction false} CleanFromDeletes(env: Env, info: CompilationInfo, fs: Fs, ctx: Context, files: seq<BuildFileInfo>)
    ensures var r := CleanFrom(env, info, fs, ctx, files);
      r.Success? ==> r.value.0 == fs - StaleClasses(info, fs, files[..FirstListed(info, files)])
    decreases |files|
  {
    if files == [] || files[0].relativePathStr in info.javaFiles {
      assert files[..FirstListed(info, files)] == [];
    } else if Get(info.inputDir, info.outputDir, RecordKey(files[0])).Success? {
      if !Exists(fs, Resolve(info.inputDir, RecordKey(files[0]))) {
        CleanStepDeletes(env, info, fs, ctx, files);
      } else {
        CleanStepKeeps(env, info, fs, ctx, files);
      }
    }
  }

  /** The step of CleanFromDeletes past a record whose source is still there. */
  lemma {:induction false} CleanStepKeeps(env: Env, info: CompilationInfo, fs: Fs, ctx: Context, files: seq<BuildFileInfo>)
    requires files != [] && files[0].relativePathStr !in info.javaFiles
    requires Get(info.inputDir, info.outputDir, RecordKey(files[0])).Success?
    requires Exists(fs, Resolve(info.inputDir, RecordKey(files[0])))
    ensures var r := CleanFrom(env, info, fs, ctx, files);
      r.Success? ==> r.value.0 == fs - StaleClasses(info, fs, files[..FirstListed(info, files)])
    decreases |files|, 0
  {
    var tail := files[1..];
    StalePrefixShift(info, fs, files);
    assert !Removed(info, fs, files[0]);
    assert StaleClasses(info, fs, files[..FirstListed(info, files)]) == StaleClasses(info, fs, tail[..FirstListed(info, tail)]);
    var possible := Get(info.inputDir, info.outputDir, RecordKey(files[0])).value;
    assert Exists(fs, possible.javaFileAbsolute);
    assert CleanFrom(env, info, fs, ctx, files) == CleanFrom(env, info, fs, ctx, tail);
    CleanFromDeletes(env, info, fs, ctx, tail);
  }

  /** The stale classes before the first listed record, split at an unlisted head. */
  lemma StalePrefixShift(info: CompilationInfo, fs: Fs, files: seq<BuildFileInfo>)
    requires files != [] && files[0].relativePathStr !in info.javaFiles
    ensures StaleClasses(info, fs, files[..FirstListed(info, files)]) ==
      (if Removed(info, fs, files[0]) then {ClassPath(info.outputDir, RecordKey(files[0]))} else {}) +
      StaleClasses(info, fs, files[1..][..FirstListed(info, files[1..])])
  {
    var prefix := files[..FirstListed(info, files)];
    StaleShift(info, fs, prefix);
    assert prefix[0] == files[0];
    assert prefix[1..] == files[1..][..FirstListed(info, files[1..])];
  }

  /** The deleting step of CleanFromDeletes. */
  lemma {:induction false} CleanStepDeletes(env: Env, info: CompilationInfo, fs: Fs, ctx: Context, files: seq<BuildFileInfo>)
    requires files != [] && files[0].relativePathStr !in info.javaFiles
    requires Get(info.inputDir, info.outputDir, RecordKey(files[0])).Success?
    requires !Exists(fs, Resolve(info.inputDir, RecordKey(files[0])))
    ensures var r := CleanFrom(env, info, fs, ctx, files);
      r.Success? ==> r.value.0 == fs - StaleClasses(info, fs, files[..FirstListed(info, files)])
    decreases |files|, 0
  {
    StalePrefixShift(info, fs, files);
    var key := RecordKey(files[0]);
    var tail := files[1..];
    var possible := Get(info.inputDir, info.outputDir, key).value;
    var fs' := DeleteIfExists(fs, possible.classFileAbsolute);
    var scheduled := ScheduleDependencies(info, ctx, possible, env.stack);
    if scheduled.Success? {
      assert CleanFrom(env, info, fs, ctx, files) == CleanFrom(env, info, fs', ctx, tail);
      CleanFromDeletes(env, info, fs', ctx, tail);
      StaleFrame(info, fs, key, tail[..FirstListed(info, tail)]);
      RemoveTwice(fs, possible.classFileAbsolute, StaleClasses(info, fs, tail[..FirstListed(info, tail)]));
    }
  }

  /**
   * The model's own driver for one staged run: clean, compile the new and changed files,
   * compile the scheduled dependents, record. No function of the program calls the four stages
   * together. The new build starts empty and is filed under the input directory, as the entry
   * point of the two-pass scheduler files its build; `fillUpNewBuildInfo` itself never sets the
   * folder.
   */
  function Build(env: Env, info: CompilationInfo, st: State): (r: Result<(State, BuildInfo), Fault>)
    ensures r.Success? ==> r.value.1.sourceFolder == info.inputDir
    ensures info.previousBuildInfo.None? ==> r.Success?
  {
    var cleaned :- CleanClassesForRemovedFiles(env, info, st.fs, EmptyContext);
    var compiled :- CompileNewAndChanged(env, info, State(cleaned.0, st.log), cleaned.1);
    var done := CompileDependencies(env, compiled.0, compiled.1);
    Success((done.0, FillUpNewBuildInfo(env, done.0.fs, done.1, BuildInfo(info.inputDir, []))))
  }

  /** The filesystem the compiling stages start from: the input after the cleanup. */
  function CleanedFs(env: Env, info: CompilationInfo, fs: Fs): Fs {
    match CleanClassesForRemovedFiles(env, info, fs, EmptyContext)
    case Success(cleaned) => cleaned.0
    case Failure(_) => fs
  }

  /**
   * A staged run compiles exactly the listed files that are new or changed after the cleanup,
   * once each in listing order, and nothing else: no dependent is ever added, so none is
   * compiled. The new build holds one record per compiled file that has both digests.
   */
  lemma BuildCompilesChanged(env: Env, info: CompilationInfo, st: State)
    requires ValidInfo(info)
    ensures var r := Build(env, info, st);
      var changed := ToCompile(env, info, CleanedFs(env, info, st.fs), Listing(info));
      r.Success? ==>
        r.value.0.log == st.log + Sources(changed) &&
        (forall i | 0 <= i < |r.value.1.files| :: RecordOfSome(env, r.value.0.fs, changed, r.value.1.files[i])) &&
        (forall x | x in changed && RecordOf(env, r.value.0.fs, x).Some? ::
          exists i | 0 <= i < |r.value.1.files| :: RecordFor(env, r.value.0.fs, x, r.value.1.files[i]))
  {
    var r := Build(env, info, st);
    var cleaned := CleanClassesForRemovedFiles(env, info, st.fs, EmptyContext);
    if cleaned.Success? {
      var st1 := State(cleaned.value.0, st.log);
      var compiled := CompileNewAndChanged(env, info, st1, EmptyContext);
      CompileStagesChanged(env, info, st1);
      if compiled.Success? {
        var done := CompileDependencies(env, compiled.value.0, compiled.value.1);
        FillUpRecords(env, done.0.fs, done.1, BuildInfo(info.inputDir, []));
      }
    }
  }

  /** The two compiling stages of a staged run, from the cleaned filesystem on. */
  lemma CompileStagesChanged(env: Env, info: CompilationInfo, st1: State)
    requires ValidInfo(info)
    ensures var compiled := CompileNewAndChanged(env, info, st1, EmptyContext);
      var changed := ToCompile(env, info, st1.fs, Listing(info));
      compiled.Success? ==>
        var done := CompileDependencies(env, compiled.value.0, compiled.value.1);
        done.0.log == st1.log + Sources(changed) && done.1.recompiled == changed
  {
    ListingTargets(info);
    CompileNewFromLog(env, info, st1, EmptyContext, Listing(info));
    var compiled := CompileNewAndChanged(env, info, st1, EmptyContext);
    if compiled.Success? {
      var changed := ToCompile(env, info, st1.fs, Listing(info));
      AddAllFresh([], changed);
      var done := CompileDependencies(env, compiled.value.0, compiled.value.1);
      assert done.1.recompiled == changed;
    }
  }
}

=== FILE: stages_earlier.dfy ===
/**
 * The cleanup stage of the earlier iteration of the staged scheduler. Unlike the latest one
 * it looks only at prior records that are still listed, and deletes the class file of any
 * whose source has since disappeared. Its other stages are those of `Stages`.
 */
module StagesEarlier {
  import opened Wrappers
  import opened Collections
  import opened FileSystem
  import opened BuildDb
  import opened JavaSources
  import opened Stages

  /** A prior record that is listed although its source is gone. */
  predicate SourceGone(info: CompilationInfo, fs: Fs, file: BuildFileInfo) {
    file.relativePathStr in info.javaFiles && !Exists(fs, info.javaFiles[file.relativePathStr].javaFileAbsolute)
  }

  /** The class files of the records among `files` whose listed source is gone. */
  function GoneClasses(info: CompilationInfo, fs: Fs, files: seq<BuildFileInfo>): set<string> {
    set i | 0 <= i < |files| && SourceGone(info, fs, files[i]) :: info.javaFiles[files[i].relativePathStr].classFileAbsolute
  }

  /** cleanClassesBasedOnRemoved, from a given prior record on. */
  function CleanBasedOnRemovedFrom(env: Env, info: CompilationInfo, fs: Fs, ctx: Context, files: seq<BuildFileInfo>): (r: Result<(Fs, Context), Fault>)
    ensures r.Success? ==> r.value.1 == ctx
    ensures r.Failure? ==> r.error.StackOverflow?
    ensures NoneRequired(info, ctx) ==> r.Success?
    ensures (forall i | 0 <= i < |files| :: !SourceGone(info, fs, files[i])) ==> r == Success((fs, ctx))
    decreases |files|
  {
    if files == [] then Success((fs, ctx))
    else
      var file := files[0];
      assert forall i | 0 <= i < |files[1..]| :: files[1..][i] == files[i + 1];
      if file.relativePathStr in info.javaFiles && !Exists(fs, info.javaFiles[file.relativePathStr].javaFileAbsolute) then
        var javaFile := info.javaFiles[file.relativePathStr];
        var scheduled :- ScheduleDependencies(info, ctx, javaFile, env.stack);
        CleanBasedOnRemovedFrom(env, info, DeleteIfExists(fs, javaFile.classFileAbsolute), scheduled, files[1..])
      else CleanBasedOnRemovedFrom(env, info, fs, ctx, files[1..])
  }

  /** cleanClassesBasedOnRemoved: nothing to clean without a previous build. */
  function CleanClassesBasedOnRemoved(env: Env, info: CompilationInfo, fs: Fs, ctx: Context): (r: Result<(Fs, Context), Fault>)
    ensures info.previousBuildInfo.None? ==> r == Success((fs, ctx))
    ensures r.Success? ==> r.value.1 == ctx
    ensures NoneRequired(info, ctx) ==> r.Success?
  {
    match info.previousBuildInfo
    case None => Success((fs, ctx))
    case Some(b) => CleanBasedOnRemovedFrom(env, info, fs, ctx, b.files)
  }

  /** The gone classes of a list are those of its head and those of its tail. */
  lemma GoneShift(info: CompilationInfo, fs: Fs, files: seq<BuildFileInfo>)
    requires files != []
    ensures GoneClasses(info, fs, files) ==
      (if SourceGone(info, fs, files[0]) then {info.javaFiles[files[0].relativePathStr].classFileAbsolute} else {}) +
      GoneClasses(info, fs, files[1..])
  {
    var tail := files[1..];
    forall c | c in GoneClasses(info, fs, files)
      ensures c in (if SourceGone(info, fs, files[0]) then {info.javaFiles[files[0].relativePathStr].classFileAbsolute} else {}) +
        GoneClasses(info, fs, tail)
    {
      var i :| 0 <= i < |files| && SourceGone(info, fs, files[i]) && c == info.javaFiles[files[i].relativePathStr].classFileAbsolute;
      if i > 0 {
        assert tail[i - 1] == files[i];
      }
    }
    forall c | c in GoneClasses(info, fs, tail)
      ensures c in GoneClasses(info, fs, files)
    {
      var i :| 0 <= i < |tail| && SourceGone(info, fs, tail[i]) && c == info.javaFiles[tail[i].relativePathStr].classFileAbsolute;
      assert files[i + 1] == tail[i];
    }
  }

  /** Deleting a listed file's class never makes a listed source disappear. */
  lemma GoneFrame(info: CompilationInfo, fs: Fs, x: JavaToClass, files: seq<BuildFileInfo>)
    requires ValidInfo(info)
    requires x.relativePath in info.javaFiles && info.javaFiles[x.relativePath] == x
    ensures GoneClasses(info, DeleteIfExists(fs, x.classFileAbsolute), files) == GoneClasses(info, fs, files)
  {
    var fs' := DeleteIfExists(fs, x.classFileAbsolute);
    forall i | 0 <= i < |files|
      ensures SourceGone(info, fs', files[i]) == SourceGone(info, fs, files[i])
    {
      GoneFrameOne(info, fs, x, files[i]);
    }
    GoneAgree(info, fs', fs, files);
  }

  /** GoneFrame for one record. */
  lemma GoneFrameOne(info: CompilationInfo, fs: Fs, x: JavaToClass, file: BuildFileInfo)
    requires ValidInfo(info)
    requires x.relativePath in info.javaFiles && info.javaFiles[x.relativePath] == x
    ensures SourceGone(info, DeleteIfExists(fs, x.classFileAbsolute), file) == SourceGone(info, fs, file)
  {
    var k := file.relativePathStr;
    if k in info.javaFiles {
      assert Get(info.inputDir, info.outputDir, k) == Success(info.javaFiles[k]);
      assert Get(info.inputDir, info.outputDir, x.relativePath) == Success(x);
      SourceKept(info.inputDir, info.outputDir, k, x.relativePath, fs);
    }
  }

  /** Two filesystems on which the same records have lost their source have the same gone classes. */
  lemma GoneAgree(info: CompilationInfo, fs1: Fs, fs2: Fs, files: seq<BuildFileInfo>)
    requires forall i | 0 <= i < |files| :: SourceGone(info, fs1, files[i]) == SourceGone(info, fs2, files[i])
    ensures GoneClasses(info, fs1, files) == GoneClasses(info, fs2, files)
  {
  }

  /**
   * On success the earlier cleanup has deleted exactly the class files of the listed records
   * whose source is gone, and nothing else.
   */
  lemma {:induction false} CleanBasedOnRemovedDeletes(env: Env, info: CompilationInfo, fs: Fs, ctx: Context, files: seq<BuildFileInfo>)
    requires ValidInfo(info)
    ensures var r := CleanBasedOnRemovedFrom(env, info, fs, ctx, files);
      r.Success? ==> r.value.0 == fs - GoneClasses(info, fs, files)
    decreases |files|
  {
    if files != [] {
      GoneShift(info, fs, files);
      if SourceGone(info, fs, files[0]) {
        GoneStep(env, info, fs, ctx, files);
      } else {
        KeptStep(env, info, fs, ctx, files);
      }
    }
  }

  /** The step of CleanBasedOnRemovedDeletes that deletes nothing. */
  lemma {:induction false} KeptStep(env: Env, info: CompilationInfo, fs: Fs, ctx: Context, files: seq<BuildFileInfo>)
    requires ValidInfo(info)
    requires files != [] && !SourceGone(info, fs, files[0])
    ensures var r := CleanBasedOnRemovedFrom(env, info, fs, ctx, files);
      r.Success? ==> r.value.0 == fs - GoneClasses(info, fs, files[1..])
    decreases |files|, 0
  {
    assert CleanBasedOnRemovedFrom(env, info, fs, ctx, files) == CleanBasedOnRemovedFrom(env, info, fs, ctx, files[1..]);
    CleanBasedOnRemovedDeletes(env, info, fs, ctx, files[1..]);
  }

  /** The deleting step of CleanBasedOnRemovedDeletes. */
  lemma {:induction false} GoneStep(env: Env, info: CompilationInfo, fs: Fs, ctx: Context, files: seq<BuildFileInfo>)
    requires ValidInfo(info)
    requires files != [] && SourceGone(info, fs, files[0])
    ensures var r := CleanBasedOnRemovedFrom(env, info, fs, ctx, files);
      var x := info.javaFiles[files[0].relativePathStr];
      r.Success? ==> r.value.0 == fs - ({x.classFileAbsolute} + GoneClasses(info, fs, files[1..]))
    decreases |files|, 0
  {
    var x := info.javaFiles[files[0].relativePathStr];
    var scheduled := ScheduleDependencies(info, ctx, x, env.stack);
    if scheduled.Success? {
      var fs' := DeleteIfExists(fs, x.classFileAbsolute);
      assert CleanBasedOnRemovedFrom(env, info, fs, ctx, files) == CleanBasedOnRemovedFrom(env, info, fs', ctx, files[1..]);
      CleanBasedOnRemovedDeletes(env, info, fs', ctx, files[1..]);
      ValidKeyed(info);
      GoneFrame(info, fs, x, files[1..]);
      RemoveTwice(fs, x.classFileAbsolute, GoneClasses(info, fs, files[1..]));
    }
  }

  /**
   * requiresRecompilation of the earlier iteration. Its `getMD5` has no absent case and raises
   * on a missing file, so the `?: return true` guards never fire: a missing source or class file
   * ends the run instead of asking for a recompile.
   */
  function RequiresRecompilationEarlier(env: Env, fs: Fs, javaFile: JavaToClass, buildFile: BuildFileInfo): (r: Result<bool, Fault>)
    ensures r.Success? <==> IsFile(fs, javaFile.javaFileAbsolute) && IsFile(fs, javaFile.classFileAbsolute)
    ensures r.Failure? ==> r.error == NoSuchFile(
      if IsFile(fs, javaFile.javaFileAbsolute) then javaFile.classFileAbsolute else javaFile.javaFileAbsolute)
    ensures r.Success? ==> r.value == RequiresRecompilation(env, fs, javaFile, buildFile)
  {
    var currentSourceHash :- HashOrFail(env, fs, javaFile.javaFileAbsolute);
    var currentClassHash :- HashOrFail(env, fs, javaFile.classFileAbsolute);
    if buildFile.sourceHash != currentSourceHash then Success(true)
    else Success(buildFile.classHash != currentClassHash)
  }

  /** Whether the earlier compileNewAndChanged passes over a file, raising as its check does. */
  function SkipsEarlier(env: Env, info: CompilationInfo, fs: Fs, javaFile: JavaToClass): (r: Result<bool, Fault>)
    ensures r.Failure? <==>
      PreviousRecord(info, javaFile.relativePath).Some? &&
      !(IsFile(fs, javaFile.javaFileAbsolute) && IsFile(fs, javaFile.classFileAbsolute))
    ensures r.Success? ==> r.value == Skips(env, info, fs, javaFile)
  {
    match PreviousRecord(info, javaFile.relativePath)
    case None => Success(false)
    case Some(buildFile) =>
      var needed :- RequiresRecompilationEarlier(env, fs, javaFile, buildFile);
      Success(!needed)
  }

  /**
   * compileNewAndChanged of the earlier iteration, from a given point of the listing on. The loop
   * is that of `Stages.CompileNewFrom`; only the check raises on a missing file. Whenever it
   * completes it does exactly what the latest stage does, and without a previous build it is the
   * latest stage.
   */
  function CompileNewEarlierFrom(env: Env, info: CompilationInfo, st: State, ctx: Context, pending: seq<JavaToClass>): (r: Result<(State, Context), Fault>)
    ensures r.Success? ==> r == CompileNewFrom(env, info, st, ctx, pending)
    ensures info.previousBuildInfo.None? ==> r == CompileNewFrom(env, info, st, ctx, pending)
    ensures r.Failure? ==> r.error.StackOverflow? || r.error.NoSuchFile?
    decreases |pending|
  {
    if pending == [] then Success((st, ctx))
    else
      var javaFile := pending[0];
      var skip :- SkipsEarlier(env, info, st.fs, javaFile);
      if skip then CompileNewEarlierFrom(env, info, st, ctx, pending[1..])
      else
        var scheduled :- ScheduleDependencies(info, ctx, javaFile, env.stack);
        var compiled := Javac(env, st, javaFile.javaFileAbsolute, javaFile.classFileAbsolute);
        var next := scheduled.(recompiled := Add(scheduled.recompiled, javaFile));
        CompileNewEarlierFrom(env, info, compiled, next, pending[1..])
  }

  /**
   * A recorded file whose class file was deleted by hand: the earlier stage raises on it, while
   * the latest stage compiles it.
   */
  lemma MissingClassRaises(env: Env, info: CompilationInfo, st: State, ctx: Context, javaFile: JavaToClass)
    requires PreviousRecord(info, javaFile.relativePath).Some?
    requires IsFile(st.fs, javaFile.javaFileAbsolute) && !IsFile(st.fs, javaFile.classFileAbsolute)
    requires NoneRequired(info, ctx)
    ensures CompileNewEarlierFrom(env, info, st, ctx, [javaFile]) == Failure(NoSuchFile(javaFile.classFileAbsolute))
    ensures var r := CompileNewFrom(env, info, st, ctx, [javaFile]);
      r.Success? && r.value.0.log == st.log + [javaFile.javaFileAbsolute] && javaFile in r.value.1.recompiled
  {
  }

  /** The record the earlier fillUpNewBuildInfo makes; its `getMD5` raises on a missing file. */
  function RecordOfEarlier(env: Env, fs: Fs, javaFile: JavaToClass): (r: Result<BuildFileInfo, Fault>)
    ensures r.Success? <==> RecordOf(env, fs, javaFile).Some?
    ensures r.Success? ==> RecordOf(env, fs, javaFile) == Some(r.value)
    ensures r.Failure? ==> r.error == NoSuchFile(
      if IsFile(fs, javaFile.javaFileAbsolute) then javaFile.classFileAbsolute else javaFile.javaFileAbsolute)
  {
    var javaFileHash :- HashOrFail(env, fs, javaFile.javaFileAbsolute);
    var classFileHash :- HashOrFail(env, fs, javaFile.classFileAbsolute);
    Success(BuildFileInfo(javaFile.relativePath, javaFileHash, classFileHash, {}))
  }

  /**
   * The first loop of the earlier fillUpNewBuildInfo. It completes exactly when every
   * recompiled file still has its source and class file, and then gathers what `Stages.Gather`
   * gathers; the `?: continue` guards never fire.
   */
  function GatherEarlier(env: Env, fs: Fs, pending: seq<JavaToClass>, records: seq<BuildFileInfo>, built: BuiltClasses): (r: Result<(seq<BuildFileInfo>, BuiltClasses), Fault>)
    ensures r.Success? <==> forall x | x in pending :: RecordOf(env, fs, x).Some?
    ensures r.Success? ==> r.value == Gather(env, fs, pending, records, built)
    decreases |pending|
  {
    if pending == [] then Success((records, built))
    else
      var javaFile := pending[0];
      var newBuildFile :- RecordOfEarlier(env, fs, javaFile);
      var classInfo := ClassInfoOf(env, fs, javaFile.classFileAbsolute);
      GatherEarlier(env, fs, pending[1..], records + [newBuildFile],
        built[classInfo.classname := Built(classInfo, newBuildFile.relativePathStr)])
  }

  /**
   * fillUpNewBuildInfo of the earlier iteration: it raises when a recompiled file lost its
   * source or class file, and otherwise builds the same record as the latest stage.
   */
  function FillUpNewBuildInfoEarlier(env: Env, fs: Fs, ctx: Context, newBuildInfo: BuildInfo): (r: Result<BuildInfo, Fault>)
    ensures r.Success? <==> forall x | x in ctx.recompiled :: IsFile(fs, x.javaFileAbsolute) && IsFile(fs, x.classFileAbsolute)
    ensures r.Success? ==> r.value == FillUpNewBuildInfo(env, fs, ctx, newBuildInfo)
  {
    var gathered :- GatherEarlier(env, fs, ctx.recompiled, [], map[]);
    Success(newBuildInfo.(files := newBuildInfo.files + LinkDependents(gathered.0, gathered.1)))
  }
}

=== FILE: two_pass.dfy ===
/**
 * The two-pass scheduler of `internalCompile` (and its twin, the incremental `compile` of the
 * earlier Compiler class). The first pass walks the input tree: a file whose source digest and
 * current class digest both match its previous record is skipped; every other file queues the
 * direct dependents its previous record lists, is compiled and gets a new record. The second
 * pass compiles every queued path the first pass did not build. Finally the reverse edges are
 * rebuilt from the classes compiled in this run.
 */
module TwoPass {
  import opened Wrappers
  import opened Collections
  import opened FileNames
  import opened FileSystem
  import opened BuildDb
  import opened JavaSources

  /** What the run carries from file to file. */
  datatype Pass = Pass(
    st: State,                    // the filesystem and the compile log
    built: set<string>,           // builtInputFiles
    toBuild: seq<string>,         // filesToBuild, in insertion order
    records: seq<BuildFileInfo>,  // the records added to the new build
    classes: BuiltClasses)        // builtClasses

  /** The state of a run before its first file. */
  function Start(st: State): Pass {
    Pass(st, {}, [], [], map[])
  }

  /** `oldBuildInfo?.files.filter { relativePathStr eq rel }.firstOrNull()`. */
  function OldRecord(previous: Option<BuildInfo>, rel: string): (r: Option<BuildFileInfo>)
    ensures r.Some? ==> previous.Some? && r.value in previous.value.files && r.value.relativePathStr == rel
    ensures r.None? <==> previous.None? || forall i | 0 <= i < |previous.value.files| :: previous.value.files[i].relativePathStr != rel
  {
    match previous
    case None => None
    case Some(b) => FindRecord(b.files, rel)
  }

  /** The class file of a walked source: its relative path resolved below the output directory. */
  function ClassOf(inputDir: string, outputDir: string, p: string): string {
    ClassPath(outputDir, Relativize(inputDir, p))
  }

  /** A walked file whose source digest and current class digest match its previous record. */
  predicate UpToDate(env: Env, inputDir: string, outputDir: string, previous: Option<BuildInfo>, fs: Fs, p: string)
    ensures UpToDate(env, inputDir, outputDir, previous, fs, p) ==>
      previous.Some? && IsFile(fs, p) && IsFile(fs, ClassOf(inputDir, outputDir, p))
  {
    match OldRecord(previous, Relativize(inputDir, p))
    case None => false
    case Some(rec) =>
      HashFile(env, fs, p) == Some(rec.sourceHash) &&
      HashFile(env, fs, ClassOf(inputDir, outputDir, p)) == Some(rec.classHash)
  }

  /** A walked file the first pass compiles: a regular file that is new or changed. */
  predicate Fresh(env: Env, inputDir: string, outputDir: string, previous: Option<BuildInfo>, fs: Fs, p: string)
  {
    IsFile(fs, p) && !UpToDate(env, inputDir, outputDir, previous, fs, p)
  }

  /** A regular file whose class file is gone is always compiled in the first pass. */
  lemma FreshWhenClassMissing(env: Env, inputDir: string, outputDir: string, previous: Option<BuildInfo>, fs: Fs, p: string)
    requires !IsFile(fs, ClassOf(inputDir, outputDir, p))
    ensures Fresh(env, inputDir, outputDir, previous, fs, p) <==> IsFile(fs, p)
  {
  }

  /** The relative paths the previous record lists as depending on the file at `rel`. */
  function DependentPaths(previous: Option<BuildInfo>, rel: string): set<string> {
    match OldRecord(previous, rel)
    case None => {}
    case Some(rec) => rec.filesDependsOnMe
  }

  /** Paths resolved below a root, in order. */
  function ResolveAll(inputDir: string, rels: seq<string>): (r: seq<string>)
    ensures |r| == |rels|
    ensures forall i | 0 <= i < |rels| :: r[i] == Resolve(inputDir, rels[i])
  {
    seq(|rels|, i requires 0 <= i < |rels| => Resolve(inputDir, rels[i]))
  }

  /**
   * The paths a changed file queues: the direct dependents its previous record lists, resolved
   * below the input directory (the edge set is iterated in ascending order).
   */
  function Dependents(inputDir: string, previous: Option<BuildInfo>, p: string): (r: seq<string>)
    ensures forall q :: q in r <==> exists d | d in DependentPaths(previous, Relativize(inputDir, p)) :: q == Resolve(inputDir, d)
    ensures NoDups(r)
  {
    var ds := Enumerate(DependentPaths(previous, Relativize(inputDir, p)));
    var r := ResolveAll(inputDir, ds);
    forall i, j | 0 <= i < j < |r| ensures r[i] != r[j] {
      if r[i] == r[j] {
        ResolveInjective(inputDir, ds[i], ds[j]);
      }
    }
    forall q | q in r
      ensures exists d | d in DependentPaths(previous, Relativize(inputDir, p)) :: q == Resolve(inputDir, d)
    {
      var i :| 0 <= i < |r| && r[i] == q;
      assert ds[i] in DependentPaths(previous, Relativize(inputDir, p));
    }
    forall d | d in DependentPaths(previous, Relativize(inputDir, p))
      ensures Resolve(inputDir, d) in r
    {
      var i :| 0 <= i < |ds| && ds[i] == d;
      assert r[i] == Resolve(inputDir, d);
    }
    r
  }

  /**
   * `javac.compileClass` followed by the new record: both digests read after the compile, and
   * the class registered under the name its analysis reports (a later one replaces). A
   * compile that leaves no class file, or removes the source, ends the run.
   */
  function CompileOne(env: Env, acc: Pass, source: string, rel: string, classFile: string): (r: Result<Pass, Fault>)
    ensures var st := Javac(env, acc.st, source, classFile);
      r.Success? <==> IsFile(st.fs, source) && IsFile(st.fs, classFile)
    ensures r.Success? ==> r.value.st == Javac(env, acc.st, source, classFile)
    ensures r.Success? ==> r.value.built == acc.built && r.value.toBuild == acc.toBuild
    ensures r.Success? ==> var st := Javac(env, acc.st, source, classFile);
      |r.value.records| == |acc.records| + 1 && r.value.records[..|acc.records|] == acc.records &&
      var rec := r.value.records[|acc.records|];
      rec.relativePathStr == rel && rec.filesDependsOnMe == {} &&
      HashFile(env, st.fs, source) == Some(rec.sourceHash) && HashFile(env, st.fs, classFile) == Some(rec.classHash)
    ensures r.Success? ==>
      exists cn :: cn in r.value.classes && r.value.classes == acc.classes[cn := r.value.classes[cn]] && r.value.classes[cn].path == rel
  {
    var st := Javac(env, acc.st, source, classFile);
    var sourceHash :- HashOrFail(env, st.fs, source);
    var classHash :- HashOrFail(env, st.fs, classFile);
    var newBuildFile := BuildFileInfo(rel, sourceHash, classHash, {});
    var classInfo := ClassInfoOf(env, st.fs, classFile);
    var r := acc.(st := st, records := acc.records + [newBuildFile],
      classes := acc.classes[classInfo.classname := Built(classInfo, rel)]);
    assert r.records[|acc.records|] == newBuildFile;
    assert r.classes == acc.classes[classInfo.classname := r.classes[classInfo.classname]];
    Success(r)
  }

  /** Whether the previous record, if any, still matches: a record whose class file is gone ends the run. */
  function CheckOld(env: Env, fs: Fs, sourceHash: Digest, classFile: string, oldRecord: Option<BuildFileInfo>): (r: Result<bool, Fault>)
    ensures oldRecord.None? ==> r == Success(false)
    ensures oldRecord.Some? ==> (r.Success? <==> IsFile(fs, classFile))
    ensures r.Success? && oldRecord.Some? ==>
      (r.value <==> oldRecord.value.sourceHash == sourceHash && HashFile(env, fs, classFile) == Some(oldRecord.value.classHash))
  {
    match oldRecord
    case None => Success(false)
    case Some(rec) =>
      var oldClassFileHash :- HashOrFail(env, fs, classFile);
      Success(rec.sourceHash == sourceHash && rec.classHash == oldClassFileHash)
  }

  /** The body of the first pass for one walked path. */
  function VisitWalked(env: Env, inputDir: string, outputDir: string, previous: Option<BuildInfo>, acc: Pass, p: string): (r: Result<Pass, Fault>)
    ensures !IsFile(acc.st.fs, p) ==> r == Success(acc)
    ensures IsFile(acc.st.fs, p) && GetExtension(p) != JavaExtension ==> r.Failure?
    ensures r.Success? && !Fresh(env, inputDir, outputDir, previous, acc.st.fs, p) ==> r.value == acc
    ensures r.Success? && Fresh(env, inputDir, outputDir, previous, acc.st.fs, p) ==>
      GetExtension(p) == JavaExtension &&
      r.value.st.log == acc.st.log + [p] &&
      r.value.built == acc.built + {p} &&
      r.value.toBuild == AddAll(acc.toBuild, Dependents(inputDir, previous, p)) &&
      (forall q | q != ClassOf(inputDir, outputDir, p) :: Agree(acc.st.fs, r.value.st.fs, q))
  {
    if !IsFile(acc.st.fs, p) then Success(acc)
    else
      var sourceHash := HashOrFail(env, acc.st.fs, p).value;
      var relativePath := Relativize(inputDir, p);
      RelativizeExtension(inputDir, p);
      ResolveExtension(outputDir, relativePath);
      var outputClassFileName :- JavaToClassFilename(Resolve(outputDir, relativePath));
      var oldRecord := OldRecord(previous, relativePath);
      var upToDate :- CheckOld(env, acc.st.fs, sourceHash, outputClassFileName, oldRecord);
      if upToDate then Success(acc)
      else
        var queued := if oldRecord.Some? then AddAll(acc.toBuild, Dependents(inputDir, previous, p)) else acc.toBuild;
        CompileOne(env, acc.(toBuild := queued, built := acc.built + {p}), p, relativePath, outputClassFileName)
  }

  /** The first pass over the paths `Files.walk` yields, in that order. */
  function FirstPass(env: Env, inputDir: string, outputDir: string, previous: Option<BuildInfo>, acc: Pass, walked: seq<string>): (r: Result<Pass, Fault>)
    ensures r.Success? ==> |acc.st.log| <= |r.value.st.log| && r.value.st.log[..|acc.st.log|] == acc.st.log
    ensures r.Success? ==> forall i | |acc.st.log| <= i < |r.value.st.log| :: r.value.st.log[i] in walked
    ensures r.Success? ==> acc.built <= r.value.built
    ensures r.Success? ==> QueuedFrom(inputDir, previous, acc.toBuild, r.value.toBuild, walked)
    decreases |walked|
  {
    if walked == [] then Success(acc)
    else
      var next :- VisitWalked(env, inputDir, outputDir, previous, acc, walked[0]);
      var r := FirstPass(env, inputDir, outputDir, previous, next, walked[1..]);
      if r.Success? then
        VisitStep(env, inputDir, outputDir, previous, acc, walked[0], next);
        FirstPassCompose(inputDir, previous, acc, next, r.value, walked);
        r
      else r
  }

  /** One visit followed by the rest of the first pass, stated on the passes alone. */
  lemma FirstPassCompose(inputDir: string, previous: Option<BuildInfo>, acc: Pass, next: Pass, last: Pass, walked: seq<string>)
    requires walked != []
    requires next == acc ||
      (next.st.log == acc.st.log + [walked[0]] && next.built == acc.built + {walked[0]} &&
       next.toBuild == AddAll(acc.toBuild, Dependents(inputDir, previous, walked[0])))
    requires |next.st.log| <= |last.st.log| && last.st.log[..|next.st.log|] == next.st.log
    requires forall i | |next.st.log| <= i < |last.st.log| :: last.st.log[i] in walked[1..]
    requires next.built <= last.built
    requires QueuedFrom(inputDir, previous, next.toBuild, last.toBuild, walked[1..])
    ensures |acc.st.log| <= |last.st.log| && last.st.log[..|acc.st.log|] == acc.st.log
    ensures forall i | |acc.st.log| <= i < |last.st.log| :: last.st.log[i] in walked
    ensures acc.built <= last.built
    ensures QueuedFrom(inputDir, previous, acc.toBuild, last.toBuild, walked)
  {
    StepGrows(acc, next, walked[0], Dependents(inputDir, previous, walked[0]));
    LogGrowsWithin(acc.st.log, next.st.log, last.st.log, set q | q in walked);
    QueuedFromStep(inputDir, previous, acc.toBuild, next.toBuild, last.toBuild, walked);
  }

  /** Every queued path was queued before or is a direct dependent of one of `walked`. */
  predicate QueuedFrom(inputDir: string, previous: Option<BuildInfo>, before: seq<string>, queue: seq<string>, walked: seq<string>) {
    forall q | q in queue :: q in before || exists p | p in walked :: q in Dependents(inputDir, previous, p)
  }

  /** A visit either changes nothing or compiles its path and queues that path's dependents. */
  lemma VisitStep(env: Env, inputDir: string, outputDir: string, previous: Option<BuildInfo>, acc: Pass, p: string, next: Pass)
    requires VisitWalked(env, inputDir, outputDir, previous, acc, p).Success?
    requires next == VisitWalked(env, inputDir, outputDir, previous, acc, p).value
    ensures next == acc ||
      (next.st.log == acc.st.log + [p] && next.built == acc.built + {p} &&
       next.toBuild == AddAll(acc.toBuild, Dependents(inputDir, previous, p)))
  {
  }

  /** A step that either changes nothing or compiles `p` and queues `deps`. */
  lemma StepGrows(acc: Pass, next: Pass, p: string, deps: seq<string>)
    requires next == acc ||
      (next.st.log == acc.st.log + [p] && next.built == acc.built + {p} && next.toBuild == AddAll(acc.toBuild, deps))
    ensures |acc.st.log| <= |next.st.log| && next.st.log[..|acc.st.log|] == acc.st.log
    ensures forall i | |acc.st.log| <= i < |next.st.log| :: next.st.log[i] == p
    ensures acc.built <= next.built
    ensures forall q | q in next.toBuild :: q in acc.toBuild || q in deps
  {
    LogOne(acc.st.log, next.st.log, p);
  }

  /** A log that gained at most `p` is the old log followed only by `p`. */
  lemma LogOne(log0: seq<string>, log1: seq<string>, p: string)
    requires log1 == log0 || log1 == log0 + [p]
    ensures |log0| <= |log1| && log1[..|log0|] == log0
    ensures forall i | |log0| <= i < |log1| :: log1[i] == p
  {
  }

  lemma QueuedFromStep(inputDir: string, previous: Option<BuildInfo>, q0: seq<string>, q1: seq<string>, q2: seq<string>, walked: seq<string>)
    requires walked != []
    requires forall q | q in q1 :: q in q0 || q in Dependents(inputDir, previous, walked[0])
    requires QueuedFrom(inputDir, previous, q1, q2, walked[1..])
    ensures QueuedFrom(inputDir, previous, q0, q2, walked)
  {
    forall q | q in q2
      ensures q in q0 || exists p | p in walked :: q in Dependents(inputDir, previous, p)
    {
      if q !in q1 {
        var p :| p in walked[1..] && q in Dependents(inputDir, previous, p);
        assert p in walked;
      } else if q !in q0 {
        assert walked[0] in walked;
      }
    }
  }

  /** A log extended twice, each time by entries of `s`, has been extended by entries of `s`. */
  lemma LogGrowsWithin(log0: seq<string>, log1: seq<string>, log2: seq<string>, s: set<string>)
    requires |log0| <= |log1| && log1[..|log0|] == log0
    requires forall i | |log0| <= i < |log1| :: log1[i] in s
    requires |log1| <= |log2| && log2[..|log1|] == log1
    requires forall i | |log1| <= i < |log2| :: log2[i] in s
    ensures |log0| <= |log2| && log2[..|log0|] == log0
    ensures forall i | |log0| <= i < |log2| :: log2[i] in s
  {
    forall i | |log0| <= i < |log2|
      ensures log2[i] in s
    {
      if i < |log1| {
        assert log2[i] == log2[..|log1|][i];
      }
    }
    assert log2[..|log0|] == log2[..|log1|][..|log0|];
  }

  /** The body of the second pass for one queued path. */
  function RebuildQueued(env: Env, inputDir: string, outputDir: string, acc: Pass, toBuild: string): (r: Result<Pass, Fault>)
    ensures toBuild in acc.built ==> r == Success(acc)
    ensures r.Success? && toBuild !in acc.built ==>
      r.value.st.log == acc.st.log + [toBuild] && r.value.built == acc.built
    ensures r.Success? ==> SourcesKept(acc.st.fs, r.value.st.fs)
  {
    if toBuild in acc.built then Success(acc)
    else
      var relativePath := Relativize(inputDir, toBuild);
      var outputClassFileName :- JavaToClassFilename(Resolve(outputDir, relativePath));
      CompileOne(env, acc, toBuild, relativePath, outputClassFileName)
  }

  /** The second pass over `filesToBuild`, in insertion order. */
  function SecondPass(env: Env, inputDir: string, outputDir: string, acc: Pass, queue: seq<string>): (r: Result<Pass, Fault>)
    ensures r.Success? ==> r.value.built == acc.built
    ensures r.Success? ==> |acc.st.log| <= |r.value.st.log| && r.value.st.log[..|acc.st.log|] == acc.st.log
    ensures r.Success? ==> forall i | |acc.st.log| <= i < |r.value.st.log| ::
      r.value.st.log[i] in queue && r.value.st.log[i] !in acc.built
    decreases |queue|
  {
    if queue == [] then Success(acc)
    else
      var next :- RebuildQueued(env, inputDir, outputDir, acc, queue[0]);
      var r := SecondPass(env, inputDir, outputDir, next, queue[1..]);
      if r.Success? then
        LogGrowsWithin(acc.st.log, next.st.log, r.value.st.log, set q | q in queue && q !in acc.built);
        r
      else r
  }

  /**
   * internalCompile: both passes, then the reverse-edge rebuild over the classes compiled in
   * this run. Returns the final state and the records of the new build.
   */
  function InternalCompile(env: Env, inputDir: string, outputDir: string, walked: seq<string>, previous: Option<BuildInfo>, st: State): (r: Result<(State, seq<BuildFileInfo>), Fault>)
    ensures r.Success? ==> |st.log| <= |r.value.0.log| && r.value.0.log[..|st.log|] == st.log
    ensures r.Success? ==> forall i | |st.log| <= i < |r.value.0.log| ::
      r.value.0.log[i] in walked || exists p | p in walked :: r.value.0.log[i] in Dependents(inputDir, previous, p)
  {
    var first :- FirstPass(env, inputDir, outputDir, previous, Start(st), walked);
    var second :- SecondPass(env, inputDir, outputDir, first, first.toBuild);
    PassesCompose(inputDir, previous, st.log, first, second.st.log, walked);
    Success((second.st, LinkDependents(second.records, second.classes)))
  }

  /** The two passes in sequence, stated on their logs and the first pass's queue. */
  lemma PassesCompose(inputDir: string, previous: Option<BuildInfo>, log0: seq<string>, first: Pass, log2: seq<string>, walked: seq<string>)
    requires |log0| <= |first.st.log| && first.st.log[..|log0|] == log0
    requires forall i | |log0| <= i < |first.st.log| :: first.st.log[i] in walked
    requires QueuedFrom(inputDir, previous, [], first.toBuild, walked)
    requires |first.st.log| <= |log2| && log2[..|first.st.log|] == first.st.log
    requires forall i | |first.st.log| <= i < |log2| :: log2[i] in first.toBuild && log2[i] !in first.built
    ensures |log0| <= |log2| && log2[..|log0|] == log0
    ensures forall i | |log0| <= i < |log2| ::
      log2[i] in walked || exists p | p in walked :: log2[i] in Dependents(inputDir, previous, p)
  {
    var s := (set q | q in walked) + (set q | q in first.toBuild);
    LogGrowsWithin(log0, first.st.log, log2, s);
  }

  /** The walked files the first pass compiles, judged against one filesystem, in walk order. */
  function FreshSources(env: Env, inputDir: string, outputDir: string, previous: Option<BuildInfo>, fs: Fs, walked: seq<string>): (r: seq<string>)
    ensures forall p :: p in r <==> p in walked && Fresh(env, inputDir, outputDir, previous, fs, p)
    ensures NoDups(walked) ==> NoDups(r)
    decreases |walked|
  {
    if walked == [] then []
    else
      var rest := FreshSources(env, inputDir, outputDir, previous, fs, walked[1..]);
      assert NoDups(walked) ==> NoDups(walked[1..]) && walked[0] !in rest by {
        if NoDups(walked) {
          forall i, j | 0 <= i < j < |walked[1..]| ensures walked[1..][i] != walked[1..][j] {
            assert walked[1..][i] == walked[i + 1] && walked[1..][j] == walked[j + 1];
          }
        }
      }
      if Fresh(env, inputDir, outputDir, previous, fs, walked[0]) then [walked[0]] + rest else rest
  }

  /** The queue after each of `sources`, in order, has queued its direct dependents. */
  function QueueAfter(inputDir: string, previous: Option<BuildInfo>, queue: seq<string>, sources: seq<string>): (r: seq<string>)
    ensures forall q :: q in r <==> q in queue || exists p | p in sources :: q in Dependents(inputDir, previous, p)
    ensures NoDups(queue) ==> NoDups(r)
    decreases |sources|
  {
    if sources == [] then queue
    else QueueAfter(inputDir, previous, AddAll(queue, Dependents(inputDir, previous, sources[0])), sources[1..])
  }

  /** The queued paths the first pass did not build, in queue order. */
  function Unbuilt(queue: seq<string>, built: set<string>): (r: seq<string>)
    ensures forall q :: q in r <==> q in queue && q !in built
    decreases |queue|
  {
    if queue == [] then []
    else if queue[0] in built then Unbuilt(queue[1..], built)
    else [queue[0]] + Unbuilt(queue[1..], built)
  }

  lemma {:induction false} UnbuiltNoDups(queue: seq<string>, built: set<string>)
    requires NoDups(queue)
    ensures NoDups(Unbuilt(queue, built))
    decreases |queue|
  {
    if queue != [] {
      forall i, j | 0 <= i < j < |queue[1..]| ensures queue[1..][i] != queue[1..][j] {
        assert queue[1..][i] == queue[i + 1] && queue[1..][j] == queue[j + 1];
      }
      UnbuiltNoDups(queue[1..], built);
      var rest := Unbuilt(queue[1..], built);
      if queue[0] !in built {
        var r := [queue[0]] + rest;
        forall i, j | 0 <= i < j < |r| ensures r[i] != r[j] {
          if i == 0 {
            assert r[j] == rest[j - 1] && rest[j - 1] in queue[1..];
          } else {
            assert r[i] == rest[i - 1] && r[j] == rest[j - 1];
          }
        }
      }
    }
  }

  /** The input tree: a walk of distinct paths below the root, none named like a class file. */
  predicate SourceTree(inputDir: string, walked: seq<string>) {
    WalkedBelow(inputDir, walked) && forall q | q in walked :: GetExtension(q) != ClassExtension
  }

  lemma SourceTreeTail(inputDir: string, walked: seq<string>)
    requires SourceTree(inputDir, walked) && walked != []
    ensures SourceTree(inputDir, walked[1..]) && walked[0] !in walked[1..]
  {
    forall i, j | 0 <= i < j < |walked[1..]| ensures walked[1..][i] != walked[1..][j] {
      assert walked[1..][i] == walked[i + 1] && walked[1..][j] == walked[j + 1];
    }
  }

  /** Two different walked java sources have different class files. */
  lemma ClassesApart(inputDir: string, outputDir: string, walked: seq<string>, p: string, q: string)
    requires WalkedBelow(inputDir, walked) && p in walked && q in walked && p != q
    requires GetExtension(p) == JavaExtension && GetExtension(q) == JavaExtension
    ensures ClassOf(inputDir, outputDir, p) != ClassOf(inputDir, outputDir, q)
  {
    var a, b := Relativize(inputDir, p), Relativize(inputDir, q);
    RelativizeExtension(inputDir, p);
    RelativizeExtension(inputDir, q);
    assert Resolve(inputDir, a) == p && Resolve(inputDir, b) == q;
    GetSeparates(inputDir, outputDir, a, b);
  }

  /** What the first pass compiles depends only on what the filesystem holds at each walked file and its class. */
  lemma {:induction false} FreshFrame(env: Env, inputDir: string, outputDir: string, previous: Option<BuildInfo>, fs1: Fs, fs2: Fs, walked: seq<string>)
    requires forall q | q in walked :: Agree(fs1, fs2, q) && (IsFile(fs1, q) ==> Agree(fs1, fs2, ClassOf(inputDir, outputDir, q)))
    ensures FreshSources(env, inputDir, outputDir, previous, fs1, walked) == FreshSources(env, inputDir, outputDir, previous, fs2, walked)
    decreases |walked|
  {
    if walked != [] {
      var p := walked[0];
      AgreeObservations(env, fs1, fs2, p);
      if IsFile(fs1, p) {
        AgreeObservations(env, fs1, fs2, ClassOf(inputDir, outputDir, p));
      }
      assert Fresh(env, inputDir, outputDir, previous, fs1, p) == Fresh(env, inputDir, outputDir, previous, fs2, p);
      FreshFrame(env, inputDir, outputDir, previous, fs1, fs2, walked[1..]);
    }
  }

  /** A walked regular file that is not a java source ends the first pass with a failure. */
  lemma {:induction false} FirstPassRejects(env: Env, inputDir: string, outputDir: string, previous: Option<BuildInfo>, acc: Pass, walked: seq<string>, q: string)
    requires SourceTree(inputDir, walked)
    requires q in walked && IsFile(acc.st.fs, q) && GetExtension(q) != JavaExtension
    ensures FirstPass(env, inputDir, outputDir, previous, acc, walked).Failure?
    decreases |walked|
  {
    var v := VisitWalked(env, inputDir, outputDir, previous, acc, walked[0]);
    if walked[0] != q && v.Success? {
      SourceTreeTail(inputDir, walked);
      var k :| 0 <= k < |walked| && walked[k] == q;
      assert walked[1..][k - 1] == q;
      assert GetExtension(ClassOf(inputDir, outputDir, walked[0])) == ClassExtension;
      assert Agree(acc.st.fs, v.value.st.fs, q);
      FirstPassRejects(env, inputDir, outputDir, previous, v.value, walked[1..], q);
    }
  }

  /** The first pass, from `acc`, reached `r` by compiling exactly `compiled`, in order. */
  predicate Planned(inputDir: string, previous: Option<BuildInfo>, acc: Pass, compiled: seq<string>, r: Pass) {
    r.st.log == acc.st.log + compiled &&
    r.built == acc.built + (set p | p in compiled) &&
    r.toBuild == QueueAfter(inputDir, previous, acc.toBuild, compiled)
  }

  /**
   * On success the first pass has compiled exactly the fresh walked files, judged against the
   * filesystem it started from, in walk order; has marked them built; and has queued their
   * direct dependents.
   */
  ghost predicate FirstPassAsPlanned(env: Env, inputDir: string, outputDir: string, previous: Option<BuildInfo>, acc: Pass, walked: seq<string>) {
    var r := FirstPass(env, inputDir, outputDir, previous, acc, walked);
    r.Success? ==> Planned(inputDir, previous, acc, FreshSources(env, inputDir, outputDir, previous, acc.st.fs, walked), r.value)
  }

  lemma {:induction false} FirstPassPlan(env: Env, inputDir: string, outputDir: string, previous: Option<BuildInfo>, acc: Pass, walked: seq<string>)
    requires SourceTree(inputDir, walked)
    ensures FirstPassAsPlanned(env, inputDir, outputDir, previous, acc, walked)
    decreases |walked|
  {
    if walked != [] {
      var v := VisitWalked(env, inputDir, outputDir, previous, acc, walked[0]);
      if v.Success? {
        SourceTreeTail(inputDir, walked);
        FirstPassPlan(env, inputDir, outputDir, previous, v.value, walked[1..]);
        FirstPassStep(env, inputDir, outputDir, previous, acc, walked);
      }
    }
  }

  lemma FirstPassStep(env: Env, inputDir: string, outputDir: string, previous: Option<BuildInfo>, acc: Pass, walked: seq<string>)
    requires SourceTree(inputDir, walked) && walked != []
    requires VisitWalked(env, inputDir, outputDir, previous, acc, walked[0]).Success?
    requires FirstPassAsPlanned(env, inputDir, outputDir, previous, VisitWalked(env, inputDir, outputDir, previous, acc, walked[0]).value, walked[1..])
    ensures FirstPassAsPlanned(env, inputDir, outputDir, previous, acc, walked)
  {
    var p, tail := walked[0], walked[1..];
    var next := VisitWalked(env, inputDir, outputDir, previous, acc, p).value;
    assert FirstPass(env, inputDir, outputDir, previous, acc, walked) == FirstPass(env, inputDir, outputDir, previous, next, tail);
    var r := FirstPass(env, inputDir, outputDir, previous, next, tail);
    var rest := FreshSources(env, inputDir, outputDir, previous, acc.st.fs, tail);
    if r.Success? && Fresh(env, inputDir, outputDir, previous, acc.st.fs, p) {
      SourceTreeTail(inputDir, walked);
      assert GetExtension(ClassOf(inputDir, outputDir, p)) == ClassExtension;
      forall q | q in tail
        ensures Agree(acc.st.fs, next.st.fs, q) && (IsFile(acc.st.fs, q) ==> Agree(acc.st.fs, next.st.fs, ClassOf(inputDir, outputDir, q)))
      {
        assert GetExtension(q) != ClassExtension;
        assert Agree(acc.st.fs, next.st.fs, q);
        if IsFile(acc.st.fs, q) {
          if GetExtension(q) != JavaExtension {
            FirstPassRejects(env, inputDir, outputDir, previous, next, tail, q);
          }
          ClassesApart(inputDir, outputDir, walked, q, p);
        }
      }
      FreshFrame(env, inputDir, outputDir, previous, acc.st.fs, next.st.fs, tail);
      assert FreshSources(env, inputDir, outputDir, previous, acc.st.fs, walked) == [p] + rest;
      FreshStep(inputDir, previous, acc, next, r.value, p, rest);
    } else if r.Success? {
      assert FreshSources(env, inputDir, outputDir, previous, acc.st.fs, walked) == rest;
    }
  }

  /** The bookkeeping of one compiled walked file, prepended to that of the rest of the walk. */
  lemma FreshStep(inputDir: string, previous: Option<BuildInfo>, acc: Pass, next: Pass, r: Pass, p: string, rest: seq<string>)
    requires next.st.log == acc.st.log + [p] && next.built == acc.built + {p}
    requires next.toBuild == AddAll(acc.toBuild, Dependents(inputDir, previous, p))
    requires Planned(inputDir, previous, next, rest, r)
    ensures Planned(inputDir, previous, acc, [p] + rest, r)
  {
    AppendAssoc(acc.st.log, [p], rest);
    BuiltCons(acc.built, p, rest);
    QueueCons(inputDir, previous, acc.toBuild, p, rest);
  }

  lemma BuiltCons(built: set<string>, p: string, rest: seq<string>)
    ensures built + {p} + (set x | x in rest) == built + (set x | x in [p] + rest)
  {
    assert (set x | x in [p] + rest) == {p} + (set x | x in rest);
  }

  lemma QueueCons(inputDir: string, previous: Option<BuildInfo>, queue: seq<string>, p: string, rest: seq<string>)
    ensures QueueAfter(inputDir, previous, queue, [p] + rest) ==
      QueueAfter(inputDir, previous, AddAll(queue, Dependents(inputDir, previous, p)), rest)
  {
    var all := [p] + rest;
    assert all[0] == p && all[1..] == rest;
  }

  /** On success the second pass has compiled exactly the queued paths not built by the first, in queue order. */
  lemma {:induction false} SecondPassPlan(env: Env, inputDir: string, outputDir: string, acc: Pass, queue: seq<string>)
    ensures var r := SecondPass(env, inputDir, outputDir, acc, queue);
      r.Success? ==> r.value.st.log == acc.st.log + Unbuilt(queue, acc.built) && r.value.built == acc.built
    decreases |queue|
  {
    if queue != [] {
      var next := RebuildQueued(env, inputDir, outputDir, acc, queue[0]);
      if next.Success? {
        assert SecondPass(env, inputDir, outputDir, acc, queue) == SecondPass(env, inputDir, outputDir, next.value, queue[1..]);
        SecondPassPlan(env, inputDir, outputDir, next.value, queue[1..]);
        UnbuiltCons(acc.st.log, next.value.st.log, queue, acc.built);
      }
    }
  }

  lemma UnbuiltCons(log: seq<string>, log': seq<string>, queue: seq<string>, built: set<string>)
    requires queue != []
    requires log' == log + (if queue[0] in built then [] else [queue[0]])
    ensures log' + Unbuilt(queue[1..], built) == log + Unbuilt(queue, built)
  {
    if queue[0] in built {
      assert log' == log;
    } else {
      AppendAssoc(log, [queue[0]], Unbuilt(queue[1..], built));
    }
  }

  /** A record whose digests are those the filesystem now holds for its source and its class. */
  predicate Current(env: Env, inputDir: string, outputDir: string, fs: Fs, rec: BuildFileInfo) {
    HashFile(env, fs, Resolve(inputDir, rec.relativePathStr)) == Some(rec.sourceHash) &&
    HashFile(env, fs, ClassPath(outputDir, rec.relativePathStr)) == Some(rec.classHash)
  }

  /**
   * The invariant of a run that started with a log of length `n`: one record per compile, in
   * compile order, each naming the compiled java source, without edges yet, with unique paths,
   * every class filed under one record, and every record current.
   */
  predicate PassOk(env: Env, inputDir: string, outputDir: string, n: nat, acc: Pass) {
    |acc.st.log| == n + |acc.records| &&
    UniquePaths(acc.records) && BuiltWithin(acc.records, acc.classes) &&
    forall i | 0 <= i < |acc.records| ::
      acc.st.log[n + i] == Resolve(inputDir, acc.records[i].relativePathStr) &&
      acc.records[i].filesDependsOnMe == {} &&
      GetExtension(acc.records[i].relativePathStr) == JavaExtension &&
      Current(env, inputDir, outputDir, acc.st.fs, acc.records[i])
  }

  /** Appending a record for a new path, and filing one class under it, keeps the arena unique. */
  lemma RecordsGrow(records: seq<BuildFileInfo>, classes: BuiltClasses, rec: BuildFileInfo, cn: string, classes': BuiltClasses)
    requires UniquePaths(records) && BuiltWithin(records, classes)
    requires rec.relativePathStr !in Paths(records)
    requires cn in classes' && classes' == classes[cn := classes'[cn]] && classes'[cn].path == rec.relativePathStr
    ensures UniquePaths(records + [rec]) && BuiltWithin(records + [rec], classes')
  {
    var records' := records + [rec];
    assert Paths(records') == Paths(records) + {rec.relativePathStr} by {
      forall x | x in Paths(records') ensures x in Paths(records) + {rec.relativePathStr} {
        var i :| 0 <= i < |records'| && records'[i].relativePathStr == x;
        if i < |records| { assert records'[i] == records[i]; }
      }
      forall x | x in Paths(records) ensures x in Paths(records') {
        var i :| 0 <= i < |records| && records[i].relativePathStr == x;
        assert records'[i] == records[i];
      }
      assert records'[|records|] == rec;
    }
    forall i, j | 0 <= i < j < |records'| ensures records'[i].relativePathStr != records'[j].relativePathStr {
      assert records'[i] == records[i];
      if j == |records| {
        assert records[i].relativePathStr in Paths(records);
      } else {
        assert records'[j] == records[j];
      }
    }
    forall c, d | c in classes' && d in classes' && c != d ensures classes'[c].path != classes'[d].path {
      if c != cn && d != cn {
        assert classes'[c] == classes[c] && classes'[d] == classes[d];
      } else if c == cn {
        assert classes'[d] == classes[d];
      } else {
        assert classes'[c] == classes[c];
      }
    }
  }

  /** Compiling one more java source keeps every earlier record current. */
  lemma CurrentKept(env: Env, inputDir: string, outputDir: string, fs: Fs, fs': Fs, records: seq<BuildFileInfo>, rel: string)
    requires GetExtension(rel) == JavaExtension && rel !in Paths(records)
    requires forall q | q != ClassPath(outputDir, rel) :: Agree(fs, fs', q)
    requires forall i | 0 <= i < |records| ::
      GetExtension(records[i].relativePathStr) == JavaExtension && Current(env, inputDir, outputDir, fs, records[i])
    ensures forall i | 0 <= i < |records| :: Current(env, inputDir, outputDir, fs', records[i])
  {
    forall i | 0 <= i < |records|
      ensures Current(env, inputDir, outputDir, fs', records[i])
    {
      var r := records[i].relativePathStr;
      assert r in Paths(records);
      GetSeparates(inputDir, outputDir, r, rel);
      AgreeObservations(env, fs, fs', Resolve(inputDir, r));
      AgreeObservations(env, fs, fs', ClassPath(outputDir, r));
    }
  }

  /** Compiling a java source under a path not yet recorded keeps the run's invariant. */
  lemma CompileOneKeeps(env: Env, inputDir: string, outputDir: string, n: nat, acc: Pass, source: string, rel: string, classFile: string)
    requires PassOk(env, inputDir, outputDir, n, acc)
    requires GetExtension(rel) == JavaExtension && rel !in Paths(acc.records)
    requires source == Resolve(inputDir, rel) && classFile == ClassPath(outputDir, rel)
    ensures var r := CompileOne(env, acc, source, rel, classFile);
      r.Success? ==> PassOk(env, inputDir, outputDir, n, r.value)
  {
    var r := CompileOne(env, acc, source, rel, classFile);
    if r.Success? {
      var next := r.value;
      var rec := next.records[|acc.records|];
      assert next.records == acc.records + [rec];
      var cn :| cn in next.classes && next.classes == acc.classes[cn := next.classes[cn]] && next.classes[cn].path == rel;
      RecordsGrow(acc.records, acc.classes, rec, cn, next.classes);
      CurrentKept(env, inputDir, outputDir, acc.st.fs, next.st.fs, acc.records, rel);
      forall i | 0 <= i < |next.records|
        ensures next.st.log[n + i] == Resolve(inputDir, next.records[i].relativePathStr) &&
          next.records[i].filesDependsOnMe == {} &&
          GetExtension(next.records[i].relativePathStr) == JavaExtension &&
          Current(env, inputDir, outputDir, next.st.fs, next.records[i])
      {
        if i < |acc.records| {
          assert next.records[i] == acc.records[i] && next.st.log[n + i] == acc.st.log[n + i];
        }
      }
    }
  }

  /** Visiting a walked file that nothing earlier has compiled keeps the run's invariant. */
  lemma VisitKeeps(env: Env, inputDir: string, outputDir: string, previous: Option<BuildInfo>, n: nat, acc: Pass, p: string)
    requires PassOk(env, inputDir, outputDir, n, acc)
    requires Resolve(inputDir, Relativize(inputDir, p)) == p
    requires forall i | n <= i < |acc.st.log| :: acc.st.log[i] != p
    ensures var v := VisitWalked(env, inputDir, outputDir, previous, acc, p);
      v.Success? ==> PassOk(env, inputDir, outputDir, n, v.value)
  {
    var v := VisitWalked(env, inputDir, outputDir, previous, acc, p);
    if v.Success? && IsFile(acc.st.fs, p) {
      var rel := Relativize(inputDir, p);
      RelativizeExtension(inputDir, p);
      ResolveExtension(outputDir, rel);
      var sourceHash := HashOrFail(env, acc.st.fs, p).value;
      var classFile := JavaToClassFilename(Resolve(outputDir, rel)).value;
      var upToDate := CheckOld(env, acc.st.fs, sourceHash, classFile, OldRecord(previous, rel)).value;
      if !upToDate {
        var queued := if OldRecord(previous, rel).Some? then AddAll(acc.toBuild, Dependents(inputDir, previous, p)) else acc.toBuild;
        var acc' := acc.(toBuild := queued, built := acc.built + {p});
        assert v == CompileOne(env, acc', p, rel, classFile);
        CompileOneKeeps(env, inputDir, outputDir, n, acc', p, rel, classFile);
      }
    }
  }

  /** The first pass keeps the run's invariant. */
  lemma {:induction false} FirstPassKeeps(env: Env, inputDir: string, outputDir: string, previous: Option<BuildInfo>, n: nat, acc: Pass, walked: seq<string>)
    requires SourceTree(inputDir, walked)
    requires PassOk(env, inputDir, outputDir, n, acc)
    requires forall i | n <= i < |acc.st.log| :: acc.st.log[i] !in walked
    ensures var r := FirstPass(env, inputDir, outputDir, previous, acc, walked);
      r.Success? ==> PassOk(env, inputDir, outputDir, n, r.value)
    decreases |walked|
  {
    if walked != [] {
      var p := walked[0];
      var v := VisitWalked(env, inputDir, outputDir, previous, acc, p);
      if v.Success? {
        SourceTreeTail(inputDir, walked);
        LogAvoidsRest(acc.st.log, v.value.st.log, n, walked);
        VisitKeeps(env, inputDir, outputDir, previous, n, acc, p);
        assert FirstPass(env, inputDir, outputDir, previous, acc, walked) ==
          FirstPass(env, inputDir, outputDir, previous, v.value, walked[1..]);
        FirstPassKeeps(env, inputDir, outputDir, previous, n, v.value, walked[1..]);
      }
    }
  }

  /**
   * A log whose new entries avoid the walk, extended by at most the first walked path, has
   * new entries that avoid the rest of the walk.
   */
  lemma LogAvoidsRest(log: seq<string>, log': seq<string>, n: nat, walked: seq<string>)
    requires walked != [] && walked[0] !in walked[1..]
    requires forall i | n <= i < |log| :: log[i] !in walked
    requires log' == log || log' == log + [walked[0]]
    ensures forall i | n <= i < |log| :: log[i] != walked[0]
    ensures forall i | n <= i < |log'| :: log'[i] !in walked[1..]
  {
    forall i | n <= i < |log'| ensures log'[i] !in walked[1..] {
      if i < |log| {
        assert log'[i] == log[i] && log[i] !in walked;
      }
    }
  }

  /**
   * A log whose new entries are built or not queued, extended by at most the first queued
   * path when that is not built, has new entries that are built or not among the later queue.
   */
  lemma QueueLogRest(log: seq<string>, log': seq<string>, built: set<string>, n: nat, queue: seq<string>)
    requires queue != [] && queue[0] !in queue[1..]
    requires forall i | n <= i < |log| :: log[i] in built || log[i] !in queue
    requires log' == log || (queue[0] !in built && log' == log + [queue[0]])
    ensures forall i | n <= i < |log| :: log[i] in built || log[i] != queue[0]
    ensures forall i | n <= i < |log'| :: log'[i] in built || log'[i] !in queue[1..]
  {
    forall i | n <= i < |log'| ensures log'[i] in built || log'[i] !in queue[1..] {
      if i < |log| {
        assert log'[i] == log[i] && (log[i] in built || log[i] !in queue);
      }
    }
  }

  /** Rebuilding a queued path keeps the run's invariant. */
  lemma RebuildKeeps(env: Env, inputDir: string, outputDir: string, n: nat, acc: Pass, q: string)
    requires PassOk(env, inputDir, outputDir, n, acc)
    requires Resolve(inputDir, Relativize(inputDir, q)) == q
    requires forall i | n <= i < |acc.st.log| :: acc.st.log[i] in acc.built || acc.st.log[i] != q
    ensures var v := RebuildQueued(env, inputDir, outputDir, acc, q);
      v.Success? ==> PassOk(env, inputDir, outputDir, n, v.value)
  {
    var v := RebuildQueued(env, inputDir, outputDir, acc, q);
    if v.Success? && q !in acc.built {
      var rel := Relativize(inputDir, q);
      ResolveExtension(outputDir, rel);
      var classFile := JavaToClassFilename(Resolve(outputDir, rel)).value;
      assert v == CompileOne(env, acc, q, rel, classFile);
      CompileOneKeeps(env, inputDir, outputDir, n, acc, q, rel, classFile);
    }
  }

  /** The second pass keeps the run's invariant. */
  lemma {:induction false} SecondPassKeeps(env: Env, inputDir: string, outputDir: string, n: nat, acc: Pass, queue: seq<string>)
    requires PassOk(env, inputDir, outputDir, n, acc)
    requires NoDups(queue)
    requires forall q | q in queue :: Resolve(inputDir, Relativize(inputDir, q)) == q
    requires forall i | n <= i < |acc.st.log| :: acc.st.log[i] in acc.built || acc.st.log[i] !in queue
    ensures var r := SecondPass(env, inputDir, outputDir, acc, queue);
      r.Success? ==> PassOk(env, inputDir, outputDir, n, r.value)
    decreases |queue|
  {
    if queue != [] {
      var q := queue[0];
      var v := RebuildQueued(env, inputDir, outputDir, acc, q);
      if v.Success? {
        NoDupsTail(queue);
        QueueLogRest(acc.st.log, v.value.st.log, acc.built, n, queue);
        RebuildKeeps(env, inputDir, outputDir, n, acc, q);
        assert SecondPass(env, inputDir, outputDir, acc, queue) == SecondPass(env, inputDir, outputDir, v.value, queue[1..]);
        SecondPassKeeps(env, inputDir, outputDir, n, v.value, queue[1..]);
      }
    }
  }

  /** The first-pass compiles followed by the queued dependents the first pass did not build. */
  function PlannedCompiles(env: Env, inputDir: string, outputDir: string, previous: Option<BuildInfo>, fs: Fs, walked: seq<string>): seq<string> {
    var compiled := FreshSources(env, inputDir, outputDir, previous, fs, walked);
    compiled + Unbuilt(QueueAfter(inputDir, previous, [], compiled), set p | p in compiled)
  }

  /**
   * On a source tree, internalCompile hands javac every walked file that is not up to date,
   * in walk order, then every direct dependent of those (from the prior records) that was not
   * compiled already, in queue order; each at most once.
   */
  lemma InternalCompileLog(env: Env, inputDir: string, outputDir: string, walked: seq<string>, previous: Option<BuildInfo>, st: State)
    requires SourceTree(inputDir, walked)
    ensures var r := InternalCompile(env, inputDir, outputDir, walked, previous, st);
      r.Success? ==> r.value.0.log == st.log + PlannedCompiles(env, inputDir, outputDir, previous, st.fs, walked)
    ensures NoDups(PlannedCompiles(env, inputDir, outputDir, previous, st.fs, walked))
  {
    var compiled := FreshSources(env, inputDir, outputDir, previous, st.fs, walked);
    var queue := QueueAfter(inputDir, previous, [], compiled);
    var first := FirstPass(env, inputDir, outputDir, previous, Start(st), walked);
    FirstPassPlan(env, inputDir, outputDir, previous, Start(st), walked);
    var r := InternalCompile(env, inputDir, outputDir, walked, previous, st);
    if r.Success? {
      var acc := first.value;
      assert acc.built == set p | p in compiled;
      assert acc.toBuild == queue;
      var second := SecondPass(env, inputDir, outputDir, acc, acc.toBuild);
      SecondPassPlan(env, inputDir, outputDir, acc, acc.toBuild);
      assert r.value.0 == second.value.st;
      AppendAssoc(st.log, compiled, Unbuilt(queue, set p | p in compiled));
    }
    UnbuiltNoDups(queue, set p | p in compiled);
    NoDupsAppend(compiled, Unbuilt(queue, set p | p in compiled));
  }

  /**
   * On a source tree, internalCompile returns one record per javac call, keyed by the compiled
   * file's path relative to the input directory and holding the hashes of its source and class
   * as the run leaves them; the records form a well-formed dependency graph.
   */
  lemma InternalCompileRecords(env: Env, inputDir: string, outputDir: string, walked: seq<string>, previous: Option<BuildInfo>, st: State)
    requires SourceTree(inputDir, walked)
    ensures var r := InternalCompile(env, inputDir, outputDir, walked, previous, st);
      r.Success? ==>
        var records := r.value.1;
        |r.value.0.log| == |st.log| + |records| && WellFormed(records) &&
        forall i | 0 <= i < |records| ::
          r.value.0.log[|st.log| + i] == Resolve(inputDir, records[i].relativePathStr) &&
          GetExtension(records[i].relativePathStr) == JavaExtension &&
          Current(env, inputDir, outputDir, r.value.0.fs, records[i])
  {
    var n := |st.log|;
    var r := InternalCompile(env, inputDir, outputDir, walked, previous, st);
    if r.Success? {
      var acc := FirstPass(env, inputDir, outputDir, previous, Start(st), walked).value;
      FirstPassReady(env, inputDir, outputDir, walked, previous, st);
      SecondPassKeeps(env, inputDir, outputDir, n, acc, acc.toBuild);
      var second := SecondPass(env, inputDir, outputDir, acc, acc.toBuild).value;
      assert r.value == (second.st, LinkDependents(second.records, second.classes));
      RecordsLinked(env, inputDir, outputDir, n, second);
    }
  }

  /** After the first pass the second may start: its queue and log meet SecondPassKeeps' needs. */
  lemma FirstPassReady(env: Env, inputDir: string, outputDir: string, walked: seq<string>, previous: Option<BuildInfo>, st: State)
    requires SourceTree(inputDir, walked)
    ensures var first := FirstPass(env, inputDir, outputDir, previous, Start(st), walked);
      first.Success? ==>
        var acc := first.value;
        PassOk(env, inputDir, outputDir, |st.log|, acc) && NoDups(acc.toBuild) &&
        (forall q | q in acc.toBuild :: Resolve(inputDir, Relativize(inputDir, q)) == q) &&
        forall i | |st.log| <= i < |acc.st.log| :: acc.st.log[i] in acc.built
  {
    var n := |st.log|;
    var first := FirstPass(env, inputDir, outputDir, previous, Start(st), walked);
    FirstPassKeeps(env, inputDir, outputDir, previous, n, Start(st), walked);
    if first.Success? {
      var acc := first.value;
      var compiled := FreshSources(env, inputDir, outputDir, previous, st.fs, walked);
      FirstPassPlan(env, inputDir, outputDir, previous, Start(st), walked);
      assert Planned(inputDir, previous, Start(st), compiled, acc);
      QueueResolves(inputDir, previous, compiled);
      LoggedBuilt(st.log, compiled, acc.st.log, acc.built);
    }
  }

  lemma LoggedBuilt(log0: seq<string>, compiled: seq<string>, log: seq<string>, built: set<string>)
    requires log == log0 + compiled
    requires built == {} + set p | p in compiled
    ensures forall i | |log0| <= i < |log| :: log[i] in built
  {
    forall i | |log0| <= i < |log| ensures log[i] in built {
      assert log[i] == compiled[i - |log0|];
    }
  }

  /** Every queued path lies below the input directory. */
  lemma QueueResolves(inputDir: string, previous: Option<BuildInfo>, compiled: seq<string>)
    ensures forall q | q in QueueAfter(inputDir, previous, [], compiled) :: Resolve(inputDir, Relativize(inputDir, q)) == q
  {
    forall q | q in QueueAfter(inputDir, previous, [], compiled) ensures Resolve(inputDir, Relativize(inputDir, q)) == q {
      var p :| p in compiled && q in Dependents(inputDir, previous, p);
      var d :| d in DependentPaths(previous, Relativize(inputDir, p)) && q == Resolve(inputDir, d);
      RelativizeResolve(inputDir, d);
    }
  }

  /** Linking the records of a finished run keeps them current and makes a well-formed graph. */
  lemma RecordsLinked(env: Env, inputDir: string, outputDir: string, n: nat, b: Pass)
    requires PassOk(env, inputDir, outputDir, n, b)
    ensures var records := LinkDependents(b.records, b.classes);
      |b.st.log| == n + |records| && WellFormed(records) &&
      forall i | 0 <= i < |records| ::
        b.st.log[n + i] == Resolve(inputDir, records[i].relativePathStr) &&
        GetExtension(records[i].relativePathStr) == JavaExtension &&
        Current(env, inputDir, outputDir, b.st.fs, records[i])
  {
    LinkDependentsWellFormed(b.records, b.classes);
  }

  /** Only class files differ between the two filesystems. */
  ghost predicate SourcesKept(fs1: Fs, fs2: Fs) {
    forall q | GetExtension(q) != ClassExtension :: Agree(fs1, fs2, q)
  }

  /** The first pass writes class files only. */
  lemma {:induction false} FirstPassSourcesKept(env: Env, inputDir: string, outputDir: string, previous: Option<BuildInfo>, acc: Pass, walked: seq<string>)
    ensures var r := FirstPass(env, inputDir, outputDir, previous, acc, walked);
      r.Success? ==> SourcesKept(acc.st.fs, r.value.st.fs)
    decreases |walked|
  {
    if walked != [] {
      var v := VisitWalked(env, inputDir, outputDir, previous, acc, walked[0]);
      if v.Success? {
        VisitSourcesKept(env, inputDir, outputDir, previous, acc, walked[0]);
        assert FirstPass(env, inputDir, outputDir, previous, acc, walked) ==
          FirstPass(env, inputDir, outputDir, previous, v.value, walked[1..]);
        FirstPassSourcesKept(env, inputDir, outputDir, previous, v.value, walked[1..]);
        var r := FirstPass(env, inputDir, outputDir, previous, v.value, walked[1..]);
        if r.Success? {
          SourcesKeptTrans(acc.st.fs, v.value.st.fs, r.value.st.fs);
        }
      }
    }
  }

  /** Visiting a walked path writes its class file only. */
  lemma VisitSourcesKept(env: Env, inputDir: string, outputDir: string, previous: Option<BuildInfo>, acc: Pass, p: string)
    ensures var v := VisitWalked(env, inputDir, outputDir, previous, acc, p);
      v.Success? ==> SourcesKept(acc.st.fs, v.value.st.fs)
  {
  }

  lemma SourcesKeptTrans(fs1: Fs, fs2: Fs, fs3: Fs)
    requires SourcesKept(fs1, fs2) && SourcesKept(fs2, fs3)
    ensures SourcesKept(fs1, fs3)
  {
  }

  /** The second pass writes class files only. */
  lemma {:induction false} SecondPassSourcesKept(env: Env, inputDir: string, outputDir: string, acc: Pass, queue: seq<string>)
    ensures var r := SecondPass(env, inputDir, outputDir, acc, queue);
      r.Success? ==> SourcesKept(acc.st.fs, r.value.st.fs)
    decreases |queue|
  {
    if queue != [] {
      var v := RebuildQueued(env, inputDir, outputDir, acc, queue[0]);
      if v.Success? {
        SecondPassSourcesKept(env, inputDir, outputDir, v.value, queue[1..]);
      }
    }
  }

  /** internalCompile changes nothing in the filesystem but class files. */
  lemma InternalCompileSourcesKept(env: Env, inputDir: string, outputDir: string, walked: seq<string>, previous: Option<BuildInfo>, st: State)
    ensures var r := InternalCompile(env, inputDir, outputDir, walked, previous, st);
      r.Success? ==> SourcesKept(st.fs, r.value.0.fs)
  {
    var r := InternalCompile(env, inputDir, outputDir, walked, previous, st);
    if r.Success? {
      var first := FirstPass(env, inputDir, outputDir, previous, Start(st), walked).value;
      FirstPassSourcesKept(env, inputDir, outputDir, previous, Start(st), walked);
      SecondPassSourcesKept(env, inputDir, outputDir, first, first.toBuild);
    }
  }
}

=== FILE: wrappers.dfy ===
/** Failure-compatible wrappers used for the source's nullable values and its exceptions. */
module Wrappers {

  /** A nullable value: Kotlin's `T?`. */
  datatype Option<+T> = None | Some(value: T)

  /** The outcome of an operation that may throw. */
  datatype Result<+T, +E> = Success(value: T) | Failure(error: E) {

    predicate IsFailure() {
      Failure?
    }

    function PropagateFailure<U>(): Result<U, E>
      requires Failure?
    {
      Failure(error)
    }

    function Extract(): T
      requires Success?
    {
      value
    }
  }

  /** The exceptions of the source that end a run, each with the path it concerns. */
  datatype Fault =
    | AssertionFailed(path: string)   // `assert(getExtension(..) == "java")` in javaToClassFilename
    | NoSuchFile(path: string)        // reading or hashing a file that does not exist
    | StackOverflow(path: string)     // recursion deeper than the stack allows
    | DuplicateKey(path: string)      // `Collectors.toMap` meeting a key twice
    | NotADirectory(path: string)     // `listFiles()` of a path that is no directory is null
}
